=== FILE: README.md ===
# Turn segmentation and GPS-delay evaluation, modelled in Dafny

This project models the turn-segmentation pipeline of the GPS time-delay
tool chain. The pipeline has these parts:

- **Aligning the GPS and NZZ streams** (`detect_turns.py`). GPS and NZZ
  heading records are matched by their date-and-time key; the first record
  of each second wins, and keys are matched exactly or after zero-padding.
  The matched samples are put in time order.
- **Turn rates and smoothing.** A heading difference is moved into
  (-180, 180]. One rate is computed per positive time step, and the rates
  are smoothed by a centred moving average.
- **The turn segmenter.** A three-phase machine: idle, accumulating, end
  timing. It is shared by the Python `detect_turn_segments` and the C++
  `TurnDetector`. The C++ detector's life cycle is modelled with it:
  `Initialize`, `AddHeadingData` (headings kept in [0, 360)), `Finalize`
  and the two accessors.
- **The turn file.** It is written by `save_results` and read back by
  `load_turn_segments`.
- **The RMS windows** of `auto_pos_rms.py` and
  `auto_lateral_residuals_rms.py`:
  - loading the error tables;
  - the inclusive time mask;
  - the per-turn records, where the last turn with an id wins;
  - the whole-trajectory record (id 0);
  - the file names per GPS offset.
- **Reading an RMS file** (`parse_rms_file`): section headers and data rows.
- **Lateral residual analysis**: the single-file analysis and the offset
  taken from a file name.
- **The FBK installation-angle log** (`plot_FBk.py`): flag lines are paired
  with misalignment lines, and timestamps are converted.
- **The C++ text reader** `TxtIO::Go` and its decoders:
  - GPS, ACC and GYR;
  - ACC/GYR pairing within 50 ms into IMU samples;
  - NZZ key deduplication;
  - FBK pairing.
- **Angle helpers** of `math_utils.h`.

Parsers (`float`, `int`, `std::stod`, `std::stoi`, regular expressions) and
number formatting are function parameters. A parser returns `None` where
the original raises. Callbacks become the sequence of events the reader
emits. File contents are sequences of lines or numeric tables, with `None`
for a file that cannot be opened or loaded. The three parallel lists of
the FBK log reader are one list of (timestamp, pitch, heading) records, so
their lengths agree by construction.

The C++ and Python versions differ in a few places. Each version is
modelled as its code does it:

- **GPS gate.** `_parse_gps_line` needs 25 whitespace tokens including the
  `$GPS` tag. `ProcessGPS` needs 25 tokens after the tag.
  `TxtReader.GpsKeyMatchesPython` proves that both read the same six time
  fields.
- **NZZ gate.** `_parse_nzz_line` needs 20 tokens. `ProcessNZZ` needs 12
  after the tag.
- **A malformed NZZ heading.** In Python it leaves the key free for a later
  record of the same second. In C++ the key is recorded before the heading
  is parsed, so that later record is dropped
  (`TxtReader.BadHeadingUsesKey`).
- **FBK line prefixes.** The Python reader matches `$FBK flag` /
  `$FBK misalignment` on the whole line. The C++ reader matches `flag` /
  `misalignment` on the text after the tag.
- **FBK timestamps.** The C++ reader takes the flag timestamp as
  `stod(...)/1000` seconds. The Python reader keeps integer milliseconds.
- **FBK angles.** The C++ reader looks for `pitch:` / `heading:` only in
  the second space-separated token, split on commas. Both readers pair
  lines by the same pending-timestamp machine (`FbkLog.Step`);
  `TxtReader.FbkFollowsPairing` proves this for the C++ reader.
- **Sorting.** The C++ `Finalize` sorts with `std::sort`, which is not
  stable. The model uses the stable sort of Python's `list.sort` for both
  (see Left out). On that basis `Detector.CppMatchesPython` proves that
  the C++ detector reports exactly the turns of the Python detector.
  `Detector.CppAnySortMatchesPython` drops the stability assumption for
  samples with pairwise distinct timestamps: every order `std::sort` may
  produce is then the Python order.
- **Whitespace.** C++ `stream >> field` splits on the six characters of C's
  `isspace`. Python's `str.split()` and `str.strip()` also treat the
  Unicode separators and spaces as whitespace, for example U+00A0.
  `Text.TokensAgree` proves both split a line alike when it holds none of
  the Python-only characters, and `Text.NoBreakSpaceSplitsOnlyInPython`
  shows a line where they differ.

The sample that opens a turn adds no angle: the first rate point only
opens the segment. So a turn of +10 deg/s held for 4 s, sampled at 1 Hz,
accumulates 30 degrees, not 40.

## Model

| member | source | states |
|---|---|---|
| AngleMath.KeepAngleInPI | src/common/math_utils.h:67-76 | the result lies in [-pi, pi] and differs from the input by a whole number of 2*pi turns; an angle already in range is returned unchanged |
| AngleMath.LimitInRange | src/common/math_utils.h:188-197 | with lo <= hi the result lies in [lo, hi]; values in [lo, hi) are kept; values at or above hi give hi; values below lo give lo, or hi when lo >= hi because the upper check runs second |
| AngleMath.Deg2Rad | src/common/math_utils.h:180-183 | rad2deg of the result gives back the degrees; the sign is kept |
| AngleMath.Deg2RadOfRad2Deg | src/common/math_utils.h:175-183 | deg2rad undoes rad2deg |
| Heading.NormalizeHeadingDiff | src/ch3/detect_turns.py:203-219 | the result is h2 - h1 moved by at most one 360; it lies in (-180, 180] whenever the raw difference is within (-540, 540]; a difference already in range is kept |
| Heading.HeadingDiffInRange | src/ch3/detect_turns.py:203-219 | for two compass headings the difference is a signed turn in (-180, 180] |
| Heading.HeadingDiffAcrossNorth | src/ch3/detect_turns.py:214-219 | 350 to 10 degrees is +20, 10 to 350 is -20 |
| Heading.HeadingDiffAntisymmetric | src/ch3/detect_turns.py:214-219 | swapping the headings negates the difference, except a half turn, which is +180 both ways |
| Heading.NormalizeHeading | src/ch3/turn_detector.cc:41-43 | the stored heading lies in [0, 360), differs from the raw one by whole turns, and equals it when it is already in range |
| Heading.NormalizeHeadingUnique | src/ch3/turn_detector.cc:41-43 | the stored heading is the only compass heading that differs from the raw one by whole turns |
| Heading.SortByTime | src/ch3/detect_turns.py:177-178 | the result is in timestamp order and is a permutation of the input; for every timestamp, the samples carrying it appear in their input order (the sort is stable) |
| Heading.InsertByTime | src/ch3/detect_turns.py:177-178 | inserting one sample into a sorted list gives a sorted list holding one more sample |
| Heading.InsertStable | src/ch3/detect_turns.py:177-178 | an inserted sample goes behind every sample with the same timestamp |
| Heading.SortedPermutationUnique | src/ch3/turn_detector.cc:289-292 | with pairwise distinct timestamps, any two time-sorted permutations of the same samples are equal, so a stable and an unstable sort agree |
| Heading.SortSortedIsIdentity | src/ch3/detect_turns.py:177-178 | input already in timestamp order is returned unchanged, so equal timestamps keep their order |
| RateSeries.TurnRates | src/ch3/detect_turns.py:221-249 | at most one rate per consecutive pair; none for fewer than two samples (TurnRatesAtSteps gives the contents) |
| RateSeries.PositiveSteps | src/ch3/detect_turns.py:233-240 | exactly the indices i whose step from sample i-1 is positive, in increasing order |
| RateSeries.TurnRatesAtSteps | src/ch3/detect_turns.py:233-247 | for any samples, rate k is the normalized heading difference over the time step of the k-th positive step, stamped with its later sample; pairs with a zero or negative step are skipped and no other pair is |
| RateSeries.SkippedPairExample | src/ch3/detect_turns.py:233-240 | samples (0,0), (1,10), (1,20), (2,30) give the two rates (1, 10) and (2, 10): the zero step is skipped |
| RateSeries.TurnRatesSound | src/ch3/detect_turns.py:233-247 | every rate point is the normalized heading difference over the time step of some consecutive pair with a positive step, stamped with the later sample |
| RateSeries.TurnRatesComplete | src/ch3/detect_turns.py:233-247 | the special case of strictly increasing timestamps: exactly one rate per consecutive pair, in order |
| RateSeries.TurnRatesIncreasing | src/ch3/detect_turns.py:233-247 | for time-ordered samples the rate timestamps strictly increase and lie after the first and no later than the last sample |
| RateSeries.WindowRates | src/ch3/detect_turns.py:268-271 | the averaging window of index i holds the rates of [max(0, i - w/2), min(n, i + w/2 + 1)) in order; it is non-empty and has at most 2*(w/2)+1 rates |
| RateSeries.Smooth | src/ch3/turn_detector.cc:87-115 | the smoothed series keeps the length and every timestamp; fewer points than the window, or a negative window (converted to an unsigned size in the comparison), return the rates unchanged; otherwise each rate is the mean of its centred window |
| RateSeries.SmoothKeepsBounds | src/ch3/detect_turns.py:266-275 | smoothed rates stay within any bounds that hold for all raw rates |
| RateSeries.WindowAverage | src/ch3/turn_detector.cc:96-108 | the summing loop returns the mean of the window's rates (the count is never zero, so the 0.0 fallback is never taken) |
| Segmenter.Step | src/ch3/detect_turns.py:315-403 | one rate point records at most one turn, and none from idle (StepKeepsInvariant states the rest) |
| Segmenter.Flush | src/ch3/detect_turns.py:405-411 | at most one turn is recorded at the end, none when idle |
| Segmenter.Run | src/ch3/detect_turns.py:315-411 | the scan from index i records at most one turn per remaining point plus one (RunOk states what they satisfy) |
| Segmenter.Segment | src/ch3/detect_turns.py:279-413 | the scan from idle over all points; SegmentOk states what its turns satisfy |
| Segmenter.Segments | src/ch3/detect_turns.py:414-436 | one reported turn per closed segment, in order; turn k runs from the timestamp of the segment's start index to that of its end index and carries its angle, its direction and a mean unsigned rate whose product with the rate count is the sum of the unsigned rates |
| Segmenter.Record | src/ch3/detect_turns.py:414-436 | a recorded turn has the start and end indices' timestamps, the accumulated angle and direction, and a non-negative average rate equal to the sum of the unsigned rates over their count (0 for no rates) |
| Segmenter.AvgAbsRate | src/ch3/turn_detector.cc:255-263 | the average is non-negative, times the count it gives the sum of the unsigned rates, and it is 0 for an empty list |
| Segmenter.CppAvgAbsRate | src/ch3/turn_detector.cc:255-263 | the C++ summing loop returns the mean unsigned rate, 0 for an empty list |
| Segmenter.IdleStep | src/ch3/detect_turns.py:318-327 | from idle a turn starts exactly when the unsigned rate exceeds the start threshold, with angle 0, rate list [rate] and direction from the sign; nothing is recorded |
| Segmenter.ReversalStep | src/ch3/detect_turns.py:342-362 | a reversal stronger than the start threshold records the old turn, ending one index earlier, exactly when its angle reached the threshold; it restarts at this index with the unsigned angle change and the rate listed twice |
| Segmenter.WeakOppositeStep | src/ch3/detect_turns.py:342-362 | an opposite rate above the end threshold but not the start threshold adds no angle and is appended to the rate list |
| Segmenter.EnterEndTimingStep | src/ch3/detect_turns.py:364-367 | a rate at or below the end threshold starts the end timer at this timestamp and keeps the turn |
| Segmenter.DebounceKeepsAngle | src/ch3/detect_turns.py:391-402 | a rate recovering during end timing resumes accumulation with the same start and direction, angle not decreased, rate appended, nothing recorded |
| Segmenter.EndTimingStep | src/ch3/detect_turns.py:371-389 | during end timing the turn ends exactly when the timer reached the end duration, and is recorded, ending at this index, exactly when it also reached the angle threshold |
| Segmenter.FlushRecordsOpenTurn | src/ch3/detect_turns.py:405-411 | a turn open at the end is recorded, ending at the last index, exactly when its angle reached the threshold |
| Segmenter.StepKeepsInvariant | src/ch3/detect_turns.py:315-403 | one step keeps the open-turn invariant and records at most one turn, which is well formed and ends before anything recorded later starts |
| Segmenter.RunOk | src/ch3/detect_turns.py:315-411 | every recorded turn is well formed (clears the angle gate, started above the start threshold with its direction from that rate, later rates above the end threshold) and turns follow each other in index order without overlap |
| Segmenter.SegmentOk | src/ch3/detect_turns.py:279-413 | the whole scan from idle records only well-formed, non-overlapping turns |
| Segmenter.AvgAbsRateBound | src/ch3/detect_turns.py:425 | the mean unsigned rate is at least any lower bound of the unsigned rates |
| Segmenter.SegmentsOk | src/ch3/detect_turns.py:279-436 | every reported turn has angle >= the angle threshold and average rate >= the smaller threshold; with increasing timestamps each starts no later than it ends and ends before the next starts |
| Detector.DefaultsAgree | src/ch3/turn_detector.h:67-71 | the C++ default configuration (3.0, 1.5, 3.0, 30.0, window 5) is the Python detector's default one |
| Detector.PyConfig | src/ch3/detect_turns.py:40-56 | the Python detector takes the four thresholds as given and smooths with a window of 5 |
| Detector.Initialize | src/ch3/turn_detector.cc:11-33 | a first call stores file and configuration and clears data and state; a later call changes nothing |
| Detector.InitializeIdempotent | src/ch3/turn_detector.cc:12-15 | initializing twice is initializing once |
| Detector.AddHeadingData | src/ch3/turn_detector.cc:35-46 | before Initialize nothing changes; after it exactly one sample with this timestamp and a heading in [0, 360) is appended and nothing else changes |
| Detector.AddAllStoresCompassHeadings | src/ch3/turn_detector.cc:35-46 | every stored heading lies in [0, 360); headings already in range are stored as given, in arrival order |
| Detector.DetectTurnSegments | src/ch3/turn_detector.cc:117-126 | with no rates the previous result is kept; otherwise only the detected turns change, one per segment of the smoothed rates |
| Detector.Finalize | src/ch3/turn_detector.cc:275-305 | an uninitialized detector or one with fewer than two samples is unchanged; otherwise the samples are put in time order as a permutation, and the state and configuration are kept |
| Detector.FinalizeTurnsOk | src/ch3/turn_detector.cc:275-305 | the turns Finalize reports clear the angle gate, have an average rate at least the smaller threshold, start no later than they end, and do not overlap |
| Detector.CppMatchesPython | src/ch3/turn_detector.cc:117-246 | initializing, adding compass headings and finalizing detects exactly the turns the Python detector finds on the time-sorted samples |
| Detector.FinalizeDetects | src/ch3/turn_detector.cc:288-298 | on an initialized detector with no earlier result, Finalize detects the Python detector's turns on the sorted samples |
| Detector.CppAnySortMatchesPython | src/ch3/turn_detector.cc:288-298 | for samples with pairwise distinct timestamps, any time-sorted permutation `std::sort` may produce is the Python order, and the C++ detector reports the Python detector's turns on it |
| Detector.CalculateTurnRates | src/ch3/turn_detector.cc:59-85 | only the rates change; rate k comes from the k-th positive time step of the stored samples |
| Detector.DetectTurnSegmentsPy | src/ch3/detect_turns.py:279-297 | fewer than two samples give no turns; otherwise the segments of the smoothed rates (SegmentsOk states what they satisfy) |
| Detector.AccessorsNeverChange | src/ch3/turn_detector.h:91-96 | IsInTurn stays false and GetAccumulatedAngle stays 0 through every public operation, because detection works on local state |
| StreamAligner.InsertFirst | src/ch3/detect_turns.py:120-122 | the first value stored under a key is kept; an absent key is appended with the new value |
| StreamAligner.GpsTime | src/ch3/detect_turns.py:108-118 | a time key exists exactly when all six fields 19..24 parse as integers, and it is "y-mo-d h:mi:s" written from those six integers |
| StreamAligner.GpsEntry | src/ch3/detect_turns.py:99-116 | a line carries an entry exactly when it has at least 25 tokens, field 1 parses and fields 19..24 parse; the entry is (the time key built from fields 19..24, field 1 / 1000) |
| StreamAligner.ParseGpsLine | src/ch3/detect_turns.py:99-125 | with at least 25 tokens, a parsable timestamp in field 1, six parsable time fields and a second not yet seen, the entry (time key, field 1 / 1000) is appended; in every other case the table is unchanged |
| StreamAligner.ParseNzzLine | src/ch3/detect_turns.py:127-152 | fewer than 20 tokens or an unparsable field 12 change nothing; otherwise the key of fields 1 and 2 maps to the first heading seen for it |
| StreamAligner.NzzEntry | src/ch3/detect_turns.py:127-145 | a line carries an entry exactly when it has at least 20 tokens and field 12 parses; the entry is (fields 1 and 2 joined by one space, field 12) |
| StreamAligner.ReadLine | src/ch3/detect_turns.py:74-84 | a stripped line starting with $GPS goes to the GPS parser and leaves the NZZ table alone; one starting with $NZZ (and not $GPS) goes to the NZZ parser and leaves the GPS table alone; any other line changes nothing |
| StreamAligner.ReadLines | src/ch3/detect_turns.py:71-84 | neither table has more entries than there are lines |
| StreamAligner.ReadLineClaims | src/ch3/detect_turns.py:74-84 | one line inserts first-wins into each table exactly the entry it claims for that table, if any |
| StreamAligner.ReadLinesCollects | src/ch3/detect_turns.py:71-84 | the two tables read line by line are the first-wins collections of the lines' GPS claims and NZZ claims |
| StreamAligner.InsertFirstOther | src/ch3/detect_turns.py:120-122 | inserting under one key leaves the lookup of every other key unchanged |
| StreamAligner.CollectKeys | src/ch3/detect_turns.py:120-122 | a key is in a first-wins table exactly when some claim is for it |
| StreamAligner.CollectFirst | src/ch3/detect_turns.py:120-122 | a first-wins table maps a key to v exactly when the first claim for that key carries v |
| StreamAligner.GpsClaimAt | src/ch3/detect_turns.py:79-80 | a line claims (k, v) for the GPS table exactly when it is a stripped `$GPS` line whose fields give the entry (k, v) |
| StreamAligner.NzzClaimAt | src/ch3/detect_turns.py:79-82 | a line claims (k, v) for the NZZ table exactly when it is a stripped `$NZZ` line, not a `$GPS` line, whose fields give the entry (k, v) |
| StreamAligner.ReadLinesGps | src/ch3/detect_turns.py:71-125 | the GPS table maps k to v exactly when some `$GPS` line carries (k, v) and no earlier `$GPS` line carries k |
| StreamAligner.ReadLinesNzz | src/ch3/detect_turns.py:71-152 | the NZZ table maps k to v exactly when some `$NZZ` line carries (k, v) and no earlier `$NZZ` line carries k |
| StreamAligner.NormalizeTimeKey | src/ch3/detect_turns.py:181-201 | a key lacking '-' or ':' is returned unchanged; a rewritten key contains both |
| StreamAligner.NormalizeUnpadded | src/ch3/detect_turns.py:181-201 | a key "Y-M-D H:M:S" of separator-free pieces normalizes to the key with month, day, hour, minute and second zero-filled to two characters |
| StreamAligner.UnpaddedMeetsPadded | src/ch3/detect_turns.py:181-201 | an unpadded key and the padded key of the same pieces normalize alike |
| StreamAligner.GpsKeyNormalizes | src/ch3/detect_turns.py:118-122 | the key of a GPS record with non-negative fields normalizes to the zero-padded key of its six integers |
| StreamAligner.ParsedGpsKeyNormalizes | src/ch3/detect_turns.py:99-122 | the key read from a `$GPS` line with non-negative time fields normalizes to the zero-padded key of fields 19..24 |
| StreamAligner.NormalizeTimeKeyIdempotent | src/ch3/detect_turns.py:181-201 | normalizing a normalized key changes nothing |
| StreamAligner.PaddedKeyFixed | src/ch3/detect_turns.py:189-197 | a key built from zero-padded parts normalizes to itself |
| StreamAligner.FirstNormalizedMatch | src/ch3/detect_turns.py:169-175 | a result is the heading of the first NZZ entry, in insertion order, whose key has the same normalized form; no result means no key normalizes alike |
| StreamAligner.MatchOne | src/ch3/detect_turns.py:164-175 | an exact key match takes precedence; otherwise the normalized search decides |
| StreamAligner.MatchedPositions | src/ch3/detect_turns.py:158-175 | exactly the positions of the GPS entries whose key finds a heading, in increasing order |
| StreamAligner.MatchEntriesAtPositions | src/ch3/detect_turns.py:158-175 | sample j of the matching is (GPS time, found heading) of the j-th GPS entry that finds a heading, so every matching entry gives one sample in GPS order and no other entry gives one |
| StreamAligner.MatchEntries | src/ch3/detect_turns.py:158-175 | at most one sample per GPS entry (MatchEntriesAtPositions gives the contents) |
| StreamAligner.MatchEntriesExact | src/ch3/detect_turns.py:158-167 | when every GPS key is an NZZ key, there is one sample per GPS entry, in order, with that key's heading |
| StreamAligner.MatchEntriesUnmatched | src/ch3/detect_turns.py:158-175 | when no GPS key matches, there are no samples |
| StreamAligner.MatchGpsNzz | src/ch3/detect_turns.py:154-179 | the matched samples are in timestamp order, a permutation of the matches, at most one per GPS entry |
| StreamAligner.ParseLogData | src/ch3/detect_turns.py:58-97 | an unreadable file gives no samples; otherwise the samples are in time order, no more than the lines, and a reordering of the matches of the two tables read from the lines (ReadLinesGps and ReadLinesNzz give the tables' contents) |
| TxtReader.TryCreateImu | src/common/io_utils.cc:386-414 | an IMU sample is made exactly when both samples wait within 50 ms, at the later time, after which both are cleared; otherwise the older one is dropped; never both remain waiting |
| TxtReader.PairedOnce | src/common/io_utils.cc:386-414 | an ACC then a GYR within the threshold make exactly one IMU sample and are used up |
| TxtReader.NewerSampleKept | src/common/io_utils.cc:393-402 | when the pair is too far apart the older sample is dropped and the newer one pairs with the next partner |
| TxtReader.ProcessAcc | src/common/io_utils.cc:306-344 | fewer than 6 fields or an unparsable field change nothing; a decodable line stores the sample (field 0 / 1000 s; fields 5, 4, 3 times 9.8 as right, front, up) and tries to pair it |
| TxtReader.ProcessGyr | src/common/io_utils.cc:346-384 | fewer than 7 fields or an unparsable field change nothing; a decodable line stores the sample (field 0 / 1000 s; fields 6, 5, 4 in radians as right, front, up) and tries to pair it |
| TxtReader.AccThenGyrPairs | src/common/io_utils.cc:306-414 | a decodable ACC line and then a decodable GYR line within 50 ms, from an empty reader, make one IMU sample with both decoded vectors at the later time, and nothing waits afterwards |
| TxtReader.ProcessGps | src/common/io_utils.cc:69-137 | fewer than 25 fields or an unparsable field among 0 and 6..10 give nothing; otherwise the first event is the fix (field 0 / 1000 s, latitude field 7 and longitude field 6 over 1e7, altitude field 10, heading field 8, status 4 exactly when field 11 is "A", else 0), repeated with its time key exactly when the key callback is set and the time fields parse |
| Text.TokensAgree | src/ch3/detect_turns.py:101 | Python `str.split()` and C++ `>>` extraction give the same fields for a line holding none of the characters only Python counts as whitespace |
| Text.NoBreakSpaceSplitsOnlyInPython | src/common/io_utils.cc:77 | a no-break space separates fields for `str.split()` but not for `>>` extraction |
| TxtReader.GpsKeyMatchesPython | src/common/io_utils.cc:117-132 | for a line without Python-only whitespace, both readers split it alike and the C++ time key is the key the Python aligner builds |
| TxtReader.Go | src/common/io_utils.cc:19-63 | the line loop from a fresh reader; NeverBothPending, SkippedLinesInvisible and NzzKeysDistinct state what it keeps |
| TxtReader.ProcessNzz | src/common/io_utils.cc:139-186 | fewer than 12 fields change nothing; otherwise the key is marked seen, and a record is forwarded exactly when the key was new and the heading parses |
| TxtReader.BadHeadingUsesKey | src/common/io_utils.cc:168-177 | a record whose heading does not parse still uses up its key, so a later good record of the same second is dropped |
| TxtReader.GetlineSplit | src/common/io_utils.cc:262 | no piece contains the separator; an empty text has no pieces |
| TxtReader.CppFbkLine | src/common/io_utils.cc:197-299 | a blank body is ignored; a flag line (trimmed body starting "flag") with fewer than 3 trimmed comma fields has no stamp, else its stamp is field 2 / 1000 when it parses; a misalignment line carries the pitch and heading the `pitch:`/`heading:` pieces of its second token give, or none when they cannot be read |
| TxtReader.ProcessFbk | src/common/io_utils.cc:188-304 | only the pending flag changes; a stamped flag line sets it and emits nothing; a pair is emitted only from a pending flag, carries its timestamp and clears it; every other line leaves the reader unchanged and emits nothing |
| TxtReader.LineStep | src/common/io_utils.cc:19-63 | empty and '#' lines change nothing; NZZ records go to the NZZ decoder; no other line touches the NZZ keys |
| TxtReader.ReadFile | src/common/io_utils.cc:13-17 | a file that cannot be opened gives no events |
| TxtReader.SkippedLinesInvisible | src/common/io_utils.cc:22-29 | inserting an empty or comment line anywhere changes nothing |
| TxtReader.NeverBothPending | src/common/io_utils.cc:386-414 | after any input, an ACC and a GYR sample are never both waiting |
| TxtReader.NzzKeysDistinct | src/common/io_utils.cc:168-174 | the NZZ records forwarded from a whole file have pairwise distinct keys |
| TxtReader.FbkFollowsPairing | src/common/io_utils.cc:188-304 | on a log of FBK lines the C++ reader emits exactly the records of the flag/misalignment pairing machine |
| TxtReader.FbkLineStep | src/common/io_utils.cc:45-46 | an FBK line goes to the FBK decoder with the text after the tag |
| FbkLog.ClassifyFbk | scripts/plot_FBk.py:30-51 | a flag line is exactly one starting with "$FBK flag"; its stamp is the integer of the third comma field, if present; a misalignment line carries both pattern matches |
| FbkLog.Step | scripts/plot_FBk.py:33-61 | a line appends at most one record and keeps the earlier ones; a new record carries the pending stamp, which is then cleared; a stamped flag line sets the pending stamp; any other line that does not complete a record changes nothing |
| FbkLog.ReadLog | scripts/plot_FBk.py:29-61 | never more records than lines |
| FbkLog.ParseLog | scripts/plot_FBk.py:21-75 | success exactly when some record was read; an unreadable file gives none |
| FbkLog.TimestampsUsedOnce | scripts/plot_FBk.py:44-61 | records plus a pending stamp never outnumber the flag lines with a stamp, and records never outnumber complete misalignment lines |
| FbkLog.RecordsGrow | scripts/plot_FBk.py:53-55 | reading more lines only appends records |
| FbkLog.PendingIsLastStamp | scripts/plot_FBk.py:33-40 | a pending timestamp is the stamp of some flag line not yet followed by a record |
| FbkLog.LastStampIsPending | scripts/plot_FBk.py:33-63 | conversely, the stamp of the last stamped flag line with no complete misalignment line after it is the pending one, whatever unparsable lines follow |
| FbkLog.RecordFromPending | scripts/plot_FBk.py:44-61 | a complete misalignment line after a pending stamp appends that stamp with its angles and clears it |
| FbkLog.OrphanDropped | scripts/plot_FBk.py:43-65 | a misalignment line with no pending stamp changes nothing |
| FbkLog.BadFlagKeepsEarlierStamp | scripts/plot_FBk.py:36-40 | a flag line whose timestamp is not an integer keeps the earlier stamp, which the next record uses |
| FbkLog.InterleavedRoundTrip | scripts/plot_FBk.py:29-61 | alternating flag and complete misalignment lines read back as exactly their records |
| FbkLog.Relative | scripts/plot_FBk.py:85-88 | each value is the offset from the first timestamp in seconds |
| FbkLog.Absolute | scripts/plot_FBk.py:90-92 | each value is the timestamp in seconds |
| FbkLog.ConvertTimestamps | scripts/plot_FBk.py:77-103 | no timestamps give an empty list; dates are produced exactly for "datetime" when every timestamp has a date, one per timestamp; otherwise seconds of the same length |
| FbkLog.RelativeIsShiftedAbsolute | scripts/plot_FBk.py:85-92 | relative times are absolute times less the first, start at 0 and keep the timestamp order |
| FbkLog.FormatFallsBack | scripts/plot_FBk.py:94-103 | an unknown format, or "datetime" with an undated timestamp, falls back to relative seconds |
| SegmentFile.DirectionText | src/ch3/detect_turns.py:426 | the direction is written as 左转 or 右转, which contain no comma |
| SegmentFile.PyHeader | src/ch3/detect_turns.py:449-458 | the Python header lines, each '#' before its text; CommentsAreSkipped shows the loader ignores them |
| SegmentFile.CppHeader | src/ch3/turn_detector.cc:316-325 | the C++ header lines, each '#' before its text; CommentsAreSkipped shows the loader ignores them |
| SegmentFile.SaveLines | src/ch3/detect_turns.py:447-463 | the header then one row per turn; SaveLoadRoundTrip reads it back |
| SegmentFile.Comments | src/ch3/detect_turns.py:449-458 | every header line is '#' followed by its text |
| SegmentFile.CommentsAreSkipped | src/ch3/detect_turns.py:449-458 | every header line is a comment to the loader |
| SegmentFile.Rows | src/ch3/detect_turns.py:460-463 | one row per turn, numbered from 1, in order |
| SegmentFile.RowLineShape | src/ch3/detect_turns.py:461-463 | a written row is already stripped, is not a comment, and splits on ',' into its seven fields |
| SegmentFile.ParseRow | src/ch3/auto_pos_rms.py:36-55 | comments, blank lines and lines of fewer than 3 fields are skipped; a turn has id, start and end from fields 0-2, duration from field 3 or end - start, direction from field 6 or 未知 |
| SegmentFile.ParseSevenFields | src/ch3/auto_pos_rms.py:41-47 | a seven-field line reads as id, start, end, duration and the seventh field |
| SegmentFile.LoadTurnSegments | src/ch3/auto_pos_rms.py:28-60 | a missing file gives no turns; never more turns than lines |
| SegmentFile.LoadSkipsComments | src/ch3/auto_pos_rms.py:37-39 | inserting a comment or blank line anywhere changes nothing |
| SegmentFile.ReadRows | src/ch3/auto_pos_rms.py:36-57 | never more turns than lines; ReadRowsAppend and LoadSkipsComments state the rest |
| SegmentFile.ReadRowsAppend | src/ch3/auto_pos_rms.py:36-57 | appending lines that all parse as turns appends exactly those turns |
| SegmentFile.RowRoundTrip | src/ch3/detect_turns.py:460-463 | a written row reads back as its id, the parsed formatted times and duration, and its direction |
| SegmentFile.RowsParse | src/ch3/detect_turns.py:460-463 | row k reads back as turn k + 1 with its formatted values |
| SegmentFile.SaveLoadRoundTrip | src/ch3/detect_turns.py:437-463 | loading a saved file gives one turn per saved turn, in order, numbered from 1, with the formatted times, duration and direction |
| RmsWindows.LoadCorrections | src/ch3/auto_pos_rms.py:14-26 | a table loads exactly when it has at least 2 rows of equal width and at least 4 columns; each sample is (time, dx² + dy²) of its row |
| RmsWindows.LoadLateral | src/ch3/auto_lateral_residuals_rms.py:14-24 | a table loads exactly when it has at least 2 rows of equal width and at least 2 columns; each sample is (time, lateral²) of its row |
| RmsWindows.MeanSquare | src/ch3/auto_pos_rms.py:62-68 | the mean square of no samples is 0 |
| RmsWindows.MeanSquareBounds | src/ch3/auto_pos_rms.py:62-68 | the mean square lies between any bounds of the squared errors |
| RmsWindows.LoadedMeanSquareNonNegative | src/ch3/auto_pos_rms.py:62-68 | the mean square of any loaded samples is never negative |
| RmsWindows.Window | src/ch3/auto_pos_rms.py:116-123 | only samples within the inclusive bounds are kept |
| RmsWindows.WindowSelects | src/ch3/auto_pos_rms.py:116-117 | a sample is kept exactly when it is an input sample within the inclusive bounds |
| RmsWindows.WindowEmpty | src/ch3/auto_pos_rms.py:116-120 | the window is empty exactly when no sample lies within the bounds |
| RmsWindows.WindowAll | src/ch3/auto_pos_rms.py:116-117 | when every sample is within the bounds the window is the whole input |
| RmsWindows.TurnRecords | src/ch3/auto_pos_rms.py:111-142 | each record is stored under its turn id, has samples and carries the offset |
| RmsWindows.AnalyzeTurns | src/ch3/auto_pos_rms.py:101-110 | unloadable samples or no turns give no records |
| RmsWindows.TurnRecordsKeys | src/ch3/auto_pos_rms.py:114-131 | an id has a record exactly when some turn with that id has samples in its window |
| RmsWindows.TurnRecordsLastWins | src/ch3/auto_pos_rms.py:131-140 | an id's record is that of its last turn with samples in its window |
| RmsWindows.AnalyzeFull | src/ch3/auto_pos_rms.py:70-99 | no samples give no record; otherwise exactly one record, id 0, over all samples |
| RmsWindows.FullIsWidestTurn | src/ch3/auto_pos_rms.py:70-142 | for time-ordered samples the whole-trajectory record is the turn record of one turn from the first to the last timestamp |
| RmsWindows.LoadedFullHasRecord | src/ch3/auto_pos_rms.py:70-99 | a loadable table always yields the whole-trajectory record |
| OffsetNames.Truncate | src/ch3/auto_pos_rms.py:176 | Python int() truncates toward zero |
| OffsetNames.MatchAt | scripts/lateral_analysis.py:25 | a match starts at an underscore |
| OffsetNames.ExtractTimeDelay | scripts/lateral_analysis.py:23-29 | the delay is the first match of _(-?digits)ms divided by 1000, else 0 |
| OffsetNames.NoUnderscoreNoDelay | scripts/lateral_analysis.py:25-29 | a name without '_' has delay 0 |
| OffsetNames.MatchOfInt | scripts/lateral_analysis.py:25 | an underscore followed by an integer's text and "ms" matches that integer |
| OffsetNames.NameWithMs | scripts/lateral_analysis.py:23-29 | a name whose first underscore is followed by an integer and "ms" yields that integer / 1000 |
| OffsetNames.CorrectionsFile | src/ch3/auto_pos_rms.py:172-177 | the corrections file of an offset; CorrectionsNameRoundTrip reads the offset back |
| OffsetNames.LateralFile | src/ch3/auto_lateral_residuals_rms.py:167-172 | the lateral file of an offset; LateralNameRoundTrip reads the offset back |
| OffsetNames.CorrectionsNameRoundTrip | src/ch3/auto_pos_rms.py:173-177 | reading the delay back from an offset's corrections file name gives the offset truncated to whole ms |
| OffsetNames.LateralNameRoundTrip | src/ch3/auto_lateral_residuals_rms.py:168-172 | reading the delay back from an offset's lateral file name gives the offset truncated to whole ms |
| OffsetNames.ZeroLateralName | src/ch3/auto_lateral_residuals_rms.py:168-169 | the zero-offset lateral file name reads back as delay 0 |
| OffsetNames.WholeMsRoundTrip | src/ch3/auto_pos_rms.py:173-177 | offsets of whole milliseconds are read back exactly from both file names |
| RmsFile.HeaderTarget | src/ch3/plot_rms_curves.py:41-57 | a header without '(' names no section |
| RmsFile.Classify | src/ch3/plot_rms_curves.py:33-73 | a line is a header exactly when its stripped text starts with one of the two tags; a data line is non-empty, not a comment, and its first two comma fields parse as offset and RMS |
| RmsFile.AppendTo | src/ch3/plot_rms_curves.py:67-71 | the point is appended to its section's list, created when new; other sections are kept |
| RmsFile.Apply | src/ch3/plot_rms_curves.py:37-73 | only headers change the current section, and an unreadable header changes nothing; data before any section is ignored |
| RmsFile.ReadLines | src/ch3/plot_rms_curves.py:33-73 | the line loop; RowsJoinCurrent and SectionRoundTrip state what it reads |
| RmsFile.ParseRmsFile | src/ch3/plot_rms_curves.py:21-79 | a missing or unreadable file gives no sections |
| RmsFile.NoHeaderNoRows | src/ch3/plot_rms_curves.py:60 | without a readable header no row is recorded |
| RmsFile.GroupsGrow | src/ch3/plot_rms_curves.py:67 | a section's points only grow by appending |
| RmsFile.RowsJoinCurrent | src/ch3/plot_rms_curves.py:59-71 | data rows are appended, in order, to the current section with its info |
| RmsFile.HeaderInfo | src/ch3/auto_pos_rms.py:220-226 | a written header's info ends in 's' (the duration) |
| RmsFile.TurnHeader | src/ch3/auto_pos_rms.py:224-226 | the turn-mode header; TurnHeaderReads reads it back |
| RmsFile.WholeHeader | src/ch3/auto_pos_rms.py:220-222 | the whole-trajectory header; WholeHeaderReads reads it back |
| RmsFile.RowLine | src/ch3/auto_pos_rms.py:231-234 | a written data row; RowClassifies reads it back |
| RmsFile.TurnNameId | src/ch3/plot_rms_curves.py:52 | removing the turn tag and stripping gives back the id text |
| RmsFile.TurnHeaderReads | src/ch3/plot_rms_curves.py:41-55 | a written turn header names its id and info |
| RmsFile.WholeHeaderReads | src/ch3/plot_rms_curves.py:41-49 | a written whole-trajectory header names section 0 and its info |
| RmsFile.HeadersClassify | src/ch3/plot_rms_curves.py:37-57 | both written headers classify as headers of their sections |
| RmsFile.RowClassifies | src/ch3/plot_rms_curves.py:60-65 | a written data row classifies as data with its offset and RMS |
| RmsFile.SectionRoundTrip | src/ch3/plot_rms_curves.py:33-71 | a header followed by data rows reads back as that section extended by the rows' points |
| LateralAnalysis.TimeFilter | scripts/lateral_analysis.py:42-45 | the kept rows lie within the inclusive bounds |
| LateralAnalysis.FilterIsRmsWindow | scripts/lateral_analysis.py:42-45 | the filter keeps exactly the samples the RMS scripts' time mask keeps |
| LateralAnalysis.FilterEmpty | scripts/lateral_analysis.py:42-51 | nothing is kept exactly when no row lies within the bounds |
| LateralAnalysis.MaxAbs | scripts/lateral_analysis.py:60 | the result bounds every absolute value and is one of them |
| LateralAnalysis.StatsOf | scripts/lateral_analysis.py:53-62 | the count is the number of rows; the maximum is the largest absolute residual |
| LateralAnalysis.AnalyzeSingleFile | scripts/lateral_analysis.py:31-68 | an unreadable file, or no row in range, gives (None, None, 0, 0); otherwise the data are the filtered rows with both counts |
| LateralAnalysis.StatsIffRowsInRange | scripts/lateral_analysis.py:41-64 | statistics exist exactly when the file was read and some row lies within the bounds |
| LateralAnalysis.VarianceIdentity | scripts/lateral_analysis.py:56-60 | the variance (std²) is the mean square less the squared mean and is never negative, so RMS² is at least mean² |
| LateralAnalysis.RmsAgrees | scripts/lateral_analysis.py:57 | the mean square is the one the lateral RMS script computes over the same window |

## Left out

- Square roots: `np.sqrt` and `np.std` are not modelled. RMS appears as the mean square and the standard deviation as the variance, so every RMS statement is about RMS².
- Floating point: reals are exact, so there is no NaN, no rounding and no overflow. `M_PI` is the decimal 3.141592653589793.
- Number parsing and formatting: `float`, `int`, `std::stod`, `std::stoi`, the `pitch:`/`heading:` regular expressions and fixed-decimal output are function parameters. `np.loadtxt` and `pd.read_csv` are abstract numeric tables. `datetime.fromtimestamp` is a parameter returning no date where it raises.
- File I/O, `os.path.exists`, logging, progress printing, plotting and the `main` functions: argument parsing, directory walks, offset lists and the output of the RMS report apart from its headers and rows.
- The C++ `SaveResults` file write: its header text (`SegmentFile.CppHeader`) is modelled, the stream is not.
- Heading.SortByTime: `std::sort` in `Finalize` is not stable. The model sorts stably, so samples with equal timestamps keep their arrival order in both versions.
- Detector.CppMatchesPython: holds for the model's stable sort. With equal timestamps, `std::sort` may order those samples differently from Python, so the zero-step pair skipped in the rates can differ and the turns with it. For pairwise distinct timestamps, Detector.CppAnySortMatchesPython states the agreement with no assumption about the sort.
- The legacy `IMU`, `ODOM` and `GNSS` records of `TxtIO::Go` are passed on with their tokens, undecoded.
- RmsWindows.MeanSquare: the contract fixes only the empty case. Its value is characterised by MeanSquareBounds and RmsAgrees.
- Segmenter.AvgAbsRate: gives 0 for an empty rate list, as the C++ guard does; Python's `np.mean([])` would give NaN. No recorded turn has an empty list, since each starts with its first rate.
- SegmentFile.LoadTurnSegments: a missing file path and a failing parse both give an empty list. The contract states only the missing case and the size bound; SaveLoadRoundTrip states the rest.
- OffsetNames.ExtractTimeDelay: Python's `\d` also matches non-ASCII digits. The model accepts only '0'-'9'.
- Python dictionaries are modelled as insertion-ordered association lists. The C++ `std::set` of NZZ keys is a Dafny set.

=== FILE: angle_math.dfy ===
/** Scalar angle and range helpers of the navigation library's math
    utilities, over exact reals. `M_PI` is the double closest to pi. */
module AngleMath {

  const Pi: real := 3.141592653589793

  /** KeepAngleInPI: add 2*pi while the angle is below -pi, then subtract
      2*pi while it is above pi. `turns` counts the net number of 2*pi
      added, so the result differs from the input by whole turns. */
  method KeepAngleInPI(angle: real) returns (r: real, turns: int)
    ensures -Pi <= r <= Pi
    ensures r == angle + 2.0 * Pi * (turns as real)
    ensures -Pi <= angle <= Pi ==> r == angle
  {
    r := angle;
    turns := 0;
    while r < -Pi
      invariant r == angle + 2.0 * Pi * (turns as real)
      invariant turns >= 0
      invariant turns > 0 ==> r < Pi
      invariant -Pi <= angle ==> r == angle
      decreases if r < -Pi then ((-Pi - r) / (2.0 * Pi)).Floor + 1 else 0
    {
      r := r + 2.0 * Pi;
      turns := turns + 1;
    }
    while r > Pi
      invariant r == angle + 2.0 * Pi * (turns as real)
      invariant r >= -Pi
      invariant -Pi <= angle <= Pi ==> r == angle
      decreases if r > Pi then ((r - Pi) / (2.0 * Pi)).Floor + 1 else 0
    {
      r := r - 2.0 * Pi;
      turns := turns - 1;
    }
  }

  /** limit_in_range: raise `num` to `lo` when below it, then lower it to
      `hi` when at or above it. */
  function LimitInRange(num: real, lo: real, hi: real): (r: real)
    ensures lo <= hi ==> lo <= r <= hi
    ensures lo <= num < hi ==> r == num
    ensures num >= hi ==> r == hi
    ensures num < lo ==> r == (if lo >= hi then hi else lo)
  {
    var raised := if num < lo then lo else num;
    if raised >= hi then hi else raised
  }

  function Rad2Deg(radians: real): real {
    radians * 180.0 / Pi
  }

  /** deg2rad, whose result converts back to the same degrees. */
  function Deg2Rad(degrees: real): (r: real)
    ensures Rad2Deg(r) == degrees
    ensures (degrees > 0.0 <==> r > 0.0) && (degrees == 0.0 <==> r == 0.0)
  {
    degrees * Pi / 180.0
  }

  lemma Deg2RadOfRad2Deg(radians: real)
    ensures Deg2Rad(Rad2Deg(radians)) == radians
  {
  }
}

=== FILE: detector.dfy ===
/** The two front ends of the segmenter. The C++ `TurnDetector` object is
    modelled as an immutable record that each member function maps to its
    successor; the Python `TurnDetector.detect_turn_segments` is a function of
    the matched samples. Both compute heading rates, smooth them and scan them
    with the same machine. */
module Detector {
  import opened Heading
  import opened RateSeries
  import opened Segmenter

  /** The default parameters of both detectors: start 3.0 deg/s, end
      1.5 deg/s held for 3.0 s, at least 30.0 degrees, window 5. */
  const DefaultConfig: Config := Config(3.0, 1.5, 3.0, 30.0, 5)

  /** The Python detector's parameters: it has no window setting and always
      smooths over 5 points. */
  function PyConfig(startThreshold: real, endThreshold: real, endDuration: real, angleThreshold: real): (cfg: Config)
    ensures cfg.window == 5
    ensures cfg.startThreshold == startThreshold && cfg.endThreshold == endThreshold
    ensures cfg.endDuration == endDuration && cfg.angleThreshold == angleThreshold
  {
    Config(startThreshold, endThreshold, endDuration, angleThreshold, 5)
  }

  /** The C++ default configuration is the Python detector's default one. */
  lemma DefaultsAgree()
    ensures DefaultConfig == PyConfig(3.0, 1.5, 3.0, 30.0)
  {
  }

  /** The Python `detect_turn_segments`: nothing for fewer than two samples,
      otherwise the scan of the smoothed rates. */
  function DetectTurnSegmentsPy(cfg: Config, samples: seq<Sample>): (segs: seq<TurnSegment>)
    requires cfg.window == 5
  {
    if |samples| < 2 then [] else Segments(cfg, Smooth(TurnRates(samples), 5))
  }

  /** The state of a C++ TurnDetector. `inTurn`, `inEndTiming`,
      `accumulatedAngle` and `rateHistory` are the members behind IsInTurn
      and GetAccumulatedAngle; the scan itself keeps its state in locals. */
  datatype TurnDetector = TurnDetector(
    initialized: bool,
    config: Config,
    outputFile: string,
    headings: seq<Sample>,
    rates: seq<RatePoint>,
    detected: seq<TurnSegment>,
    inTurn: bool,
    inEndTiming: bool,
    accumulatedAngle: real,
    rateHistory: seq<real>)

  /** A default-constructed detector. */
  const Fresh: TurnDetector := TurnDetector(false, DefaultConfig, "", [], [], [], false, false, 0.0, [])

  /** The first call stores the file name and parameters and clears all
      data; later calls change nothing. The C++ method returns true on
      every path, so no result is modelled. */
  function Initialize(d: TurnDetector, outputFile: string, cfg: Config): (r: TurnDetector)
    ensures r.initialized
    ensures d.initialized ==> r == d
    ensures !d.initialized ==> r.config == cfg && r.outputFile == outputFile
    ensures !d.initialized ==> r.headings == [] && r.rates == [] && r.detected == []
    ensures !d.initialized ==> !r.inTurn && !r.inEndTiming && r.accumulatedAngle == 0.0
  {
    if d.initialized then d
    else TurnDetector(true, cfg, outputFile, [], [], [], false, false, 0.0, [])
  }

  /** Initialization takes effect once: a second call is a no-op. */
  lemma InitializeIdempotent(d: TurnDetector, f1: string, c1: Config, f2: string, c2: Config)
    ensures Initialize(Initialize(d, f1, c1), f2, c2) == Initialize(d, f1, c1)
  {
  }

  /** Store one sample with its heading folded into [0, 360); before
      initialization the sample is dropped. */
  function AddHeadingData(d: TurnDetector, t: real, heading: real): (r: TurnDetector)
    ensures !d.initialized ==> r == d
    ensures d.initialized ==> r == d.(headings := r.headings)
    ensures d.initialized ==> |r.headings| == |d.headings| + 1 && r.headings[..|d.headings|] == d.headings
    ensures d.initialized ==> r.headings[|d.headings|].t == t && InCompassRange(r.headings[|d.headings|].heading)
  {
    if !d.initialized then d
    else d.(headings := d.headings + [Sample(t, NormalizeHeading(heading))])
  }

  /** The samples fed one after another through AddHeadingData. */
  function AddAll(d: TurnDetector, samples: seq<Sample>): TurnDetector
    decreases |samples|
  {
    if |samples| == 0 then d
    else AddAll(AddHeadingData(d, samples[0].t, samples[0].heading), samples[1..])
  }

  predicate AllInCompassRange(s: seq<Sample>) {
    forall k :: 0 <= k < |s| ==> InCompassRange(s[k].heading)
  }

  /** Every stored heading lies in [0, 360), and samples already in that
      range are stored as given, in arrival order. */
  lemma {:induction false} AddAllStoresCompassHeadings(d: TurnDetector, samples: seq<Sample>)
    requires d.initialized && AllInCompassRange(d.headings)
    ensures AllInCompassRange(AddAll(d, samples).headings)
    ensures AllInCompassRange(samples) ==> AddAll(d, samples).headings == d.headings + samples
    ensures AddAll(d, samples) == d.(headings := AddAll(d, samples).headings)
    decreases |samples|
  {
    if |samples| > 0 {
      var d1 := AddHeadingData(d, samples[0].t, samples[0].heading);
      assert AllInCompassRange(d1.headings) by {
        forall k | 0 <= k < |d1.headings|
          ensures InCompassRange(d1.headings[k].heading)
        {
          if k < |d.headings| {
            assert d1.headings[k] == d.headings[k];
          }
        }
      }
      AddAllStoresCompassHeadings(d1, samples[1..]);
      if AllInCompassRange(samples) {
        assert d1.headings == d.headings + [samples[0]];
        assert AllInCompassRange(samples[1..]) by {
          forall k | 0 <= k < |samples[1..]|
            ensures InCompassRange(samples[1..][k].heading)
          {
            assert samples[1..][k] == samples[k + 1];
          }
        }
        assert d.headings + [samples[0]] + samples[1..] == d.headings + samples;
      }
    }
  }

  /** The C++ CalculateTurnRates: rates of consecutive stored samples. */
  function CalculateTurnRates(d: TurnDetector): (r: TurnDetector)
    ensures r == d.(rates := r.rates)
    ensures RatesAtSteps(d.headings, PositiveSteps(d.headings), r.rates)
  {
    TurnRatesAtSteps(d.headings);
    d.(rates := TurnRates(d.headings))
  }

  /** The C++ DetectTurnSegments: with no rates the previous result is
      kept, otherwise it is replaced by the scan of the smoothed rates. */
  function DetectTurnSegments(d: TurnDetector): (r: TurnDetector)
    ensures |d.rates| == 0 ==> r == d
    ensures r == d.(detected := r.detected)
    ensures |d.rates| > 0 ==> |r.detected| == |Segment(d.config, Smooth(d.rates, d.config.window))|
  {
    if |d.rates| == 0 then d
    else d.(detected := Segments(d.config, Smooth(d.rates, d.config.window)))
  }

  /** The C++ Finalize without the file output: nothing happens before
      initialization or with fewer than two samples; otherwise the samples
      are ordered by time, rates are computed and turns detected. */
  function Finalize(d: TurnDetector): (r: TurnDetector)
    ensures !d.initialized || |d.headings| < 2 ==> r == d
    ensures d.initialized && |d.headings| >= 2 ==>
              SortedByTime(r.headings) && multiset(r.headings) == multiset(d.headings)
    ensures r.inTurn == d.inTurn && r.accumulatedAngle == d.accumulatedAngle
    ensures r.config == d.config && r.initialized == d.initialized
  {
    if !d.initialized || |d.headings| < 2 then d
    else DetectTurnSegments(CalculateTurnRates(d.(headings := SortByTime(d.headings))))
  }

  function IsInTurn(d: TurnDetector): bool {
    d.inTurn
  }

  function GetAccumulatedAngle(d: TurnDetector): real {
    d.accumulatedAngle
  }

  /** The turns Finalize reports clear the angle gate, have an average rate
      no lower than the smaller threshold, start no later than they end,
      and follow each other in time without overlap. */
  lemma FinalizeTurnsOk(d: TurnDetector)
    requires d.initialized && |d.headings| >= 2
    requires |TurnRates(SortByTime(d.headings))| > 0
    ensures var r := Finalize(d);
      var lo := if d.config.startThreshold <= d.config.endThreshold then d.config.startThreshold else d.config.endThreshold;
      && (forall k :: 0 <= k < |r.detected| ==> r.detected[k].totalAngle >= d.config.angleThreshold)
      && (forall k :: 0 <= k < |r.detected| ==> r.detected[k].avgTurnRate >= lo)
      && (forall k :: 0 <= k < |r.detected| ==> r.detected[k].startTime <= r.detected[k].endTime)
      && (forall k :: 0 <= k < |r.detected| - 1 ==> r.detected[k].endTime < r.detected[k + 1].startTime)
  {
    var sorted := SortByTime(d.headings);
    var rated := CalculateTurnRates(d.(headings := sorted));
    assert rated.rates == TurnRates(sorted);
    var pts := Smooth(TurnRates(sorted), d.config.window);
    assert Finalize(d).detected == Segments(d.config, pts);
    TurnRatesIncreasing(sorted);
    assert StrictlyIncreasing(pts);
    SegmentsOk(d.config, pts);
  }

  /** The two implementations agree: a fresh C++ detector initialized with
      the Python parameters and fed samples whose headings are already in
      [0, 360) reports, after Finalize, exactly the turns the Python
      detector finds in the same samples ordered by time. */
  lemma {:induction false} CppMatchesPython(outputFile: string, cfg: Config, samples: seq<Sample>)
    requires cfg.window == 5
    requires AllInCompassRange(samples)
    ensures Finalize(AddAll(Initialize(Fresh, outputFile, cfg), samples)).detected
            == DetectTurnSegmentsPy(cfg, SortByTime(samples))
  {
    var d0 := Initialize(Fresh, outputFile, cfg);
    AddAllStoresCompassHeadings(d0, samples);
    var d := AddAll(d0, samples);
    assert d.headings == samples;
    FinalizeDetects(d);
  }

  /** `std::sort` is not stable, so the C++ order of samples with equal
      timestamps is unconstrained. When the timestamps are pairwise
      distinct, every order `std::sort` may produce is the time order the
      Python detector uses, and the two detectors report the same turns. */
  lemma CppAnySortMatchesPython(outputFile: string, cfg: Config, samples: seq<Sample>, cppOrder: seq<Sample>)
    requires cfg.window == 5
    requires AllInCompassRange(samples)
    requires SortedByTime(cppOrder) && multiset(cppOrder) == multiset(samples)
    requires forall i, j :: 0 <= i < j < |cppOrder| ==> cppOrder[i].t != cppOrder[j].t
    ensures SortByTime(samples) == cppOrder
    ensures Finalize(AddAll(Initialize(Fresh, outputFile, cfg), samples)).detected
            == DetectTurnSegmentsPy(cfg, cppOrder)
  {
    SortedPermutationUnique(SortByTime(samples), cppOrder);
    CppMatchesPython(outputFile, cfg, samples);
  }

  /** On an initialized detector with no earlier result, Finalize reports
      what the Python detector finds in the stored samples ordered by
      time. */
  lemma FinalizeDetects(d: TurnDetector)
    requires d.initialized && d.config.window == 5 && d.detected == []
    ensures Finalize(d).detected == DetectTurnSegmentsPy(d.config, SortByTime(d.headings))
  {
    if |d.headings| >= 2 {
      var sorted := SortByTime(d.headings);
      var rated := CalculateTurnRates(d.(headings := sorted));
      assert rated.rates == TurnRates(sorted);
      assert rated.config == d.config && rated.detected == [];
      assert Finalize(d) == DetectTurnSegments(rated);
      if |TurnRates(sorted)| == 0 {
        assert Smooth(TurnRates(sorted), 5) == [];
        assert Segment(d.config, []) == [];
      }
    }
  }

  /** IsInTurn and GetAccumulatedAngle as written: no member function other
      than Initialize ever assigns the state they read, so from a fresh
      detector they always report "not turning" and 0 degrees. */
  lemma AccessorsNeverChange(d: TurnDetector, t: real, h: real, f: string, cfg: Config)
    requires !d.inTurn && d.accumulatedAngle == 0.0
    ensures !IsInTurn(Initialize(d, f, cfg)) && GetAccumulatedAngle(Initialize(d, f, cfg)) == 0.0
    ensures !IsInTurn(AddHeadingData(d, t, h)) && GetAccumulatedAngle(AddHeadingData(d, t, h)) == 0.0
    ensures !IsInTurn(Finalize(d)) && GetAccumulatedAngle(Finalize(d)) == 0.0
  {
  }
}

=== FILE: fbk_log.dfy ===
/** The installation-angle log reader of `plot_FBk.py`: `$FBK flag` lines
    carry a millisecond timestamp in their third comma field, and the next
    `$FBK misalignment` line with readable `pitch:` and `heading:` values
    is recorded under that timestamp, after which the timestamp is used
    up. The timestamps are then shown relative to the first, as seconds,
    or as dates. */
module FbkLog {
  import opened Optional
  import opened Text

  /** One recorded installation angle. */
  datatype Misalignment<T> = Misalignment(timestamp: T, pitch: real, heading: real)

  /** What one line means to the reader. A flag line whose timestamp is
      missing or not an integer carries no stamp; a misalignment line
      whose pitch or heading does not match carries no angles. */
  datatype FbkLine<T> =
    | Flag(stamp: Option<T>)
    | Angles(pitch: Option<real>, heading: Option<real>)
    | Other

  /** The reader's state: the timestamp waiting for its misalignment line
      and the records so far. */
  datatype LogState<T> = LogState(pending: Option<T>, records: seq<Misalignment<T>>)


  /** Classifies a line after stripping it. `parseInt` is Python's `int`
      on the third field; `pitchOf` and `headingOf` are the two
      `re.search` patterns on the line. */
  function ClassifyFbk(raw: string, parseInt: string -> Option<int>,
                       pitchOf: string -> Option<real>, headingOf: string -> Option<real>): (r: FbkLine<int>)
    ensures r.Flag? <==> StartsWith(Strip(raw), "$FBK flag")
    ensures r.Angles? <==> !r.Flag? && StartsWith(Strip(raw), "$FBK misalignment")
    ensures r.Flag? && |SplitOn(Strip(raw), ',')| < 3 ==> r.stamp.None?
    ensures r.Flag? && |SplitOn(Strip(raw), ',')| >= 3 ==> r.stamp == parseInt(SplitOn(Strip(raw), ',')[2])
    ensures r.Angles? ==> r.pitch == pitchOf(Strip(raw)) && r.heading == headingOf(Strip(raw))
  {
    var line := Strip(raw);
    if StartsWith(line, "$FBK flag") then
      var parts := SplitOn(line, ',');
      if |parts| >= 3 then Flag(parseInt(parts[2])) else Flag(None)
    else if StartsWith(line, "$FBK misalignment") then
      Angles(pitchOf(line), headingOf(line))
    else Other
  }

  /** Whether a line completes a record once a timestamp is pending. */
  predicate Complete<T>(l: FbkLine<T>) {
    l.Angles? && l.pitch.Some? && l.heading.Some?
  }

  /** Whether a line sets the pending timestamp. */
  predicate Stamps<T>(l: FbkLine<T>) {
    l.Flag? && l.stamp.Some?
  }

  /** One line's effect. An unusable flag line keeps the earlier pending
      timestamp; a misalignment line without a pending timestamp, or
      without both angles, changes nothing. */
  function Step<T>(st: LogState<T>, l: FbkLine<T>): (r: LogState<T>)
    ensures |st.records| <= |r.records| <= |st.records| + 1 && r.records[..|st.records|] == st.records
    ensures |r.records| > |st.records| ==> st.pending.Some? && r.pending.None? && r.records[|st.records|].timestamp == st.pending.value
    ensures Stamps(l) ==> r == st.(pending := l.stamp)
    ensures !Stamps(l) && !(st.pending.Some? && Complete(l)) ==> r == st
  {
    match l
    case Flag(stamp) => if stamp.Some? then st.(pending := stamp) else st
    case Angles(p, h) =>
      if st.pending.Some? && p.Some? && h.Some? then
        LogState(None, st.records + [Misalignment(st.pending.value, p.value, h.value)])
      else st
    case Other => st
  }

  /** The reading loop over the lines, each classified by `classify`. */
  function ReadLog<T>(lines: seq<string>, classify: string -> FbkLine<T>): (r: LogState<T>)
    ensures |r.records| <= |lines|
    decreases |lines|
  {
    if |lines| == 0 then LogState(None, [])
    else Step(ReadLog(lines[..|lines| - 1], classify), classify(lines[|lines| - 1]))
  }

  /** The loop's last step. */
  lemma ReadLogSnoc<T>(lines: seq<string>, classify: string -> FbkLine<T>)
    requires |lines| > 0
    ensures ReadLog(lines, classify) == Step(ReadLog(lines[..|lines| - 1], classify), classify(lines[|lines| - 1]))
  {
  }

  /** `parse_log`: the records, and whether there are any. A missing file
      gives no records and false. */
  function ParseLog(file: Option<seq<string>>, parseInt: string -> Option<int>,
                    pitchOf: string -> Option<real>, headingOf: string -> Option<real>): (r: (seq<Misalignment<int>>, bool))
    ensures r.1 <==> |r.0| > 0
    ensures file.None? ==> r.0 == []
  {
    match file
    case None => ([], false)
    case Some(lines) =>
      var records := ReadLog(lines, raw => ClassifyFbk(raw, parseInt, pitchOf, headingOf)).records;
      (records, |records| > 0)
  }

  // ---------------------------------------------------------------------
  // Properties of the reading loop

  /** The number of lines that set a timestamp. */
  function StampCount<T>(lines: seq<string>, classify: string -> FbkLine<T>): (n: nat)
    ensures n <= |lines|
    decreases |lines|
  {
    if |lines| == 0 then 0
    else StampCount(lines[..|lines| - 1], classify) + (if Stamps(classify(lines[|lines| - 1])) then 1 else 0)
  }

  /** The number of misalignment lines with both angles. */
  function CompleteCount<T>(lines: seq<string>, classify: string -> FbkLine<T>): (n: nat)
    ensures n <= |lines|
    decreases |lines|
  {
    if |lines| == 0 then 0
    else CompleteCount(lines[..|lines| - 1], classify) + (if Complete(classify(lines[|lines| - 1])) then 1 else 0)
  }

  /** A timestamp is used at most once: every record, and the pending
      timestamp if there is one, consumes its own flag line; and every
      record consumes its own misalignment line. */
  lemma {:induction false} TimestampsUsedOnce<T>(lines: seq<string>, classify: string -> FbkLine<T>)
    ensures var st := ReadLog(lines, classify);
      |st.records| + (if st.pending.Some? then 1 else 0) <= StampCount(lines, classify)
    ensures |ReadLog(lines, classify).records| <= CompleteCount(lines, classify)
    decreases |lines|
  {
    if |lines| > 0 {
      TimestampsUsedOnce(lines[..|lines| - 1], classify);
    }
  }

  /** Reading more lines never changes the records already made. */
  lemma {:induction false} RecordsGrow<T>(a: seq<string>, b: seq<string>, classify: string -> FbkLine<T>)
    ensures var before := ReadLog(a, classify).records;
      && |before| <= |ReadLog(a + b, classify).records|
      && ReadLog(a + b, classify).records[..|before|] == before
    decreases |b|
  {
    if |b| == 0 {
      assert a + b == a;
    } else {
      var b' := b[..|b| - 1];
      RecordsGrow(a, b', classify);
      assert (a + b)[..|a + b| - 1] == a + b';
      var mid := ReadLog(a + b', classify).records;
      var after := ReadLog(a + b, classify).records;
      assert after[..|mid|] == mid;
    }
  }

  /** Line i set the timestamp `stamp`, and no later line set one or
      completed a record. */
  ghost predicate StampedAt<T>(lines: seq<string>, classify: string -> FbkLine<T>, i: int, stamp: Option<T>)
  {
    && 0 <= i < |lines|
    && classify(lines[i]) == Flag(stamp)
    && forall k :: i < k < |lines| ==> !Stamps(classify(lines[k])) && !Complete(classify(lines[k]))
  }

  /** The pending timestamp is the stamp of the last line that set one,
      and no misalignment line with both angles has come since. */
  lemma {:induction false} PendingIsLastStamp<T>(lines: seq<string>, classify: string -> FbkLine<T>)
    requires ReadLog(lines, classify).pending.Some?
    ensures exists i :: StampedAt(lines, classify, i, ReadLog(lines, classify).pending)
    decreases |lines|
  {
    var init := lines[..|lines| - 1];
    var l := classify(lines[|lines| - 1]);
    var st := ReadLog(lines, classify);
    if Stamps(l) {
      assert StampedAt(lines, classify, |lines| - 1, st.pending);
    } else {
      assert !Complete(l) && ReadLog(init, classify) == st;
      PendingIsLastStamp(init, classify);
      var i :| StampedAt(init, classify, i, st.pending);
      StampedExtends(lines, classify, i, st.pending);
    }
  }

  /** The converse: when line i set a stamp and no later line set one or
      completed a record, that stamp is still pending, whatever lines
      (a flag line with a bad stamp, a misalignment line that does not
      match) came after it. */
  lemma {:induction false} LastStampIsPending<T>(lines: seq<string>, classify: string -> FbkLine<T>, i: int, s: T)
    requires StampedAt(lines, classify, i, Some(s))
    ensures ReadLog(lines, classify).pending == Some(s)
    decreases |lines|
  {
    var init := lines[..|lines| - 1];
    if i < |lines| - 1 {
      assert init[i] == lines[i];
      forall k | i < k < |init|
        ensures !Stamps(classify(init[k])) && !Complete(classify(init[k]))
      {
        assert init[k] == lines[k];
      }
      LastStampIsPending(init, classify, i, s);
      assert !Stamps(classify(lines[|lines| - 1])) && !Complete(classify(lines[|lines| - 1]));
    }
  }

  /** A stamp found in all but the last line, where the last line neither
      sets a stamp nor completes a record, is still the last one. */
  lemma StampedExtends<T>(lines: seq<string>, classify: string -> FbkLine<T>, i: int, stamp: Option<T>)
    requires |lines| > 0
    requires StampedAt(lines[..|lines| - 1], classify, i, stamp)
    requires !Stamps(classify(lines[|lines| - 1])) && !Complete(classify(lines[|lines| - 1]))
    ensures StampedAt(lines, classify, i, stamp)
  {
    var init := lines[..|lines| - 1];
    assert lines[i] == init[i];
    forall k | i < k < |lines|
      ensures !Stamps(classify(lines[k])) && !Complete(classify(lines[k]))
    {
      if k < |init| {
        assert lines[k] == init[k];
      }
    }
  }

  /** A misalignment line with both angles after a pending timestamp
      appends exactly one record and uses the timestamp up. */
  lemma RecordFromPending<T>(a: seq<string>, m: string, classify: string -> FbkLine<T>)
    requires ReadLog(a, classify).pending.Some?
    requires Complete(classify(m))
    ensures var st := ReadLog(a, classify);
      ReadLog(a + [m], classify)
      == LogState(None, st.records + [Misalignment(st.pending.value, classify(m).pitch.value, classify(m).heading.value)])
  {
    assert (a + [m])[..|a + [m]| - 1] == a;
  }

  /** A misalignment line with no pending timestamp is dropped. */
  lemma OrphanDropped<T>(a: seq<string>, m: string, classify: string -> FbkLine<T>)
    requires ReadLog(a, classify).pending.None?
    requires classify(m).Angles?
    ensures ReadLog(a + [m], classify) == ReadLog(a, classify)
  {
    assert (a + [m])[..|a + [m]| - 1] == a;
  }

  /** A flag line with a bad timestamp between a good flag line and its
      misalignment line leaves the earlier timestamp in force. */
  lemma BadFlagKeepsEarlierStamp<T>(a: seq<string>, f: string, bad: string, m: string, classify: string -> FbkLine<T>)
    requires Stamps(classify(f))
    requires classify(bad) == Flag(None)
    requires Complete(classify(m))
    ensures var recs := ReadLog(a + [f, bad, m], classify).records;
      |recs| > 0 && recs[|recs| - 1].timestamp == classify(f).stamp.value
  {
    var s1 := a + [f];
    var s2 := s1 + [bad];
    assert s1[..|s1| - 1] == a;
    assert s2[..|s2| - 1] == s1;
    assert a + [f, bad, m] == s2 + [m];
    RecordFromPending(s2, m, classify);
  }

  /** A log written as flag, misalignment, flag, misalignment, ...  */
  function Interleave(flags: seq<string>, angles: seq<string>): (r: seq<string>)
    requires |flags| == |angles|
    ensures |r| == 2 * |flags|
    decreases |flags|
  {
    if |flags| == 0 then []
    else Interleave(flags[..|flags| - 1], angles[..|angles| - 1]) + [flags[|flags| - 1], angles[|angles| - 1]]
  }

  /** Flag line k carries the timestamp of record k and misalignment line k
      its two angles. */
  ghost predicate PairsOf<T>(flags: seq<string>, angles: seq<string>, recs: seq<Misalignment<T>>,
                       classify: string -> FbkLine<T>)
  {
    && |flags| == |angles| == |recs|
    && (forall k :: 0 <= k < |flags| ==> classify(flags[k]) == Flag(Some(recs[k].timestamp)))
    && (forall k :: 0 <= k < |angles| ==> classify(angles[k]) == Angles(Some(recs[k].pitch), Some(recs[k].heading)))
  }

  /** Read back, an interleaved log gives one record per pair, in order,
      each under the timestamp of its own flag line. */
  lemma {:induction false} InterleavedRoundTrip<T>(flags: seq<string>, angles: seq<string>, recs: seq<Misalignment<T>>,
                                               classify: string -> FbkLine<T>)
    requires PairsOf(flags, angles, recs, classify)
    ensures ReadLog(Interleave(flags, angles), classify) == LogState(None, recs)
    decreases |flags|
  {
    if |flags| > 0 {
      var n := |flags| - 1;
      var fs, as_, rs := flags[..n], angles[..n], recs[..n];
      PairsPrefix(flags, angles, recs, classify);
      InterleavedRoundTrip(fs, as_, rs, classify);
      assert rs + [recs[n]] == recs;
      PairStep(Interleave(fs, as_), flags[n], angles[n], Interleave(flags, angles), rs, recs[n], classify);
    }
  }

  lemma PairsPrefix<T>(flags: seq<string>, angles: seq<string>, recs: seq<Misalignment<T>>,
                       classify: string -> FbkLine<T>)
    requires PairsOf(flags, angles, recs, classify) && |flags| > 0
    ensures var n := |flags| - 1;
      && PairsOf(flags[..n], angles[..n], recs[..n], classify)
      && classify(flags[n]) == Flag(Some(recs[n].timestamp))
      && classify(angles[n]) == Angles(Some(recs[n].pitch), Some(recs[n].heading))
  {
  }

  /** A flag line and then its misalignment line, read with no timestamp
      pending, append their record and leave none pending. */
  lemma PairStep<T>(prefix: seq<string>, f: string, a: string, whole: seq<string>, rs: seq<Misalignment<T>>,
                    rec: Misalignment<T>, classify: string -> FbkLine<T>)
    requires whole == prefix + [f, a]
    requires ReadLog(prefix, classify) == LogState(None, rs)
    requires classify(f) == Flag(Some(rec.timestamp))
    requires classify(a) == Angles(Some(rec.pitch), Some(rec.heading))
    ensures ReadLog(whole, classify) == LogState(None, rs + [rec])
  {
    var withFlag := prefix + [f];
    assert withFlag[..|withFlag| - 1] == prefix;
    assert ReadLog(withFlag, classify) == LogState(Some(rec.timestamp), rs);
    assert whole[..|withFlag|] == withFlag;
  }

  // ---------------------------------------------------------------------
  // Showing the timestamps

  /** The converted times: seconds, or dates when every timestamp has one. */
  datatype Times<D> = Seconds(seconds: seq<real>) | Dates(dates: seq<D>)

  /** Timestamps in seconds relative to the first. */
  function Relative(ts: seq<int>): (r: seq<real>)
    requires |ts| > 0
    ensures |r| == |ts|
    ensures forall k :: 0 <= k < |ts| ==> r[k] * 1000.0 == (ts[k] - ts[0]) as real
  {
    seq(|ts|, k requires 0 <= k < |ts| => (ts[k] - ts[0]) as real / 1000.0)
  }

  /** Timestamps in seconds. */
  function Absolute(ts: seq<int>): (r: seq<real>)
    ensures |r| == |ts|
    ensures forall k :: 0 <= k < |ts| ==> r[k] * 1000.0 == ts[k] as real
  {
    seq(|ts|, k requires 0 <= k < |ts| => ts[k] as real / 1000.0)
  }

  /** Whether `fromTimestamp` gives a date for every timestamp. */
  predicate AllDated<D>(ts: seq<int>, fromTimestamp: real -> Option<D>) {
    forall k :: 0 <= k < |ts| ==> fromTimestamp(ts[k] as real / 1000.0).Some?
  }

  /** `convert_timestamps`: [] when there are none; relative seconds for
      "relative" and for any name it does not know; absolute seconds for
      "absolute"; dates for "datetime", falling back to relative seconds
      when some timestamp has no date. */
  function ConvertTimestamps<D>(ts: seq<int>, format: string, fromTimestamp: real -> Option<D>): (r: Times<D>)
    ensures |ts| == 0 ==> r == Seconds([])
    ensures r.Seconds? ==> |r.seconds| == |ts|
    ensures r.Dates? <==> |ts| > 0 && format == "datetime" && AllDated(ts, fromTimestamp)
    ensures r.Dates? ==> |r.dates| == |ts|
    ensures r.Dates? ==> forall k :: 0 <= k < |ts| ==> Some(r.dates[k]) == fromTimestamp(ts[k] as real / 1000.0)
  {
    if |ts| == 0 then Seconds([])
    else if format == "absolute" then Seconds(Absolute(ts))
    else if format == "datetime" && AllDated(ts, fromTimestamp) then
      Dates(seq(|ts|, k requires 0 <= k < |ts| => fromTimestamp(ts[k] as real / 1000.0).value))
    else Seconds(Relative(ts))
  }

  /** Relative seconds are absolute seconds shifted so that the first
      timestamp is zero, and they keep the timestamps' order. */
  lemma RelativeIsShiftedAbsolute(ts: seq<int>)
    requires |ts| > 0
    ensures Relative(ts)[0] == 0.0
    ensures forall k :: 0 <= k < |ts| ==> Relative(ts)[k] == Absolute(ts)[k] - Absolute(ts)[0]
    ensures forall i, j :: 0 <= i < |ts| && 0 <= j < |ts| && ts[i] <= ts[j] ==> Relative(ts)[i] <= Relative(ts)[j]
  {
    var rel, abs := Relative(ts), Absolute(ts);
    forall k | 0 <= k < |ts|
      ensures rel[k] == abs[k] - abs[0]
    {
      assert rel[k] * 1000.0 == (abs[k] - abs[0]) * 1000.0;
    }
    forall i, j | 0 <= i < |ts| && 0 <= j < |ts| && ts[i] <= ts[j]
      ensures rel[i] <= rel[j]
    {
      assert rel[i] * 1000.0 <= rel[j] * 1000.0;
    }
  }

  /** Every format other than "absolute" and "datetime" gives relative
      seconds, and "datetime" does too when a date is missing. */
  lemma FormatFallsBack<D>(ts: seq<int>, format: string, fromTimestamp: real -> Option<D>)
    requires |ts| > 0
    requires format != "absolute"
    requires format != "datetime" || !AllDated(ts, fromTimestamp)
    ensures ConvertTimestamps(ts, format, fromTimestamp) == Seconds(Relative(ts))
  {
  }
}

=== FILE: heading.dfy ===
/** Heading samples and the two heading normalisations of the turn detector:
    the signed difference of two compass headings (Python
    `normalize_heading_diff`, C++ `NormalizeHeadingDiff`) and the folding of a
    raw heading into [0, 360) done when a sample is stored (C++
    `AddHeadingData`). Also the ordering of samples by timestamp. */
module Heading {
  /** One (timestamp, heading) sample: seconds and degrees. */
  datatype Sample = Sample(t: real, heading: real)

  predicate InCompassRange(h: real) {
    0.0 <= h < 360.0
  }

  /** Difference h2 - h1 moved into (-180, 180] by at most one adjustment
      of 360 degrees. */
  function NormalizeHeadingDiff(h1: real, h2: real): (r: real)
    ensures r == h2 - h1 || r == h2 - h1 - 360.0 || r == h2 - h1 + 360.0
    ensures -540.0 < h2 - h1 <= 540.0 ==> -180.0 < r <= 180.0
    ensures -180.0 < h2 - h1 <= 180.0 ==> r == h2 - h1
  {
    var diff := h2 - h1;
    if diff > 180.0 then diff - 360.0
    else if diff <= -180.0 then diff + 360.0
    else diff
  }

  /** For two compass headings the difference is the shortest signed turn. */
  lemma HeadingDiffInRange(h1: real, h2: real)
    requires InCompassRange(h1) && InCompassRange(h2)
    ensures -180.0 < NormalizeHeadingDiff(h1, h2) <= 180.0
  {
  }

  /** Crossing north clockwise is a +20 degree turn, anticlockwise -20. */
  lemma HeadingDiffAcrossNorth()
    ensures NormalizeHeadingDiff(350.0, 10.0) == 20.0
    ensures NormalizeHeadingDiff(10.0, 350.0) == -20.0
  {
  }

  /** Swapping the two headings negates the difference, except for a half
      turn, which is always reported as +180. */
  lemma HeadingDiffAntisymmetric(h1: real, h2: real)
    requires InCompassRange(h1) && InCompassRange(h2)
    ensures NormalizeHeadingDiff(h1, h2) != 180.0 ==>
              NormalizeHeadingDiff(h2, h1) == -NormalizeHeadingDiff(h1, h2)
    ensures NormalizeHeadingDiff(h1, h2) == 180.0 ==> NormalizeHeadingDiff(h2, h1) == 180.0
  {
  }

  /** The net number of full turns AddHeadingData adds to `h`. */
  function HeadingTurns(h: real): int
    decreases (if h < 0.0 then 1 else 0), (if h < 0.0 then (-h).Floor else h.Floor)
  {
    if h < 0.0 then HeadingTurns(h + 360.0) + 1
    else if h >= 360.0 then HeadingTurns(h - 360.0) - 1
    else 0
  }

  /** The heading stored by AddHeadingData: add 360 while negative, then
      subtract 360 while at or above 360. */
  function NormalizeHeading(h: real): (r: real)
    ensures InCompassRange(r)
    ensures r == h + 360.0 * (HeadingTurns(h) as real)
    ensures InCompassRange(h) ==> r == h
    decreases (if h < 0.0 then 1 else 0), (if h < 0.0 then (-h).Floor else h.Floor)
  {
    if h < 0.0 then NormalizeHeading(h + 360.0)
    else if h >= 360.0 then NormalizeHeading(h - 360.0)
    else h
  }

  /** The stored heading is the only compass heading that differs from the
      raw one by whole turns. */
  lemma NormalizeHeadingUnique(h: real, x: real, k: int)
    requires InCompassRange(x) && x == h + 360.0 * (k as real)
    ensures NormalizeHeading(h) == x
  {
    var n := NormalizeHeading(h);
    var j := HeadingTurns(h) - k;
    assert n - x == 360.0 * (j as real);
    WholeTurnsInsideOneTurn(j);
  }

  /** Whole turns strictly inside one turn either way are no turns. */
  lemma WholeTurnsInsideOneTurn(j: int)
    requires -360.0 < 360.0 * (j as real) < 360.0
    ensures j == 0
  {
  }

  predicate SortedByTime(s: seq<Sample>) {
    forall i, j :: 0 <= i < j < |s| ==> s[i].t <= s[j].t
  }

  /** Place `x` after every sample of `s` whose timestamp is not later. */
  function InsertByTime(x: Sample, s: seq<Sample>): (r: seq<Sample>)
    requires SortedByTime(s)
    ensures SortedByTime(r)
    ensures multiset(r) == multiset(s) + multiset{x}
    ensures |r| == |s| + 1
  {
    if |s| == 0 then [x]
    else if x.t < s[0].t then
      ConsSorted(x, s);
      [x] + s
    else
      var rest := InsertByTime(x, s[1..]);
      InsertBehind(x, s, rest);
      [s[0]] + rest
  }

  /** `x`, no earlier than the first sample, inserted into the rest:
      putting the first sample back in front gives a sorted permutation. */
  lemma InsertBehind(x: Sample, s: seq<Sample>, rest: seq<Sample>)
    requires SortedByTime(s) && |s| > 0 && s[0].t <= x.t
    requires SortedByTime(rest) && multiset(rest) == multiset(s[1..]) + multiset{x}
    ensures SortedByTime([s[0]] + rest)
    ensures multiset([s[0]] + rest) == multiset(s) + multiset{x}
  {
    assert s == [s[0]] + s[1..];
    LowerBoundKept(x, s[1..], rest, s[0].t);
    ConsSorted(s[0], rest);
  }

  /** A sample no later than the first of a sorted sequence, put in front,
      keeps it sorted. */
  lemma ConsSorted(a: Sample, s: seq<Sample>)
    requires SortedByTime(s)
    requires |s| > 0 ==> a.t <= s[0].t
    ensures SortedByTime([a] + s)
  {
    var r := [a] + s;
    forall i, j | 0 <= i < j < |r|
      ensures r[i].t <= r[j].t
    {
      if i == 0 {
        assert r[j] == s[j - 1];
        assert s[0].t <= s[j - 1].t;
      } else {
        assert r[i] == s[i - 1] && r[j] == s[j - 1];
      }
    }
  }

  /** A bound below `x` and every sample of `s` is below every sample of a
      permutation of `s` with `x`. */
  lemma LowerBoundKept(x: Sample, s: seq<Sample>, r: seq<Sample>, lo: real)
    requires multiset(r) == multiset(s) + multiset{x}
    requires lo <= x.t && forall k :: 0 <= k < |s| ==> lo <= s[k].t
    ensures forall k :: 0 <= k < |r| ==> lo <= r[k].t
  {
    forall k | 0 <= k < |r|
      ensures lo <= r[k].t
    {
      assert r[k] in multiset(r);
      if r[k] != x {
        assert r[k] in multiset(s);
      }
    }
  }

  /** The samples of `s` stamped `t`, in their order in `s`. */
  function WithTime(s: seq<Sample>, t: real): (r: seq<Sample>)
    ensures forall k :: 0 <= k < |r| ==> r[k].t == t
    decreases |s|
  {
    if |s| == 0 then []
    else (if s[0].t == t then [s[0]] else []) + WithTime(s[1..], t)
  }

  function OneWithTime(x: Sample, t: real): seq<Sample> {
    if x.t == t then [x] else []
  }

  lemma {:induction false} WithTimeSnoc(s: seq<Sample>, x: Sample, t: real)
    ensures WithTime(s + [x], t) == WithTime(s, t) + OneWithTime(x, t)
    decreases |s|
  {
    if |s| == 0 {
      assert [x][1..] == [];
    } else {
      assert (s + [x])[1..] == s[1..] + [x];
      WithTimeSnoc(s[1..], x, t);
    }
  }

  /** No sample stamped t when every sample is later than t. */
  lemma {:induction false} WithTimeNone(s: seq<Sample>, t: real)
    requires forall k :: 0 <= k < |s| ==> t < s[k].t
    ensures WithTime(s, t) == []
    decreases |s|
  {
    if |s| > 0 {
      WithTimeNone(s[1..], t);
    }
  }

  /** Insertion puts `x` behind every sample with its timestamp. */
  lemma InsertStable(x: Sample, s: seq<Sample>)
    requires SortedByTime(s)
    ensures forall t :: WithTime(InsertByTime(x, s), t) == WithTime(s, t) + OneWithTime(x, t)
  {
    forall t
      ensures WithTime(InsertByTime(x, s), t) == WithTime(s, t) + OneWithTime(x, t)
    {
      InsertStableAt(x, s, t);
    }
  }

  lemma {:induction false} InsertStableAt(x: Sample, s: seq<Sample>, t: real)
    requires SortedByTime(s)
    ensures WithTime(InsertByTime(x, s), t) == WithTime(s, t) + OneWithTime(x, t)
    decreases |s|
  {
    if |s| == 0 {
      assert [x][1..] == [];
    } else if x.t < s[0].t {
      assert InsertByTime(x, s) == [x] + s;
      assert ([x] + s)[1..] == s;
      if x.t == t {
        WithTimeNone(s, t);
      }
    } else {
      var rest := InsertByTime(x, s[1..]);
      assert InsertByTime(x, s) == [s[0]] + rest;
      InsertStableAt(x, s[1..], t);
      assert ([s[0]] + rest)[1..] == rest;
    }
  }

  /** Ascending order by timestamp, keeping equal timestamps in input order
      (Python's stable `list.sort(key=timestamp)`). */
  function SortByTime(s: seq<Sample>): (r: seq<Sample>)
    ensures SortedByTime(r)
    ensures multiset(r) == multiset(s)
    ensures |r| == |s|
    ensures forall t :: WithTime(r, t) == WithTime(s, t)
  {
    if |s| == 0 then []
    else
      var init := s[..|s| - 1];
      var last := s[|s| - 1];
      assert s == init + [last];
      var sortedInit := SortByTime(init);
      InsertStable(last, sortedInit);
      assert forall t :: WithTime(s, t) == WithTime(init, t) + OneWithTime(last, t) by {
        forall t
          ensures WithTime(s, t) == WithTime(init, t) + OneWithTime(last, t)
        {
          WithTimeSnoc(init, last, t);
        }
      }
      InsertByTime(last, sortedInit)
  }

  /** Sorting a sequence with pairwise distinct timestamps has one
      possible result: any other sorted permutation is the same sequence,
      whether or not the sort is stable. */
  lemma {:induction false} SortedPermutationUnique(a: seq<Sample>, b: seq<Sample>)
    requires SortedByTime(a) && SortedByTime(b) && multiset(a) == multiset(b)
    requires forall i, j :: 0 <= i < j < |b| ==> b[i].t != b[j].t
    ensures a == b
    decreases |a|
  {
    assert |a| == |multiset(a)| == |multiset(b)| == |b|;
    if |a| > 0 {
      HeadsAgree(a, b);
      TailsPermuted(a, b);
      SortedPermutationUnique(a[1..], b[1..]);
      assert a == [a[0]] + a[1..] && b == [b[0]] + b[1..];
    }
  }

  /** The earliest samples of two sorted permutations agree when the
      timestamps are distinct. */
  lemma HeadsAgree(a: seq<Sample>, b: seq<Sample>)
    requires SortedByTime(a) && SortedByTime(b) && multiset(a) == multiset(b)
    requires forall i, j :: 0 <= i < j < |b| ==> b[i].t != b[j].t
    requires |a| > 0 && |b| > 0
    ensures a[0] == b[0]
  {
    assert a[0] in multiset(b);
    var j :| 0 <= j < |b| && b[j] == a[0];
    assert b[0] in multiset(a);
    var i :| 0 <= i < |a| && a[i] == b[0];
    assert a[0].t <= a[i].t;
    assert b[0].t <= b[j].t;
  }

  lemma TailsPermuted(a: seq<Sample>, b: seq<Sample>)
    requires multiset(a) == multiset(b) && |a| > 0 && |b| > 0 && a[0] == b[0]
    ensures multiset(a[1..]) == multiset(b[1..])
  {
    assert a == [a[0]] + a[1..] && b == [b[0]] + b[1..];
    assert multiset(a[1..]) == multiset(a) - multiset{a[0]};
    assert multiset(b[1..]) == multiset(b) - multiset{b[0]};
  }


  lemma {:induction false} InsertAfterAll(x: Sample, s: seq<Sample>)
    requires SortedByTime(s)
    requires forall k :: 0 <= k < |s| ==> s[k].t <= x.t
    ensures InsertByTime(x, s) == s + [x]
    decreases |s|
  {
    if |s| > 0 {
      InsertAfterAll(x, s[1..]);
      assert s == [s[0]] + s[1..];
    }
  }

  /** Sorting a sequence that is already in timestamp order changes nothing,
      so equal timestamps keep their input order. */
  lemma {:induction false} SortSortedIsIdentity(s: seq<Sample>)
    requires SortedByTime(s)
    ensures SortByTime(s) == s
    decreases |s|
  {
    if |s| > 0 {
      var init := s[..|s| - 1];
      SortSortedIsIdentity(init);
      InsertAfterAll(s[|s| - 1], init);
      assert init + [s[|s| - 1]] == s;
    }
  }
}

=== FILE: io_reader.dfy ===
/** The C++ text-log reader (`TxtIO::Go` in `io_utils.cc`): lines that are
    empty or start with '#' are skipped, the first whitespace token names
    the record type, and each record type is decoded from the remaining
    tokens. ACC and GYR samples wait until a partner of the other kind
    within 50 ms arrives and are then combined into one IMU sample; NZZ
    records are forwarded once per date+time key; FBK flag and
    misalignment lines are paired by the same pending-timestamp machine as
    the Python FBK log reader. Callbacks become the event sequence the
    reader emits; `std::stod` and `std::stoi` become parameters that give
    None where they would throw. */
module TxtReader {
  import opened Optional
  import opened Text
  import AngleMath
  import FbkLog
  import StreamAligner

  /** `TIME_SYNC_THRESHOLD`: the largest ACC/GYR time difference paired. */
  const TimeSyncThreshold: real := 0.05

  /** The factor from g to m/s² the ACC decoder uses. */
  const Gravity: real := 9.8

  datatype Vec3 = Vec3(x: real, y: real, z: real)

  /** A decoded ACC or GYR sample waiting for its partner. */
  datatype Timed = Timed(t: real, v: Vec3)

  datatype GnssFix = GnssFix(time: real, status: int, lat: real, lon: real, alt: real,
                             heading: real, headingValid: bool)

  /** What the reader hands to its callbacks. Records of the older formats
      (`IMU`, `ODOM`, `GNSS`) are passed on with their tokens. */
  datatype Event =
    | Gnss(fix: GnssFix)
    | GpsWithKey(fix: GnssFix, key: string)
    | Imu(time: real, gyro: Vec3, acce: Vec3)
    | Nzz(key: string, heading: real)
    | FbkPair(pair: FbkLog.Misalignment<real>)
    | Legacy(dataType: string, fields: seq<string>)

  /** Which callbacks are set; a record whose callback is missing is
      skipped. */
  datatype Handlers = Handlers(gnss: bool, gpsKey: bool, imu: bool, nzz: bool, fbk: bool, odom: bool)

  /** `std::stod` and `std::stoi`, None where they throw. */
  datatype Parsers = Parsers(stod: string -> Option<real>, stoi: string -> Option<int>)

  /** The reader's state between lines. */
  datatype Reader = Reader(acc: Option<Timed>, gyr: Option<Timed>, seenNzz: set<string>, fbkPending: Option<real>)

  const Fresh: Reader := Reader(None, None, {}, None)

  datatype Out = Out(reader: Reader, events: seq<Event>)

  /** Whether no event is an NZZ record. */
  predicate NoNzz(evs: seq<Event>) {
    forall k :: 0 <= k < |evs| ==> !evs[k].Nzz?
  }

  // ---------------------------------------------------------------------
  // ACC/GYR pairing

  /** Whether an ACC and a GYR sample are both waiting. */
  predicate BothPending(r: Reader) {
    r.acc.Some? && r.gyr.Some?
  }

  function Distance(a: real, b: real): (d: real)
    ensures d >= 0.0 && (d == a - b || d == b - a)
  {
    if a >= b then a - b else b - a
  }

  function Max(a: real, b: real): (m: real)
    ensures m >= a && m >= b && (m == a || m == b)
  {
    if a >= b then a else b
  }

  /** `TryCreateIMU`: with both samples waiting and at most 50 ms apart,
      one IMU sample stamped with the later time is emitted and both are
      used up; further apart, only the older one is dropped. */
  function TryCreateImu(r: Reader): (o: Out)
    ensures !BothPending(o.reader)
    ensures o.reader.seenNzz == r.seenNzz && o.reader.fbkPending == r.fbkPending
    ensures NoNzz(o.events)
    ensures !BothPending(r) ==> o == Out(r, [])
    ensures |o.events| == 1 <==> BothPending(r) && Distance(r.acc.value.t, r.gyr.value.t) <= TimeSyncThreshold
    ensures |o.events| <= 1
    ensures |o.events| == 1 ==>
      o.events[0] == Imu(Max(r.acc.value.t, r.gyr.value.t), r.gyr.value.v, r.acc.value.v)
      && o.reader == r.(acc := None, gyr := None)
    ensures BothPending(r) && |o.events| == 0 ==>
      if r.acc.value.t < r.gyr.value.t then o.reader == r.(acc := None) else o.reader == r.(gyr := None)
  {
    if !BothPending(r) then Out(r, [])
    else
      var a, g := r.acc.value, r.gyr.value;
      if Distance(a.t, g.t) > TimeSyncThreshold then
        if a.t < g.t then Out(r.(acc := None), []) else Out(r.(gyr := None), [])
      else
        Out(r.(acc := None, gyr := None), [Imu(Max(a.t, g.t), g.v, a.v)])
  }

  /** An ACC sample arrives: it replaces any waiting one and pairing is
      tried. */
  function PutAcc(r: Reader, a: Timed): Out {
    TryCreateImu(r.(acc := Some(a)))
  }

  /** A GYR sample arrives. */
  function PutGyr(r: Reader, g: Timed): Out {
    TryCreateImu(r.(gyr := Some(g)))
  }

  /** Two samples within the threshold, arriving one after the other on a
      reader with nothing waiting, make exactly one IMU sample, and both
      are used up: a further sample of either kind makes nothing. */
  lemma PairedOnce(r: Reader, a: Timed, g: Timed, g2: Timed)
    requires r.acc.None? && r.gyr.None?
    requires Distance(a.t, g.t) <= TimeSyncThreshold
    ensures var o1 := PutAcc(r, a);
      var o2 := PutGyr(o1.reader, g);
      && o1.events == []
      && o2.events == [Imu(Max(a.t, g.t), g.v, a.v)]
      && PutGyr(o2.reader, g2).events == []
  {
  }

  /** Samples more than 50 ms apart are not paired, and the newer one
      stays to be paired with a later partner. */
  lemma NewerSampleKept(r: Reader, a: Timed, g: Timed, a2: Timed)
    requires r.acc.None? && r.gyr.None?
    requires a.t + TimeSyncThreshold < g.t
    requires Distance(a2.t, g.t) <= TimeSyncThreshold
    ensures var o1 := PutAcc(r, a);
      var o2 := PutGyr(o1.reader, g);
      && o2.events == []
      && o2.reader.gyr == Some(g) && o2.reader.acc.None?
      && PutAcc(o2.reader, a2).events == [Imu(Max(a2.t, g.t), g.v, a2.v)]
  {
  }

  // ---------------------------------------------------------------------
  // Record decoders

  /** An ACC record has at least 6 fields and fields 0, 3, 4 and 5 parse. */
  predicate AccParses(fields: seq<string>, p: Parsers) {
    |fields| >= 6 && p.stod(fields[0]).Some? && p.stod(fields[3]).Some? && p.stod(fields[4]).Some? && p.stod(fields[5]).Some?
  }

  /** The sample an ACC record carries: field 0 / 1000 seconds, and the
      up, forward and right readings of fields 3, 4 and 5 in g, reordered
      as (right, forward, up) in m/s². */
  function AccOf(fields: seq<string>, p: Parsers): Timed
    requires AccParses(fields, p)
  {
    Timed(p.stod(fields[0]).value / 1000.0,
          Vec3(p.stod(fields[5]).value * Gravity, p.stod(fields[4]).value * Gravity, p.stod(fields[3]).value * Gravity))
  }

  /** A GYR record has at least 7 fields and fields 0, 4, 5 and 6 parse. */
  predicate GyrParses(fields: seq<string>, p: Parsers) {
    |fields| >= 7 && p.stod(fields[0]).Some? && p.stod(fields[4]).Some? && p.stod(fields[5]).Some? && p.stod(fields[6]).Some?
  }

  /** The sample a GYR record carries: field 0 / 1000 seconds, and the
      up, forward and right readings of fields 4, 5 and 6 in degrees per
      second, reordered as (right, forward, up) in radians per second. */
  function GyrOf(fields: seq<string>, p: Parsers): Timed
    requires GyrParses(fields, p)
  {
    Timed(p.stod(fields[0]).value / 1000.0,
          Vec3(AngleMath.Deg2Rad(p.stod(fields[6]).value), AngleMath.Deg2Rad(p.stod(fields[5]).value),
               AngleMath.Deg2Rad(p.stod(fields[4]).value)))
  }

  /** `ProcessACC`: at least 6 fields; field 0 is the time in ms, fields
      3, 4 and 5 are the up, forward and right axes in g, stored as
      (right, forward, up) in m/s². */
  function ProcessAcc(fields: seq<string>, r: Reader, p: Parsers): (o: Out)
    ensures |fields| < 6 ==> o == Out(r, [])
    ensures |fields| >= 6 && !AccParses(fields, p) ==> o == Out(r, [])
    ensures o.reader.seenNzz == r.seenNzz && o.reader.fbkPending == r.fbkPending
    ensures !BothPending(r) ==> !BothPending(o.reader)
    ensures NoNzz(o.events)
    ensures |o.events| == 1 ==>
      && |fields| >= 6 && r.gyr.Some?
      && p.stod(fields[0]).Some? && p.stod(fields[3]).Some? && p.stod(fields[4]).Some? && p.stod(fields[5]).Some?
      && o.events[0] == Imu(Max(p.stod(fields[0]).value / 1000.0, r.gyr.value.t), r.gyr.value.v,
                            Vec3(p.stod(fields[5]).value * Gravity, p.stod(fields[4]).value * Gravity, p.stod(fields[3]).value * Gravity))
    ensures AccParses(fields, p) ==> o == PutAcc(r, AccOf(fields, p))
  {
    if |fields| < 6 then Out(r, [])
    else
      match (p.stod(fields[0]), p.stod(fields[3]), p.stod(fields[4]), p.stod(fields[5]))
      case (Some(ms), Some(up), Some(front), Some(right)) =>
        PutAcc(r, Timed(ms / 1000.0, Vec3(right * Gravity, front * Gravity, up * Gravity)))
      case _ => Out(r, [])
  }

  /** `ProcessGYR`: at least 7 fields; field 0 is the time in ms, fields
      4, 5 and 6 are the up, forward and right axes in degrees per second,
      stored as (right, forward, up) in radians per second. */
  function ProcessGyr(fields: seq<string>, r: Reader, p: Parsers): (o: Out)
    ensures |fields| < 7 ==> o == Out(r, [])
    ensures |fields| >= 7 && !GyrParses(fields, p) ==> o == Out(r, [])
    ensures o.reader.seenNzz == r.seenNzz && o.reader.fbkPending == r.fbkPending
    ensures !BothPending(r) ==> !BothPending(o.reader)
    ensures NoNzz(o.events)
    ensures |o.events| == 1 ==>
      && |fields| >= 7 && r.acc.Some?
      && p.stod(fields[0]).Some? && p.stod(fields[4]).Some? && p.stod(fields[5]).Some? && p.stod(fields[6]).Some?
      && o.events[0] == Imu(Max(r.acc.value.t, p.stod(fields[0]).value / 1000.0),
                            Vec3(AngleMath.Deg2Rad(p.stod(fields[6]).value), AngleMath.Deg2Rad(p.stod(fields[5]).value),
                                 AngleMath.Deg2Rad(p.stod(fields[4]).value)),
                            r.acc.value.v)
    ensures GyrParses(fields, p) ==> o == PutGyr(r, GyrOf(fields, p))
  {
    if |fields| < 7 then Out(r, [])
    else
      match (p.stod(fields[0]), p.stod(fields[4]), p.stod(fields[5]), p.stod(fields[6]))
      case (Some(ms), Some(up), Some(front), Some(right)) =>
        PutGyr(r, Timed(ms / 1000.0, Vec3(AngleMath.Deg2Rad(right), AngleMath.Deg2Rad(front), AngleMath.Deg2Rad(up))))
      case _ => Out(r, [])
  }

  /** A decodable ACC record then a decodable GYR record within 50 ms of
      it, on a reader with nothing waiting: the ACC sample waits, and the
      GYR record completes one IMU sample carrying both decoded vectors,
      stamped with the later time, after which nothing waits. */
  lemma AccThenGyrPairs(fa: seq<string>, fg: seq<string>, r: Reader, p: Parsers)
    requires r.acc.None? && r.gyr.None?
    requires AccParses(fa, p) && GyrParses(fg, p)
    requires Distance(AccOf(fa, p).t, GyrOf(fg, p).t) <= TimeSyncThreshold
    ensures var o1 := ProcessAcc(fa, r, p);
      var o2 := ProcessGyr(fg, o1.reader, p);
      && o1.events == [] && o1.reader.acc == Some(AccOf(fa, p))
      && o2.events == [Imu(Max(AccOf(fa, p).t, GyrOf(fg, p).t), GyrOf(fg, p).v, AccOf(fa, p).v)]
      && o2.reader.acc.None? && o2.reader.gyr.None?
  {
    PairedOnce(r, AccOf(fa, p), GyrOf(fg, p), GyrOf(fg, p));
  }

  /** The GPS time key from fields 18..23 (the record tag not counted). */
  function CppGpsTime(fields: seq<string>, stoi: string -> Option<int>): Option<string>
    requires |fields| >= 24
  {
    match (stoi(fields[18]), stoi(fields[19]), stoi(fields[20]), stoi(fields[21]), stoi(fields[22]), stoi(fields[23]))
    case (Some(y), Some(mo), Some(d), Some(h), Some(mi), Some(s)) =>
      Some(StreamAligner.GpsTimeKey(y, mo, d, h, mi, s))
    case _ => None
  }

  /** Fields 0 and 6..10 (time, longitude, latitude, heading, speed and
      altitude) all parse. */
  predicate GpsFieldsParse(fields: seq<string>, stod: string -> Option<real>)
    requires |fields| >= 11
  {
    stod(fields[0]).Some? && stod(fields[6]).Some? && stod(fields[7]).Some?
    && stod(fields[8]).Some? && stod(fields[9]).Some? && stod(fields[10]).Some?
  }

  /** `ProcessGPS`: at least 25 fields; time in ms, WGS84 longitude and
      latitude in 1e-7 degrees, heading, speed and altitude must all parse;
      the fix is valid (status 4) exactly when field 11 is "A". When the
      time-key callback is set, the fix is passed on again with its time
      key, unless a time field does not parse. */
  function ProcessGps(fields: seq<string>, withKey: bool, p: Parsers): (evs: seq<Event>)
    ensures |fields| < 25 ==> evs == []
    ensures |evs| <= 2
    ensures NoNzz(evs)
    ensures |evs| > 0 ==> |fields| >= 25 && evs[0].Gnss?
    ensures |evs| > 0 ==> (evs[0].fix.status == 4 <==> fields[11] == "A")
    ensures |evs| > 0 ==> evs[0].fix.status in {0, 4} && evs[0].fix.headingValid
    ensures |evs| > 0 ==> (|evs| == 2 <==> withKey && CppGpsTime(fields, p.stoi).Some?)
    ensures |evs| == 2 ==> evs[1] == GpsWithKey(evs[0].fix, CppGpsTime(fields, p.stoi).value)
    ensures |fields| >= 25 && !GpsFieldsParse(fields, p.stod) ==> evs == []
    ensures |fields| >= 25 && GpsFieldsParse(fields, p.stod) ==>
              |evs| >= 1
              && evs[0] == Gnss(GnssFix(p.stod(fields[0]).value / 1000.0, if fields[11] == "A" then 4 else 0,
                                        p.stod(fields[7]).value / 10000000.0, p.stod(fields[6]).value / 10000000.0,
                                        p.stod(fields[10]).value, p.stod(fields[8]).value, true))
  {
    if |fields| < 25 then []
    else
      match (p.stod(fields[0]), p.stod(fields[6]), p.stod(fields[7]), p.stod(fields[8]), p.stod(fields[9]), p.stod(fields[10]))
      case (Some(ms), Some(lon), Some(lat), Some(heading), Some(_), Some(alt)) =>
        var fix := GnssFix(ms / 1000.0, if fields[11] == "A" then 4 else 0,
                           lat / 10000000.0, lon / 10000000.0, alt, heading, true);
        var keyed := if withKey then CppGpsTime(fields, p.stoi) else None;
        if keyed.Some? then [Gnss(fix), GpsWithKey(fix, keyed.value)] else [Gnss(fix)]
      case _ => []
  }

  /** The C++ time key of a `$GPS` line is the Python reader's key: the
      same six integers, counted without the tag, provided the line holds
      no whitespace that only Python splits on. */
  lemma GpsKeyMatchesPython(line: string, stoi: string -> Option<int>)
    requires |Tokens(line)| >= 25
    requires forall k :: 0 <= k < |line| ==> !PyOnlySpace(line[k])
    ensures PyTokens(line) == Tokens(line)
    ensures CppGpsTime(Tokens(line)[1..], stoi) == StreamAligner.GpsTime(PyTokens(line), stoi)
  {
    TokensAgree(line);
  }

  /** The de-duplication key of an NZZ record: date and time fields. */
  function NzzKey(fields: seq<string>): string
    requires |fields| >= 2
  {
    fields[0] + " " + fields[1]
  }

  /** `ProcessNZZ`: at least 12 fields; only the first record of each key
      is forwarded, with the heading of field 11. The key is taken before
      the heading is parsed, so a record whose heading does not parse still
      uses the key up. */
  function ProcessNzz(fields: seq<string>, r: Reader, p: Parsers): (o: Out)
    ensures |fields| < 12 ==> o == Out(r, [])
    ensures |fields| >= 12 ==> o.reader == r.(seenNzz := r.seenNzz + {NzzKey(fields)})
    ensures |o.events| <= 1
    ensures |o.events| == 1 <==> |fields| >= 12 && NzzKey(fields) !in r.seenNzz && p.stod(fields[11]).Some?
    ensures |o.events| == 1 ==> o.events[0] == Nzz(NzzKey(fields), p.stod(fields[11]).value)
  {
    if |fields| < 12 then Out(r, [])
    else
      var key := NzzKey(fields);
      if key in r.seenNzz then Out(r, [])
      else
        var r' := r.(seenNzz := r.seenNzz + {key});
        match p.stod(fields[11])
        case Some(h) => Out(r', [Nzz(key, h)])
        case None => Out(r', [])
  }

  /** Splitting with `std::getline(stream, field, sep)`: like Python's
      split, except that a separator at the very end starts no field. */
  function GetlineSplit(s: string, sep: char): (fs: seq<string>)
    ensures forall k :: 0 <= k < |fs| ==> sep !in fs[k]
    ensures |s| == 0 ==> fs == []
  {
    var ps := SplitOn(s, sep);
    if ps[|ps| - 1] == "" then ps[..|ps| - 1] else ps
  }

  /** The values of the `pitch:` and `heading:` pieces, a later piece
      overriding an earlier one; None when a value does not parse. */
  function ScanAngles(pieces: seq<string>, stod: string -> Option<real>): Option<(Option<real>, Option<real>)>
    decreases |pieces|
  {
    if |pieces| == 0 then Some((None, None))
    else
      match ScanAngles(pieces[..|pieces| - 1], stod)
      case None => None
      case Some((pitch, heading)) =>
        var piece := TrimBlanks(pieces[|pieces| - 1]);
        var pitch' := if StartsWith(piece, "pitch:") then stod(piece[6..]) else pitch;
        var heading' := if StartsWith(piece, "heading:") then stod(piece[8..]) else heading;
        if (StartsWith(piece, "pitch:") && pitch'.None?) || (StartsWith(piece, "heading:") && heading'.None?) then None
        else Some((pitch', heading'))
  }

  /** The comma fields of a flag body, each trimmed of blanks and tabs. */
  function FlagFields(full: string): (fs: seq<string>)
    ensures |fs| == |GetlineSplit(full, ',')|
    ensures forall k :: 0 <= k < |fs| ==> fs[k] == TrimBlanks(GetlineSplit(full, ',')[k])
  {
    var raw := GetlineSplit(full, ',');
    seq(|raw|, k requires 0 <= k < |raw| => TrimBlanks(raw[k]))
  }

  /** What an FBK record body means to the pairing machine. A flag body
      has its comma fields trimmed of blanks and tabs, and field 2 is the
      time in ms. A misalignment body has its angles in the second
      whitespace token, as comma-separated `pitch:` and `heading:` pieces;
      a body whose angles cannot be read carries none. */
  function CppFbkLine(body: string, stod: string -> Option<real>): (l: FbkLog.FbkLine<real>)
    ensures |TrimBlanks(body)| == 0 ==> l.Other?
    ensures l.Flag? <==> |TrimBlanks(body)| > 0 && StartsWith(TrimBlanks(body), "flag")
    ensures l.Flag? && |FlagFields(TrimBlanks(body))| < 3 ==> l.stamp.None?
    ensures l.Flag? && |FlagFields(TrimBlanks(body))| >= 3 ==>
              var ms := stod(FlagFields(TrimBlanks(body))[2]);
              l.stamp == (if ms.Some? then Some(ms.value / 1000.0) else None)
    ensures l.Angles? <==> |TrimBlanks(body)| > 0 && !StartsWith(TrimBlanks(body), "flag")
                           && StartsWith(TrimBlanks(body), "misalignment")
    ensures l.Angles? && |Tokens(TrimBlanks(body))| >= 2
            && ScanAngles(GetlineSplit(Tokens(TrimBlanks(body))[1], ','), stod).Some? ==>
              (l.pitch, l.heading) == ScanAngles(GetlineSplit(Tokens(TrimBlanks(body))[1], ','), stod).value
    ensures l.Angles? && (|Tokens(TrimBlanks(body))| < 2
                          || ScanAngles(GetlineSplit(Tokens(TrimBlanks(body))[1], ','), stod).None?) ==>
              l.pitch.None? && l.heading.None?
  {
    var full := TrimBlanks(body);
    if |full| == 0 then FbkLog.Other
    else if StartsWith(full, "flag") then
      var fields := FlagFields(full);
      if |fields| < 3 then FbkLog.Flag(None)
      else
        match stod(fields[2])
        case Some(ms) => FbkLog.Flag(Some(ms / 1000.0))
        case None => FbkLog.Flag(None)
    else if StartsWith(full, "misalignment") then
      var toks := Tokens(full);
      if |toks| < 2 then FbkLog.Angles(None, None)
      else
        match ScanAngles(GetlineSplit(toks[1], ','), stod)
        case Some((pitch, heading)) => FbkLog.Angles(pitch, heading)
        case None => FbkLog.Angles(None, None)
    else FbkLog.Other
  }

  /** `ProcessFBK`: one step of the flag/misalignment pairing on the text
      after the `$FBK` tag; a completed pair is emitted. A flag line with a
      readable time replaces the pending time; any other line that does not
      complete a pair (a flag line whose time is missing or does not
      parse, a misalignment line whose angles cannot be read, a line of
      another kind) leaves the reader as it was. */
  function ProcessFbk(body: string, r: Reader, stod: string -> Option<real>): (o: Out)
    ensures o.reader == r.(fbkPending := o.reader.fbkPending)
    ensures |o.events| <= 1 && NoNzz(o.events)
    ensures |o.events| == 1 ==> r.fbkPending.Some? && o.reader.fbkPending.None?
    ensures |o.events| == 1 ==> o.events[0].FbkPair? && o.events[0].pair.timestamp == r.fbkPending.value
    ensures |o.events| == 0 && FbkLog.Complete(CppFbkLine(body, stod)) ==> r.fbkPending.None?
    ensures FbkLog.Stamps(CppFbkLine(body, stod)) ==> o == Out(r.(fbkPending := CppFbkLine(body, stod).stamp), [])
    ensures !FbkLog.Stamps(CppFbkLine(body, stod)) && !(r.fbkPending.Some? && FbkLog.Complete(CppFbkLine(body, stod)))
            ==> o == Out(r, [])
  {
    var next := FbkLog.Step(FbkLog.LogState(r.fbkPending, []), CppFbkLine(body, stod));
    Out(r.(fbkPending := next.pending), seq(|next.records|, k requires 0 <= k < |next.records| => FbkPair(next.records[k])))
  }

  // ---------------------------------------------------------------------
  // The reading loop

  /** Lines the reader skips before looking at the record type. */
  predicate Skipped(line: string) {
    |line| == 0 || line[0] == '#'
  }

  /** Whether a line is an NZZ record the reader decodes. */
  predicate IsNzzRecord(line: string, h: Handlers) {
    !Skipped(line) && |Tokens(line)| > 0 && Tokens(line)[0] == "$NZZ" && h.nzz
  }

  /** One line of `Go`. */
  function LineStep(r: Reader, line: string, h: Handlers, p: Parsers): (o: Out)
    ensures Skipped(line) ==> o == Out(r, [])
    ensures !BothPending(r) ==> !BothPending(o.reader)
    ensures IsNzzRecord(line, h) ==> o == ProcessNzz(Tokens(line)[1..], r, p)
    ensures !IsNzzRecord(line, h) ==> o.reader.seenNzz == r.seenNzz && NoNzz(o.events)
  {
    if Skipped(line) then Out(r, [])
    else
      var toks := Tokens(line);
      if |toks| == 0 then Out(r, [])
      else
        var tag, fields := toks[0], toks[1..];
        if tag == "$GPS" && h.gnss then Out(r, ProcessGps(fields, h.gpsKey, p))
        else if tag == "$ACC" && h.imu then ProcessAcc(fields, r, p)
        else if tag == "$GYR" && h.imu then ProcessGyr(fields, r, p)
        else if tag == "$NZZ" && h.nzz then ProcessNzz(fields, r, p)
        else if tag == "$FBK" && h.fbk then ProcessFbk(AfterFirstToken(line), r, p.stod)
        else if tag == "IMU" && h.imu then Out(r, [Legacy(tag, fields)])
        else if tag == "ODOM" && h.odom then Out(r, [Legacy(tag, fields)])
        else if tag == "GNSS" && h.gnss then Out(r, [Legacy(tag, fields)])
        else Out(r, [])
  }

  /** `Go` over the lines of the file, from a fresh reader. */
  function Go(lines: seq<string>, h: Handlers, p: Parsers): Out
    decreases |lines|
  {
    if |lines| == 0 then Out(Fresh, [])
    else
      var o := Go(lines[..|lines| - 1], h, p);
      var s := LineStep(o.reader, lines[|lines| - 1], h, p);
      Out(s.reader, o.events + s.events)
  }

  /** A file that cannot be opened gives no events. */
  function ReadFile(file: Option<seq<string>>, h: Handlers, p: Parsers): (evs: seq<Event>)
    ensures file.None? ==> evs == []
  {
    match file
    case None => []
    case Some(lines) => Go(lines, h, p).events
  }

  // ---------------------------------------------------------------------
  // Properties of the loop

  /** Skipped lines are invisible: removing an empty or '#' line anywhere
      changes neither the events nor the final state. */
  lemma {:induction false} SkippedLinesInvisible(a: seq<string>, c: string, b: seq<string>, h: Handlers, p: Parsers)
    requires Skipped(c)
    ensures Go(a + [c] + b, h, p) == Go(a + b, h, p)
    decreases |b|
  {
    if |b| == 0 {
      assert a + [c] + b == a + [c];
      assert (a + [c])[..|a + [c]| - 1] == a;
      assert a + b == a;
    } else {
      var b' := b[..|b| - 1];
      SkippedLinesInvisible(a, c, b', h, p);
      assert (a + [c] + b)[..|a + [c] + b| - 1] == a + [c] + b';
      assert (a + b)[..|a + b| - 1] == a + b';
      assert (a + [c] + b)[|a + [c] + b| - 1] == b[|b| - 1];
      assert (a + b)[|a + b| - 1] == b[|b| - 1];
    }
  }

  /** An ACC and a GYR sample are never both left waiting: every pair
      close enough has been combined, and of two too far apart the older
      has been dropped. */
  lemma {:induction false} NeverBothPending(lines: seq<string>, h: Handlers, p: Parsers)
    ensures !BothPending(Go(lines, h, p).reader)
    decreases |lines|
  {
    if |lines| > 0 {
      NeverBothPending(lines[..|lines| - 1], h, p);
    }
  }

  /** The keys of the NZZ events. */
  predicate NzzKeysFresh(evs: seq<Event>, before: set<string>, after: set<string>) {
    && (forall k :: 0 <= k < |evs| && evs[k].Nzz? ==> evs[k].key !in before && evs[k].key in after)
    && (forall i, j :: 0 <= i < j < |evs| && evs[i].Nzz? && evs[j].Nzz? ==> evs[i].key != evs[j].key)
  }

  /** Only decoders of NZZ records touch the seen keys, and only by adding
      to them. */
  lemma LineStepSeen(r: Reader, line: string, h: Handlers, p: Parsers)
    ensures var o := LineStep(r, line, h, p);
      r.seenNzz <= o.reader.seenNzz && NzzKeysFresh(o.events, r.seenNzz, o.reader.seenNzz)
  {
    var o := LineStep(r, line, h, p);
    if IsNzzRecord(line, h) {
      var fields := Tokens(line)[1..];
      if |fields| >= 12 {
        assert NzzKey(fields) in o.reader.seenNzz;
      }
    }
  }

  /** Each NZZ key is forwarded at most once in a whole file, and every
      forwarded key is remembered. */
  lemma {:induction false} NzzKeysDistinct(lines: seq<string>, h: Handlers, p: Parsers)
    ensures NzzKeysFresh(Go(lines, h, p).events, {}, Go(lines, h, p).reader.seenNzz)
    decreases |lines|
  {
    if |lines| > 0 {
      var o := Go(lines[..|lines| - 1], h, p);
      NzzKeysDistinct(lines[..|lines| - 1], h, p);
      var s := LineStep(o.reader, lines[|lines| - 1], h, p);
      LineStepSeen(o.reader, lines[|lines| - 1], h, p);
      FreshConcat(o.events, s.events, o.reader.seenNzz, s.reader.seenNzz);
    }
  }

  lemma FreshConcat(e1: seq<Event>, e2: seq<Event>, mid: set<string>, after: set<string>)
    requires NzzKeysFresh(e1, {}, mid)
    requires NzzKeysFresh(e2, mid, after)
    requires mid <= after
    ensures NzzKeysFresh(e1 + e2, {}, after)
  {
    var e := e1 + e2;
    forall i, j | 0 <= i < j < |e| && e[i].Nzz? && e[j].Nzz?
      ensures e[i].key != e[j].key
    {
      if j >= |e1| && i < |e1| {
        assert e[i] == e1[i] && e[j] == e2[j - |e1|];
      } else if i >= |e1| {
        assert e[i] == e2[i - |e1|] && e[j] == e2[j - |e1|];
      }
    }
  }

  /** An NZZ record whose heading does not parse still uses its key up: a
      later well-formed record with the same date and time is not
      forwarded. */
  lemma BadHeadingUsesKey(r: Reader, bad: seq<string>, good: seq<string>, p: Parsers)
    requires |bad| >= 12 && |good| >= 12 && NzzKey(bad) == NzzKey(good)
    requires p.stod(bad[11]).None?
    ensures var o1 := ProcessNzz(bad, r, p);
      o1.events == [] && ProcessNzz(good, o1.reader, p).events == []
  {
  }

  /** The `$FBK` lines: their body after the tag. */
  predicate IsFbkLine(line: string) {
    !Skipped(line) && |Tokens(line)| > 0 && Tokens(line)[0] == "$FBK"
  }

  /** The reader's FBK state and events agree with a state of the pairing
      machine. */
  ghost predicate Mirrors(o: Out, st: FbkLog.LogState<real>) {
    && o.reader.fbkPending == st.pending
    && |o.events| == |st.records|
    && forall k :: 0 <= k < |st.records| ==> o.events[k] == FbkPair(st.records[k])
  }

  /** The FBK events of a log of `$FBK` lines are the records of the
      flag/misalignment pairing machine, with each line classified by the
      C++ decoder: the C++ and Python readers pair in the same way and
      differ only in how they read a line. */
  lemma {:induction false} FbkFollowsPairing(lines: seq<string>, h: Handlers, p: Parsers)
    requires h.fbk
    requires forall k :: 0 <= k < |lines| ==> IsFbkLine(lines[k])
    ensures Mirrors(Go(lines, h, p), FbkLog.ReadLog(lines, FbkClassifier(p.stod)))
    decreases |lines|
  {
    if |lines| > 0 {
      var init := lines[..|lines| - 1];
      assert forall k :: 0 <= k < |init| ==> init[k] == lines[k];
      FbkFollowsPairing(init, h, p);
      FbkNextLine(lines, h, p);
    } else {
      FbkEmptyLog(lines, h, p);
    }
  }

  /** The loop's last step. */
  lemma GoSnoc(lines: seq<string>, h: Handlers, p: Parsers)
    requires |lines| > 0
    ensures var o := Go(lines[..|lines| - 1], h, p);
      var s := LineStep(o.reader, lines[|lines| - 1], h, p);
      Go(lines, h, p) == Out(s.reader, o.events + s.events)
  {
  }

  /** The inductive step: one more `$FBK` line keeps the mirror. */
  lemma FbkNextLine(lines: seq<string>, h: Handlers, p: Parsers)
    requires h.fbk && |lines| > 0 && IsFbkLine(lines[|lines| - 1])
    requires Mirrors(Go(lines[..|lines| - 1], h, p), FbkLog.ReadLog(lines[..|lines| - 1], FbkClassifier(p.stod)))
    ensures Mirrors(Go(lines, h, p), FbkLog.ReadLog(lines, FbkClassifier(p.stod)))
  {
    var init := lines[..|lines| - 1];
    var last := lines[|lines| - 1];
    var classify := FbkClassifier(p.stod);
    var o := Go(init, h, p);
    var st := FbkLog.ReadLog(init, classify);
    FbkLineStep(o.reader, last, h, p);
    var body := AfterFirstToken(last);
    var s := ProcessFbk(body, o.reader, p.stod);
    GoSnoc(lines, h, p);
    assert Go(lines, h, p) == Out(s.reader, o.events + s.events);
    FbkLog.ReadLogSnoc(lines, classify);
    FbkStepRecords(o, st, p.stod, body);
  }

  lemma FbkEmptyLog(lines: seq<string>, h: Handlers, p: Parsers)
    requires |lines| == 0
    ensures Mirrors(Go(lines, h, p), FbkLog.ReadLog(lines, FbkClassifier(p.stod)))
  {
  }

  /** One FBK step keeps the events in line with the pairing machine's
      records. */
  lemma FbkStepRecords(o: Out, st: FbkLog.LogState<real>, stod: string -> Option<real>, body: string)
    requires Mirrors(o, st)
    ensures var s := ProcessFbk(body, o.reader, stod);
      Mirrors(Out(s.reader, o.events + s.events), FbkLog.Step(st, CppFbkLine(body, stod)))
  {
  }

  /** How the C++ reader classifies a whole `$FBK` line. */
  function FbkClassifier(stod: string -> Option<real>): string -> FbkLog.FbkLine<real> {
    l => CppFbkLine(AfterFirstToken(l), stod)
  }

  /** On an `$FBK` line the loop runs the FBK decoder on the body. */
  lemma FbkLineStep(r: Reader, line: string, h: Handlers, p: Parsers)
    requires h.fbk && IsFbkLine(line)
    ensures LineStep(r, line, h, p) == ProcessFbk(AfterFirstToken(line), r, p.stod)
  {
  }

}

=== FILE: lateral_analysis.dfy ===
/** The single-file step of the lateral residual analysis
    (`analyze_single_file` in `lateral_analysis.py`): rows outside the
    optional, inclusive time bounds are dropped, and the lateral residuals
    that remain are summarised. Square roots are left out: the summary
    holds the mean square (RMS²) and the variance (std²). */
module LateralAnalysis {
  import opened Optional
  import opened RateSeries
  import RmsWindows

  /** One row of a lateral residual file: time and lateral residual (the
      other columns are not used). */
  datatype LateralRow = LateralRow(t: real, lateral: real)

  datatype Stats = Stats(meanSquare: real, variance: real, mean: real, maxAbs: real, count: nat)

  /** The four results of `analyze_single_file`: statistics, the filtered
      rows, the original and the filtered row counts. */
  datatype Analysis = Analysis(stats: Option<Stats>, data: Option<seq<LateralRow>>, originalCount: nat, filteredCount: nat)

  /** The rows within the bounds, in file order. */
  function TimeFilter(rows: seq<LateralRow>, lo: Option<real>, hi: Option<real>): (r: seq<LateralRow>)
    ensures |r| <= |rows|
    ensures forall k :: 0 <= k < |r| ==> RmsWindows.Within(r[k].t, lo, hi)
    decreases |rows|
  {
    if |rows| == 0 then []
    else
      var last := rows[|rows| - 1];
      var w := TimeFilter(rows[..|rows| - 1], lo, hi);
      if RmsWindows.Within(last.t, lo, hi) then w + [last] else w
  }

  /** A row as an RMS sample: its time and squared residual. */
  function SampleOf(row: LateralRow): RmsWindows.ErrorSample {
    RmsWindows.ErrorSample(row.t, row.lateral * row.lateral)
  }

  /** The rows as the RMS scripts' samples. */
  function AsSamples(rows: seq<LateralRow>): (s: seq<RmsWindows.ErrorSample>)
    ensures |s| == |rows|
    ensures forall k :: 0 <= k < |rows| ==> s[k].t == rows[k].t
    decreases |rows|
  {
    if |rows| == 0 then []
    else
      AsSamples(rows[..|rows| - 1]) + [SampleOf(rows[|rows| - 1])]
  }

  /** The lateral analysis keeps exactly the rows the RMS scripts' time
      window keeps: both bounds inclusive, a missing bound no limit. */
  lemma {:induction false} FilterIsRmsWindow(rows: seq<LateralRow>, lo: Option<real>, hi: Option<real>)
    ensures AsSamples(TimeFilter(rows, lo, hi)) == RmsWindows.Window(AsSamples(rows), lo, hi)
    decreases |rows|
  {
    if |rows| > 0 {
      var init := rows[..|rows| - 1];
      FilterIsRmsWindow(init, lo, hi);
      var w := TimeFilter(init, lo, hi);
      var last := rows[|rows| - 1];
      var sample := SampleOf(last);
      var samples := AsSamples(rows);
      assert samples == AsSamples(init) + [sample];
      assert samples[..|samples| - 1] == AsSamples(init);
      assert samples[|samples| - 1] == sample;
      if RmsWindows.Within(last.t, lo, hi) {
        var ext := w + [last];
        assert ext[..|ext| - 1] == w;
        assert AsSamples(ext) == AsSamples(w) + [sample];
      }
    }
  }

  /** The filter is empty exactly when no row lies within the bounds. */
  lemma FilterEmpty(rows: seq<LateralRow>, lo: Option<real>, hi: Option<real>)
    ensures |TimeFilter(rows, lo, hi)| == 0 <==> forall k :: 0 <= k < |rows| ==> !RmsWindows.Within(rows[k].t, lo, hi)
  {
    FilterIsRmsWindow(rows, lo, hi);
    RmsWindows.WindowEmpty(AsSamples(rows), lo, hi);
    assert forall k :: 0 <= k < |rows| ==> AsSamples(rows)[k].t == rows[k].t;
  }

  // ---------------------------------------------------------------------
  // Statistics

  /** The lateral column. */
  function Values(rows: seq<LateralRow>): (xs: seq<real>)
    ensures |xs| == |rows|
    ensures forall k :: 0 <= k < |rows| ==> xs[k] == rows[k].lateral
  {
    seq(|rows|, k requires 0 <= k < |rows| => rows[k].lateral)
  }

  /** Σ x². */
  function SumSquares(xs: seq<real>): real
    decreases |xs|
  {
    if |xs| == 0 then 0.0 else SumSquares(xs[..|xs| - 1]) + xs[|xs| - 1] * xs[|xs| - 1]
  }

  /** Σ (x − m)². */
  function SumDeviations(xs: seq<real>, m: real): real
    decreases |xs|
  {
    if |xs| == 0 then 0.0
    else SumDeviations(xs[..|xs| - 1], m) + (xs[|xs| - 1] - m) * (xs[|xs| - 1] - m)
  }

  function Abs(x: real): real {
    if x < 0.0 then -x else x
  }

  /** `np.max(np.abs(xs))`. */
  function MaxAbs(xs: seq<real>): (r: real)
    requires |xs| > 0
    ensures forall k :: 0 <= k < |xs| ==> Abs(xs[k]) <= r
    ensures exists k :: 0 <= k < |xs| && r == Abs(xs[k])
    decreases |xs|
  {
    if |xs| == 1 then Abs(xs[0])
    else
      var m := MaxAbs(xs[..|xs| - 1]);
      var x := Abs(xs[|xs| - 1]);
      assert forall k :: 0 <= k < |xs| - 1 ==> xs[..|xs| - 1][k] == xs[k];
      if x > m then x else m
  }

  /** The statistics of a non-empty set of rows: `np.mean(lateral**2)`,
      `np.var` (population variance, the square of `np.std`), the mean,
      the largest absolute residual and the count. */
  function StatsOf(rows: seq<LateralRow>): (s: Stats)
    requires |rows| > 0
    ensures s.count == |rows|
    ensures forall k :: 0 <= k < |rows| ==> Abs(rows[k].lateral) <= s.maxAbs
    ensures exists k :: 0 <= k < |rows| && s.maxAbs == Abs(rows[k].lateral)
  {
    var xs := Values(rows);
    var m := Mean(xs);
    var n := |rows| as real;
    Stats(SumSquares(xs) / n, SumDeviations(xs, m) / n, m, MaxAbs(xs), |rows|)
  }

  /** `analyze_single_file` on a file that could not be read (None) or on
      its rows. No rows within the bounds gives no statistics and zero
      counts, the original count included. */
  function AnalyzeSingleFile(file: Option<seq<LateralRow>>, lo: Option<real>, hi: Option<real>): (r: Analysis)
    ensures file.None? ==> r == Analysis(None, None, 0, 0)
    ensures r.stats.None? <==> r == Analysis(None, None, 0, 0)
    ensures r.stats.Some? ==> file.Some? && r.data == Some(TimeFilter(file.value, lo, hi))
    ensures r.stats.Some? ==> r.originalCount == |file.value| && r.filteredCount == r.stats.value.count == |r.data.value| > 0
  {
    match file
    case None => Analysis(None, None, 0, 0)
    case Some(rows) =>
      var data := TimeFilter(rows, lo, hi);
      if |data| == 0 then Analysis(None, None, 0, 0)
      else Analysis(Some(StatsOf(data)), Some(data), |rows|, |data|)
  }

  /** Statistics exist exactly when the file was read and some row lies
      within the bounds. */
  lemma StatsIffRowsInRange(file: Option<seq<LateralRow>>, lo: Option<real>, hi: Option<real>)
    ensures AnalyzeSingleFile(file, lo, hi).stats.Some?
      <==> file.Some? && exists k :: 0 <= k < |file.value| && RmsWindows.Within(file.value[k].t, lo, hi)
  {
    if file.Some? {
      FilterEmpty(file.value, lo, hi);
    }
  }

  /** d is the expansion Σx² − 2mΣx + n·m² of a sum of squared
      deviations, given q = Σx², s = Σx and n terms. */
  predicate Expanded(d: real, q: real, s: real, n: real, m: real) {
    d == q - 2.0 * m * s + n * m * m
  }

  /** The sum of squared deviations from any m expands as
      Σx² − 2mΣx + n·m². */
  lemma {:induction false} DeviationSum(xs: seq<real>, m: real)
    ensures Expanded(SumDeviations(xs, m), SumSquares(xs), Sum(xs), |xs| as real, m)
    decreases |xs|
  {
    if |xs| > 0 {
      var init := xs[..|xs| - 1];
      DeviationSum(init, m);
      ExpandStep(SumDeviations(init, m), SumSquares(init), Sum(init), |init| as real, xs[|xs| - 1], m);
    }
  }

  /** One more term in the expansion of squared deviations. */
  lemma ExpandStep(d: real, q: real, s: real, n: real, x: real, m: real)
    requires Expanded(d, q, s, n, m)
    ensures Expanded(d + (x - m) * (x - m), q + x * x, s + x, n + 1.0, m)
  {
    assert (x - m) * (x - m) == x * x - 2.0 * m * x + m * m;
    assert 2.0 * m * (s + x) == 2.0 * m * s + 2.0 * m * x;
    assert (n + 1.0) * m * m == n * m * m + m * m;
  }

  /** With m the mean, the expansion reduces to the mean square less m². */
  lemma MeanExpansion(d: real, q: real, s: real, n: real, m: real)
    requires n > 0.0 && m == s / n
    requires Expanded(d, q, s, n, m)
    ensures d / n == q / n - m * m
  {
    assert s == m * n;
    assert d == q - n * (m * m);
  }

  /** A sum of squares is never negative. */
  lemma {:induction false} DeviationsAtLeastZero(xs: seq<real>, m: real)
    ensures SumDeviations(xs, m) >= 0.0
    decreases |xs|
  {
    if |xs| > 0 {
      DeviationsAtLeastZero(xs[..|xs| - 1], m);
      SquareNonNegative(xs[|xs| - 1] - m);
    }
  }

  lemma SquareNonNegative(x: real)
    ensures x * x >= 0.0
  {
    if x < 0.0 {
      assert x * x == (-x) * (-x);
    }
  }

  /** The variance is the mean square less the squared mean, and it is
      never negative: the RMS is never below the absolute mean. */
  lemma VarianceIdentity(rows: seq<LateralRow>)
    requires |rows| > 0
    ensures StatsOf(rows).variance == StatsOf(rows).meanSquare - StatsOf(rows).mean * StatsOf(rows).mean
    ensures StatsOf(rows).variance >= 0.0
    ensures StatsOf(rows).meanSquare >= StatsOf(rows).mean * StatsOf(rows).mean
  {
    var xs := Values(rows);
    var n := |xs| as real;
    var m := Mean(xs);
    DeviationSum(xs, m);
    MeanExpansion(SumDeviations(xs, m), SumSquares(xs), Sum(xs), n, m);
    DeviationsAtLeastZero(xs, m);
    assert SumDeviations(xs, m) / n >= 0.0;
  }

  /** The squared residuals summed the RMS scripts' way and this
      script's way agree. */
  lemma {:induction false} SquaresAgree(rows: seq<LateralRow>)
    ensures Sum(RmsWindows.Squares(AsSamples(rows))) == SumSquares(Values(rows))
    decreases |rows|
  {
    if |rows| > 0 {
      var init := rows[..|rows| - 1];
      SquaresAgree(init);
      var sq := RmsWindows.Squares(AsSamples(rows));
      assert AsSamples(rows)[..|rows| - 1] == AsSamples(init);
      assert sq[..|sq| - 1] == RmsWindows.Squares(AsSamples(init));
      assert Values(rows)[..|rows| - 1] == Values(init);
    }
  }

  /** The mean square this script reports for the rows it keeps is the one
      the lateral RMS script computes over the same time window. */
  lemma RmsAgrees(rows: seq<LateralRow>, lo: Option<real>, hi: Option<real>)
    requires |TimeFilter(rows, lo, hi)| > 0
    ensures StatsOf(TimeFilter(rows, lo, hi)).meanSquare == RmsWindows.MeanSquare(RmsWindows.Window(AsSamples(rows), lo, hi))
  {
    FilterIsRmsWindow(rows, lo, hi);
    SquaresAgree(TimeFilter(rows, lo, hi));
  }
}

=== FILE: offset_names.dfy ===
/** GPS time offsets encoded in result file names. The RMS scripts name
    the file of offset `x` seconds after `int(x * 1000)` milliseconds, and
    the lateral analysis reads the offset back from the first `_<int>ms` in
    a file name. */
module OffsetNames {
  import opened Optional
  import opened Text

  /** Python `int()` on a float: truncation toward zero. */
  function Truncate(x: real): (r: int)
    ensures x >= 0.0 ==> 0 <= r && r as real <= x < r as real + 1.0
    ensures x < 0.0 ==> r <= 0 && r as real - 1.0 < x <= r as real
  {
    if x >= 0.0 then x.Floor else -((-x).Floor)
  }

  /** Offset in milliseconds as the scripts compute it. */
  function OffsetMs(offset: real): int {
    Truncate(offset * 1000.0)
  }

  /** The corrections file of an offset in `auto_pos_rms.py`. */
  function CorrectionsFile(offset: real): string {
    if offset == 0.0 then "corrections.txt"
    else "corrections_" + IntToString(OffsetMs(offset)) + "ms.txt"
  }

  /** The lateral residual file of an offset in
      `auto_lateral_residuals_rms.py`. */
  function LateralFile(offset: real): string {
    if offset == 0.0 then "corrections_lateral.txt"
    else "corrections_" + IntToString(OffsetMs(offset)) + "ms_lateral.txt"
  }

  // ---------------------------------------------------------------------
  // Reading the offset back

  /** The length of the run of digits starting at index i. */
  function DigitRun(s: string, i: nat): (n: nat)
    requires i <= |s|
    ensures i + n <= |s|
    ensures forall k :: i <= k < i + n ==> IsDigit(s[k])
    ensures i + n < |s| ==> !IsDigit(s[i + n])
    decreases |s| - i
  {
    if i < |s| && IsDigit(s[i]) then 1 + DigitRun(s, i + 1) else 0
  }

  /** `\d+ms` at index ds: the value of the digit run when it is
      non-empty and followed by "ms". */
  function DigitsMs(s: string, ds: nat): (r: Option<nat>)
    requires ds <= |s|
  {
    var n := DigitRun(s, ds);
    if n > 0 && StartsWith(s[ds + n..], "ms") then Some(DigitsValue(s[ds..ds + n])) else None
  }

  /** The pattern `_(-?\d+)ms` tried at index p. The digit run is greedy
      and backtracking cannot help, since a shorter run is followed by a
      digit and not by 'm'; dropping an optional '-' leaves a '-' where a
      digit is needed. */
  function MatchAt(s: string, p: nat): (r: Option<int>)
    requires p <= |s|
    ensures r.Some? ==> p < |s| && s[p] == '_'
  {
    if p < |s| && s[p] == '_' then
      if p + 1 < |s| && s[p + 1] == '-' then
        match DigitsMs(s, p + 2)
        case Some(v) => Some(-(v as int))
        case None => None
      else
        match DigitsMs(s, p + 1)
        case Some(v) => Some(v as int)
        case None => None
    else None
  }

  /** `re.search`: the match that starts leftmost, from index p on. */
  function SearchFrom(s: string, p: nat): (r: Option<int>)
    requires p <= |s|
    decreases |s| - p
  {
    if p == |s| then None
    else if MatchAt(s, p).Some? then MatchAt(s, p)
    else SearchFrom(s, p + 1)
  }

  /** `extract_time_delay_from_filename`: the matched milliseconds in
      seconds, or 0.0 when the name has no match. */
  function ExtractTimeDelay(filename: string): (r: real)
    ensures SearchFrom(filename, 0).Some? ==> r * 1000.0 == SearchFrom(filename, 0).value as real
    ensures SearchFrom(filename, 0).None? ==> r == 0.0
  {
    match SearchFrom(filename, 0)
    case Some(ms) => ms as real / 1000.0
    case None => 0.0
  }

  /** A name without '_' has no match. */
  lemma {:induction false} NoUnderscoreNoMatch(s: string, p: nat)
    requires p <= |s|
    requires forall k :: p <= k < |s| ==> s[k] != '_'
    ensures SearchFrom(s, p).None?
    decreases |s| - p
  {
    if p < |s| {
      NoUnderscoreNoMatch(s, p + 1);
    }
  }

  /** A name without '_', such as the zero-offset `corrections.txt`, reads
      as no delay. */
  lemma NoUnderscoreNoDelay(filename: string)
    requires '_' !in filename
    ensures ExtractTimeDelay(filename) == 0.0
  {
    NoUnderscoreNoMatch(filename, 0);
  }

  /** Positions without '_' are passed over by the search. */
  lemma {:induction false} SearchSkips(s: string, p: nat, q: nat)
    requires p <= q <= |s|
    requires forall k :: p <= k < q ==> s[k] != '_'
    ensures SearchFrom(s, p) == SearchFrom(s, q)
    decreases q - p
  {
    if p < q {
      SearchSkips(s, p + 1, q);
    }
  }

  /** A run of digits followed by "ms" is read whole. */
  lemma DigitsThenMs(s: string, ds: nat, d: string)
    requires |d| > 0 && AllDigits(d)
    requires ds + |d| + 2 <= |s| && s[ds..ds + |d|] == d
    requires s[ds + |d|] == 'm' && s[ds + |d| + 1] == 's'
    ensures DigitsMs(s, ds) == Some(DigitsValue(d))
  {
    DigitRunOfDigits(s, ds, d);
    MsAt(s, ds + |d|);
  }

  lemma DigitRunOfDigits(s: string, ds: nat, d: string)
    requires AllDigits(d)
    requires ds + |d| < |s| && s[ds..ds + |d|] == d
    requires !IsDigit(s[ds + |d|])
    ensures DigitRun(s, ds) == |d|
  {
    assert forall k :: ds <= k < ds + |d| ==> s[k] == d[k - ds];
    DigitRunOver(s, ds, |d|);
  }

  lemma MsAt(s: string, i: nat)
    requires i + 2 <= |s| && s[i] == 'm' && s[i + 1] == 's'
    ensures StartsWith(s[i..], "ms")
  {
    assert s[i..][..2] == "ms";
  }

  /** A digit run covers exactly n characters when those are digits and
      the next is not. */
  lemma {:induction false} DigitRunOver(s: string, i: nat, n: nat)
    requires i + n < |s|
    requires forall k :: i <= k < i + n ==> IsDigit(s[k])
    requires !IsDigit(s[i + n])
    ensures DigitRun(s, i) == n
    decreases n
  {
    if n > 0 {
      DigitRunOver(s, i + 1, n - 1);
    }
  }

  /** `_` followed by the decimal text of m and then "ms" matches as m. */
  lemma MatchOfInt(s: string, p: nat, m: int)
    requires p + 1 + |IntToString(m)| + 2 <= |s|
    requires s[p] == '_'
    requires s[p + 1..p + 1 + |IntToString(m)|] == IntToString(m)
    requires s[p + 1 + |IntToString(m)|] == 'm' && s[p + 2 + |IntToString(m)|] == 's'
    ensures MatchAt(s, p) == Some(m)
  {
    if m < 0 {
      MatchOfNegative(s, p, m);
    } else {
      MatchOfNonNegative(s, p, m);
    }
  }

  lemma MatchOfNegative(s: string, p: nat, m: int)
    requires m < 0
    requires p + 1 + |IntToString(m)| + 2 <= |s|
    requires s[p] == '_'
    requires s[p + 1..p + 1 + |IntToString(m)|] == IntToString(m)
    requires s[p + 1 + |IntToString(m)|] == 'm' && s[p + 2 + |IntToString(m)|] == 's'
    ensures MatchAt(s, p) == Some(m)
  {
    var t := IntToString(m);
    IntToStringDigits(m);
    assert s[p + 1] == t[0];
    assert s[p + 2..p + 2 + |t[1..]|] == t[1..];
    DigitsThenMs(s, p + 2, t[1..]);
  }

  lemma MatchOfNonNegative(s: string, p: nat, m: int)
    requires m >= 0
    requires p + 1 + |IntToString(m)| + 2 <= |s|
    requires s[p] == '_'
    requires s[p + 1..p + 1 + |IntToString(m)|] == IntToString(m)
    requires s[p + 1 + |IntToString(m)|] == 'm' && s[p + 2 + |IntToString(m)|] == 's'
    ensures MatchAt(s, p) == Some(m)
  {
    var t := IntToString(m);
    IntToStringDigits(m);
    assert s[p + 1] == t[0];
    assert IsDigit(t[0]);
    DigitsThenMs(s, p + 1, t);
  }

  /** A name of the form pre + "_" + m + "ms" + post, where pre has no
      '_', reads as m milliseconds. */
  lemma NameWithMs(pre: string, m: int, post: string)
    requires '_' !in pre
    ensures ExtractTimeDelay(pre + "_" + IntToString(m) + "ms" + post) == m as real / 1000.0
  {
    var t := IntToString(m);
    var name := pre + "_" + t + "ms" + post;
    var p := |pre|;
    assert name[p] == '_';
    assert name[p + 1..p + 1 + |t|] == t;
    assert name[p + 1 + |t|] == 'm' && name[p + 2 + |t|] == 's';
    assert forall k :: 0 <= k < p ==> name[k] == pre[k];
    SearchSkips(name, 0, p);
    MatchOfInt(name, p, m);
  }

  /** The milliseconds encoded in a name are read back: for any offset,
      the delay read from its corrections file name is the offset truncated
      to whole milliseconds, so a whole-millisecond offset reads back
      exactly. */
  lemma CorrectionsNameRoundTrip(offset: real)
    ensures ExtractTimeDelay(CorrectionsFile(offset)) == OffsetMs(offset) as real / 1000.0
  {
    if offset == 0.0 {
      NoUnderscoreNoDelay("corrections.txt");
    } else {
      var t := IntToString(OffsetMs(offset));
      assert CorrectionsFile(offset) == "corrections" + "_" + t + "ms" + ".txt";
      NameWithMs("corrections", OffsetMs(offset), ".txt");
    }
  }

  /** The same for the lateral residual file names the lateral analysis
      globs for. */
  lemma LateralNameRoundTrip(offset: real)
    ensures ExtractTimeDelay(LateralFile(offset)) == OffsetMs(offset) as real / 1000.0
  {
    if offset == 0.0 {
      ZeroLateralName();
    } else {
      LateralFileParts(OffsetMs(offset));
      NameWithMs("corrections", OffsetMs(offset), "_lateral.txt");
    }
  }

  lemma LateralFileParts(ms: int)
    ensures "corrections_" + IntToString(ms) + "ms_lateral.txt" == "corrections" + "_" + IntToString(ms) + "ms" + "_lateral.txt"
  {
    assert "corrections_" == "corrections" + "_";
    assert "ms_lateral.txt" == "ms" + "_lateral.txt";
  }

  /** The zero-offset lateral file has a '_' but no match. */
  lemma ZeroLateralName()
    ensures ExtractTimeDelay("corrections_lateral.txt") == 0.0
  {
    var name := "corrections_lateral.txt";
    assert forall k :: 0 <= k < 11 ==> name[k] != '_';
    assert forall k :: 12 <= k < |name| ==> name[k] != '_';
    assert !IsDigit(name[12]) && name[12] != '-';
    assert MatchAt(name, 11).None?;
    SearchSkips(name, 0, 11);
    NoUnderscoreNoMatch(name, 12);
  }

  /** An offset of a whole number of milliseconds reads back exactly. */
  lemma WholeMsRoundTrip(ms: int)
    ensures ExtractTimeDelay(CorrectionsFile(ms as real / 1000.0)) == ms as real / 1000.0
    ensures ExtractTimeDelay(LateralFile(ms as real / 1000.0)) == ms as real / 1000.0
  {
    var x := ms as real / 1000.0;
    assert x * 1000.0 == ms as real;
    assert OffsetMs(x) == ms;
    CorrectionsNameRoundTrip(x);
    LateralNameRoundTrip(x);
  }
}

=== FILE: optional.dfy ===
/** The Some/None datatype used wherever the source returns None, an empty
    optional, or catches an exception and carries on. */
module Optional {

  datatype Option<+T> = None | Some(value: T) {

    /** The carried value, or `default` when there is none. */
    function GetOr(default: T): T {
      match this
      case Some(v) => v
      case None => default
    }
  }
}

=== FILE: rms_file.dfy ===
/** The reader of a per-segment RMS result file (`parse_rms_file` in
    `plot_rms_curves.py`) and the section layout the RMS scripts write it
    in. A section is a header comment naming the segment, `# 转弯段 <id>
    (<info>)` or `# 整段轨迹 (<info>)` for the whole trajectory (id 0),
    followed by comma-separated rows whose first two fields are the GPS
    offset and the RMS value. */
module RmsFile {
  import opened Optional
  import opened Text

  /** One row as grouped: offset, RMS and the info text of its header. */
  datatype RmsPoint = RmsPoint(offset: real, rms: real, info: string)

  /** The segment later rows belong to. */
  datatype Current = Current(id: int, info: string)

  /** The reader's state: the current segment (none before the first
      usable header) and the rows grouped per segment id. */
  datatype ReadState = ReadState(current: Option<Current>, groups: map<int, seq<RmsPoint>>)

  const Start: ReadState := ReadState(None, map[])

  const TurnTag: string := "# 转弯段"
  const WholeName: string := "整段轨迹"
  const WholeTag: string := "# 整段轨迹"

  /** What one line means to the reader, independent of its position. A
      header may name no usable segment (`target` None), in which case the
      current segment stays as it was. */
  datatype RmsLine = Header(target: Option<Current>) | Data(offset: real, rms: real) | Ignored

  predicate IsHeader(line: string) {
    StartsWith(line, TurnTag) || StartsWith(line, WholeTag)
  }

  /** The segment a stripped header line names: the text before the first
      '(' names it, the text after it up to the next '(' with trailing ')'
      removed is the info. A header mentioning 整段轨迹 before '(' is
      segment 0; otherwise the id is what is left once 转弯段 tags are
      removed. No '(' or an id that is not an integer names nothing. */
  function HeaderTarget(line: string, parseInt: string -> Option<int>): (r: Option<Current>)
    ensures '(' !in line ==> r.None?
  {
    var parts := SplitOn(line, '(');
    if |parts| < 2 then None
    else
      var turnPart := Strip(parts[0]);
      var info := TrimRightChar(parts[1], ')');
      if Contains(turnPart, WholeName) then Some(Current(0, info))
      else
        match parseInt(Strip(RemoveAll(turnPart, TurnTag)))
        case Some(id) => Some(Current(id, info))
        case None => None
  }

  /** How the reader classifies a line after stripping it: headers, data
      rows with at least two fields whose first two parse as numbers, and
      everything else (other comments, blank lines, short or non-numeric
      rows). */
  function Classify(raw: string, parseInt: string -> Option<int>, parseFloat: string -> Option<real>): (r: RmsLine)
    ensures r.Header? <==> IsHeader(Strip(raw))
    ensures r.Data? ==> var line := Strip(raw); var parts := SplitOn(line, ',');
      && !StartsWith(line, "#") && |line| > 0 && |parts| >= 2
      && parseFloat(parts[0]) == Some(r.offset) && parseFloat(parts[1]) == Some(r.rms)
  {
    var line := Strip(raw);
    if IsHeader(line) then Header(HeaderTarget(line, parseInt))
    else if StartsWith(line, "#") || |line| == 0 then Ignored
    else
      var parts := SplitOn(line, ',');
      if |parts| < 2 then Ignored
      else
        match (parseFloat(parts[0]), parseFloat(parts[1]))
        case (Some(o), Some(v)) => Data(o, v)
        case _ => Ignored
  }

  /** `groups[id].append(p)` on a dict of lists. */
  function AppendTo(groups: map<int, seq<RmsPoint>>, id: int, p: RmsPoint): (r: map<int, seq<RmsPoint>>)
    ensures r.Keys == groups.Keys + {id}
    ensures r[id] == (if id in groups then groups[id] else []) + [p]
    ensures forall k :: k in groups && k != id ==> r[k] == groups[k]
  {
    groups[id := (if id in groups then groups[id] else []) + [p]]
  }

  /** One line's effect: a usable header switches the current segment, a
      data row is appended to the current segment when there is one. */
  function Apply(st: ReadState, l: RmsLine): (r: ReadState)
    ensures !l.Header? ==> r.current == st.current
    ensures l.Header? && l.target.None? ==> r == st
    ensures l.Header? ==> r.groups == st.groups
    ensures st.current.None? && !l.Header? ==> r == st
  {
    match l
    case Header(target) => if target.Some? then st.(current := target) else st
    case Data(o, v) =>
      if st.current.None? then st
      else
        var c := st.current.value;
        st.(groups := AppendTo(st.groups, c.id, RmsPoint(o, v, c.info)))
    case Ignored => st
  }

  /** The reading loop over the lines, each classified by `classify`. */
  function ReadLines(lines: seq<string>, classify: string -> RmsLine): ReadState
    decreases |lines|
  {
    if |lines| == 0 then Start
    else Apply(ReadLines(lines[..|lines| - 1], classify), classify(lines[|lines| - 1]))
  }

  /** `parse_rms_file`: {} for a missing file, otherwise the groups. */
  function ParseRmsFile(file: Option<seq<string>>, parseInt: string -> Option<int>, parseFloat: string -> Option<real>): (r: map<int, seq<RmsPoint>>)
    ensures file.None? ==> r == map[]
  {
    match file
    case None => map[]
    case Some(lines) => ReadLines(lines, raw => Classify(raw, parseInt, parseFloat)).groups
  }

  // ---------------------------------------------------------------------
  // Properties of the reading loop

  /** Until a usable header is read nothing is grouped: rows before it are
      dropped. */
  lemma {:induction false} NoHeaderNoRows(lines: seq<string>, classify: string -> RmsLine)
    requires forall k :: 0 <= k < |lines| ==> !(classify(lines[k]).Header? && classify(lines[k]).target.Some?)
    ensures ReadLines(lines, classify) == Start
    decreases |lines|
  {
    if |lines| > 0 {
      var init := lines[..|lines| - 1];
      assert forall k :: 0 <= k < |init| ==> init[k] == lines[k];
      NoHeaderNoRows(init, classify);
    }
  }

  /** Reading more lines only extends each group at its end: rows stay in
      file order and no group loses a row. */
  lemma {:induction false} GroupsGrow(a: seq<string>, b: seq<string>, classify: string -> RmsLine, id: int)
    requires id in ReadLines(a, classify).groups
    ensures id in ReadLines(a + b, classify).groups
    ensures var before := ReadLines(a, classify).groups[id];
      && |before| <= |ReadLines(a + b, classify).groups[id]|
      && before == ReadLines(a + b, classify).groups[id][..|before|]
    decreases |b|
  {
    if |b| == 0 {
      assert a + b == a;
    } else {
      var b' := b[..|b| - 1];
      GroupsGrow(a, b', classify, id);
      assert (a + b)[..|a + b| - 1] == a + b';
      assert (a + b)[|a + b| - 1] == b[|b| - 1];
      var before := ReadLines(a, classify).groups[id];
      var mid := ReadLines(a + b', classify).groups[id];
      var after := ReadLines(a + b, classify).groups[id];
      assert after[..|mid|] == mid;
      assert after[..|before|] == mid[..|before|];
    }
  }

  /** The points data rows make under segment c. */
  function Points(ls: seq<RmsLine>, c: Current): (ps: seq<RmsPoint>)
    requires forall k :: 0 <= k < |ls| ==> ls[k].Data?
    ensures |ps| == |ls|
    ensures forall k :: 0 <= k < |ls| ==> ps[k] == RmsPoint(ls[k].offset, ls[k].rms, c.info)
  {
    seq(|ls|, k requires 0 <= k < |ls| && ls[k].Data? => RmsPoint(ls[k].offset, ls[k].rms, c.info))
  }

  function ClassifyAll(lines: seq<string>, classify: string -> RmsLine): (ls: seq<RmsLine>)
    ensures |ls| == |lines|
    ensures forall k :: 0 <= k < |lines| ==> ls[k] == classify(lines[k])
  {
    seq(|lines|, k requires 0 <= k < |lines| => classify(lines[k]))
  }

  /** The groups with `ps` appended to group `id` (created if needed);
      nothing changes for no points. */
  function Extend(groups: map<int, seq<RmsPoint>>, id: int, ps: seq<RmsPoint>): (r: map<int, seq<RmsPoint>>)
    ensures |ps| > 0 ==> r.Keys == groups.Keys + {id} && r[id] == (if id in groups then groups[id] else []) + ps
    ensures forall k :: k in groups && k != id ==> k in r && r[k] == groups[k]
    ensures |ps| == 0 ==> r == groups
  {
    if |ps| == 0 then groups else groups[id := (if id in groups then groups[id] else []) + ps]
  }

  lemma ExtendStep(groups: map<int, seq<RmsPoint>>, id: int, ps: seq<RmsPoint>, p: RmsPoint)
    ensures Extend(groups, id, ps + [p]) == AppendTo(Extend(groups, id, ps), id, p)
  {
    if |ps| == 0 {
      assert ps + [p] == [p];
    } else {
      var prior := if id in groups then groups[id] else [];
      assert prior + (ps + [p]) == prior + ps + [p];
    }
  }

  lemma PointsSnoc(rows: seq<string>, classify: string -> RmsLine, c: Current)
    requires |rows| > 0
    requires forall k :: 0 <= k < |rows| ==> classify(rows[k]).Data?
    ensures var last := classify(rows[|rows| - 1]);
      && last.Data?
      && Points(ClassifyAll(rows, classify), c)
         == Points(ClassifyAll(rows[..|rows| - 1], classify), c) + [RmsPoint(last.offset, last.rms, c.info)]
  {
    var r' := rows[..|rows| - 1];
    assert forall k :: 0 <= k < |r'| ==> r'[k] == rows[k];
  }

  /** Data rows read under a current segment are appended to its group in
      file order; the current segment and every other group are left
      alone. */
  lemma {:induction false} RowsJoinCurrent(a: seq<string>, rows: seq<string>, classify: string -> RmsLine)
    requires ReadLines(a, classify).current.Some?
    requires forall k :: 0 <= k < |rows| ==> classify(rows[k]).Data?
    ensures var st := ReadLines(a, classify);
      ReadLines(a + rows, classify)
      == st.(groups := Extend(st.groups, st.current.value.id, Points(ClassifyAll(rows, classify), st.current.value)))
    decreases |rows|
  {
    var st := ReadLines(a, classify);
    var c := st.current.value;
    if |rows| == 0 {
      assert a + rows == a;
    } else {
      var r' := rows[..|rows| - 1];
      assert forall k :: 0 <= k < |r'| ==> r'[k] == rows[k];
      RowsJoinCurrent(a, r', classify);
      assert (a + rows)[..|a + rows| - 1] == a + r';
      assert (a + rows)[|a + rows| - 1] == rows[|rows| - 1];
      var ps' := Points(ClassifyAll(r', classify), c);
      var last := classify(rows[|rows| - 1]);
      var pt := RmsPoint(last.offset, last.rms, c.info);
      PointsSnoc(rows, classify, c);
      var mid := st.(groups := Extend(st.groups, c.id, ps'));
      assert ReadLines(a + r', classify) == mid;
      assert ReadLines(a + rows, classify) == Apply(mid, last);
      assert Apply(mid, last) == mid.(groups := AppendTo(mid.groups, c.id, pt));
      ExtendStep(st.groups, c.id, ps', pt);
    }
  }

  // ---------------------------------------------------------------------
  // The written layout

  /** The header the turn-mode scripts write for segment `id`. */
  function TurnHeader(id: int, info: string): string {
    TurnTag + " " + IntToString(id) + " (" + info + ")"
  }

  /** The header the whole-trajectory mode writes. */
  function WholeHeader(info: string): string {
    WholeTag + " (" + info + ")"
  }

  /** The info text of a written header: direction, start and end with one
      decimal, and the duration; `fmt1` renders one decimal. */
  function HeaderInfo(direction: string, startTime: real, endTime: real, duration: real, fmt1: real -> string): (info: string)
    ensures |info| > 0 && info[|info| - 1] == 's'
  {
    direction + ", " + fmt1(startTime) + "s-" + fmt1(endTime) + "s, 持续" + fmt1(duration) + "s"
  }

  /** Conditions on the info text under which the header reads back. */
  predicate CleanInfo(info: string) {
    |info| > 0 && '(' !in info && info[|info| - 1] != ')'
  }

  /** Removing a trailing ')' from text that ends otherwise. */
  lemma TrimCloseParen(info: string)
    requires |info| > 0 && info[|info| - 1] != ')'
    ensures TrimRightChar(info + ")", ')') == info
  {
    var s := info + ")";
    assert s[..|s| - 1] == info;
    assert TrimRight(info, (x: char) => x == ')') == info;
  }

  /** Text without the first character of `pat` does not contain `pat`. */
  lemma {:induction false} NotContains(s: string, pat: string)
    requires |pat| > 0 && pat[0] !in s
    ensures !Contains(s, pat)
    decreases |s|
  {
    if |s| > 0 {
      assert pat[0] !in s[1..];
      NotContains(s[1..], pat);
      assert s[0] != pat[0];
      assert |pat| <= |s| ==> s[..|pat|][0] == s[0];
    }
  }

  /** Removing a pattern whose first character does not occur changes
      nothing. */
  lemma {:induction false} RemoveAbsent(s: string, pat: string)
    requires |pat| > 0 && pat[0] !in s
    ensures RemoveAll(s, pat) == s
    decreases |s|
  {
    if |s| > 0 {
      assert s[0] != pat[0];
      assert |pat| <= |s| ==> s[..|pat|][0] == s[0];
      assert pat[0] !in s[1..];
      RemoveAbsent(s[1..], pat);
      assert [s[0]] + s[1..] == s;
    }
  }

  /** Stripping removes one leading space from text that has no other
      edge whitespace. */
  lemma StripLeadingSpace(t: string)
    requires |t| > 0 && !PyIsSpace(t[0]) && !PyIsSpace(t[|t| - 1])
    ensures Strip(" " + t) == t
  {
    var s := " " + t;
    assert s[1..] == t;
    assert TrimLeft(s, PyIsSpace) == TrimLeft(t, PyIsSpace);
    StripNoSpace(t);
  }

  /** The characters of a decimal integer: '-' and digits. */
  lemma IntTextChars(id: int)
    ensures forall k :: 0 <= k < |IntToString(id)| ==> IntToString(id)[k] == '-' || IsDigit(IntToString(id)[k])
    ensures IsDigit(IntToString(id)[|IntToString(id)| - 1])
  {
    var t := IntToString(id);
    if id < 0 {
      assert forall k :: 1 <= k < |t| ==> t[k] == t[1..][k - 1];
      IntToStringDigits(id);
      assert |t| > 1;
    }
  }

  /** A turn header splits at its one '(' into the name and the info. */
  lemma TurnHeaderSplit(id: int, info: string)
    requires CleanInfo(info)
    ensures SplitOn(TurnHeader(id, info), '(') == [TurnTag + " " + IntToString(id) + " ", info + ")"]
  {
    var t := IntToString(id);
    IntTextChars(id);
    var front := TurnTag + " " + t + " ";
    assert '(' !in front;
    assert TurnHeader(id, info) == front + ['('] + (info + ")");
    SplitHead(front, info + ")", '(');
    assert '(' !in info + ")";
    assert SplitOn(info + ")", '(') == [info + ")"];
  }

  /** The name part of a turn header loses its trailing space. */
  lemma TurnNameStrips(id: int)
    ensures Strip(TurnTag + " " + IntToString(id) + " ") == TurnTag + " " + IntToString(id)
  {
    var t := IntToString(id);
    IntTextChars(id);
    var named := TurnTag + " " + t;
    assert named[0] == '#';
    assert named[|named| - 1] == t[|t| - 1];
    StripTrailingSpace(named);
  }

  /** The name part of a turn header does not mention 整段轨迹. */
  lemma TurnNameNotWhole(id: int)
    ensures !Contains(TurnTag + " " + IntToString(id), WholeName)
  {
    var t := IntToString(id);
    IntTextChars(id);
    var named := TurnTag + " " + t;
    assert forall k :: 0 <= k < |named| ==> named[k] != '整' by {
      forall k | 0 <= k < |named|
        ensures named[k] != '整'
      {
        if k >= |TurnTag| + 1 {
          assert named[k] == t[k - |TurnTag| - 1];
        }
      }
    }
    NotContains(named, WholeName);
  }

  /** Removing the tag from the name part leaves the id text. */
  lemma TurnNameId(id: int)
    ensures Strip(RemoveAll(TurnTag + " " + IntToString(id), TurnTag)) == IntToString(id)
  {
    var t := IntToString(id);
    assert TurnTag + " " + t == TurnTag + (" " + t);
    SpacedIdHasNoHash(id);
    RemoveTagFront(" " + t);
    IdTextEndsNotSpace(id);
    StripLeadingSpace(t);
  }

  lemma IdTextEndsNotSpace(id: int)
    ensures !PyIsSpace(IntToString(id)[0]) && !PyIsSpace(IntToString(id)[|IntToString(id)| - 1])
  {
    IntTextChars(id);
  }

  lemma SpacedIdHasNoHash(id: int)
    ensures '#' !in " " + IntToString(id)
  {
    var t := IntToString(id);
    IntTextChars(id);
    forall k | 0 <= k < |" " + t|
      ensures (" " + t)[k] != '#'
    {
      if k > 0 {
        assert (" " + t)[k] == t[k - 1];
      }
    }
  }

  /** A turn header names its segment and its info text. */
  lemma TurnHeaderReads(id: int, info: string, parseInt: string -> Option<int>)
    requires CleanInfo(info)
    requires parseInt(IntToString(id)) == Some(id)
    ensures HeaderTarget(TurnHeader(id, info), parseInt) == Some(Current(id, info))
  {
    TurnHeaderSplit(id, info);
    TurnNameStrips(id);
    TurnNameNotWhole(id);
    TurnNameId(id);
    TrimCloseParen(info);
  }

  /** Removing the tag from text that starts with it and has no '#'
      after it leaves the rest. */
  lemma RemoveTagFront(rest: string)
    requires '#' !in rest
    ensures RemoveAll(TurnTag + rest, TurnTag) == rest
  {
    var s := TurnTag + rest;
    assert StartsWith(s, TurnTag);
    assert s[|TurnTag|..] == rest;
    RemoveAbsent(rest, TurnTag);
  }

  /** Stripping removes one trailing space from text that has no other
      edge whitespace. */
  lemma StripTrailingSpace(t: string)
    requires |t| > 0 && !PyIsSpace(t[0]) && !PyIsSpace(t[|t| - 1])
    ensures Strip(t + " ") == t
  {
    var s := t + " ";
    assert TrimLeft(s, PyIsSpace) == s;
    assert s[..|s| - 1] == t;
    assert TrimRight(s, PyIsSpace) == TrimRight(t, PyIsSpace);
    StripNoSpace(t);
  }

  /** The whole-trajectory header names segment 0 and its info text. */
  lemma WholeHeaderReads(info: string, parseInt: string -> Option<int>)
    requires CleanInfo(info)
    ensures HeaderTarget(WholeHeader(info), parseInt) == Some(Current(0, info))
  {
    var front := WholeTag + " ";
    var line := WholeHeader(info);
    assert '(' !in front;
    assert line == front + ['('] + (info + ")");
    SplitHead(front, info + ")", '(');
    assert SplitOn(info + ")", '(') == [info + ")"];
    StripTrailingSpace(WholeTag);
    assert WholeTag == "# " + WholeName;
    assert Contains(WholeTag[1..], WholeName) by {
      assert WholeTag[1..] == " " + WholeName;
      assert WholeTag[1..][1..] == WholeName;
      assert StartsWith(WholeTag[1..][1..], WholeName);
    }
    TrimCloseParen(info);
  }

  /** A header line as written is classified as a header naming its
      segment. */
  lemma HeadersClassify(id: int, info: string, parseInt: string -> Option<int>, parseFloat: string -> Option<real>)
    requires CleanInfo(info)
    requires parseInt(IntToString(id)) == Some(id)
    ensures Classify(TurnHeader(id, info), parseInt, parseFloat) == Header(Some(Current(id, info)))
    ensures Classify(WholeHeader(info), parseInt, parseFloat) == Header(Some(Current(0, info)))
  {
    var th := TurnHeader(id, info);
    var wh := WholeHeader(info);
    StripNoSpace(th);
    StripNoSpace(wh);
    assert th == TurnTag + (" " + IntToString(id) + " (" + info + ")");
    assert StartsWith(th, TurnTag);
    assert wh == WholeTag + (" (" + info + ")");
    assert StartsWith(wh, WholeTag);
    TurnHeaderReads(id, info, parseInt);
    WholeHeaderReads(info, parseInt);
  }

  /** A written row: the offset with 2 decimals, the RMS with 4, then the
      remaining fields (data points, start, end, duration, direction). */
  function RowLine(offsetText: string, rmsText: string, rest: seq<string>): string {
    Join([offsetText, rmsText] + rest, ',')
  }

  /** A row whose offset and RMS texts parse, which starts with neither
      '#' nor whitespace and does not end in whitespace, is a data row
      carrying the parsed values. */
  lemma RowClassifies(offsetText: string, rmsText: string, rest: seq<string>,
                      parseInt: string -> Option<int>, parseFloat: string -> Option<real>)
    requires forall k :: 0 <= k < |rest| ==> ',' !in rest[k]
    requires ',' !in offsetText && ',' !in rmsText
    requires |offsetText| > 0 && offsetText[0] != '#' && !PyIsSpace(offsetText[0])
    requires var fs := [offsetText, rmsText] + rest;
      |fs[|fs| - 1]| > 0 && !PyIsSpace(fs[|fs| - 1][|fs[|fs| - 1]| - 1])
    requires parseFloat(offsetText).Some? && parseFloat(rmsText).Some?
    ensures Classify(RowLine(offsetText, rmsText, rest), parseInt, parseFloat)
            == Data(parseFloat(offsetText).value, parseFloat(rmsText).value)
  {
    var fs := [offsetText, rmsText] + rest;
    var line := Join(fs, ',');
    forall k | 0 <= k < |fs|
      ensures ',' !in fs[k]
    {
      if k >= 2 {
        assert fs[k] == rest[k - 2];
      }
    }
    JoinedFields(fs, ',');
    NotHashStart(line);
  }

  /** A line whose first character is not '#' is neither a header nor a
      comment. */
  lemma NotHashStart(line: string)
    requires |line| > 0 && line[0] != '#'
    ensures !IsHeader(line) && !StartsWith(line, "#")
  {
    assert TurnTag[0] == '#' && WholeTag[0] == '#';
    assert |TurnTag| <= |line| ==> line[..|TurnTag|][0] == line[0];
    assert |WholeTag| <= |line| ==> line[..|WholeTag|][0] == line[0];
    assert line[..1][0] == line[0];
  }

  /** A written section read after any prefix: the header makes its
      segment current, and its rows are appended to that segment's group
      in order, all other groups untouched. */
  lemma SectionRoundTrip(a: seq<string>, header: string, rows: seq<string>, c: Current,
                         parseInt: string -> Option<int>, parseFloat: string -> Option<real>)
    requires Classify(header, parseInt, parseFloat) == Header(Some(c))
    requires forall k :: 0 <= k < |rows| ==> Classify(rows[k], parseInt, parseFloat).Data?
    ensures var classify := raw => Classify(raw, parseInt, parseFloat);
      var st := ReadLines(a, classify);
      ReadLines(a + [header] + rows, classify)
      == ReadState(Some(c), Extend(st.groups, c.id, Points(ClassifyAll(rows, classify), c)))
  {
    var classify := raw => Classify(raw, parseInt, parseFloat);
    var a' := a + [header];
    assert a'[..|a'| - 1] == a && a'[|a'| - 1] == header;
    assert ReadLines(a', classify) == ReadLines(a, classify).(current := Some(c));
    RowsJoinCurrent(a', rows, classify);
  }
}

=== FILE: rms_windows.dfy ===
/** The per-offset RMS analysis of the position corrections
    (`auto_pos_rms.py`) and of the lateral residuals
    (`auto_lateral_residuals_rms.py`). Both scripts load a numeric file,
    select the samples inside each turn's time window, and report one record
    per turn (or one record with id 0 for the whole trajectory). Only the
    squared error of a sample matters to the RMS, so the two files are read
    into the same sample type; the model reports the mean square, the value
    whose square root the scripts print. */
module RmsWindows {
  import opened Optional
  import opened RateSeries
  import opened SegmentFile

  /** A timestamp and its squared error: dx² + dy² for a correction row
      (the planar error squared), the residual squared for a lateral row. */
  datatype ErrorSample = ErrorSample(t: real, sq: real)

  /** What `np.loadtxt` plus the column slices accept: at least two rows (a
      single row loads as a flat array, which has no columns to slice), all
      of one width (ragged rows are a load error), with at least `width`
      columns. */
  predicate Loadable(rows: seq<seq<real>>, width: nat) {
    && |rows| >= 2
    && (forall k :: 0 <= k < |rows| ==> |rows[k]| == |rows[0]|)
    && |rows[0]| >= width
  }

  /** `load_corrections`: columns time, dx, dy, dz; None when the file
      cannot be loaded (`table` is None when the text is not numeric). */
  function LoadCorrections(table: Option<seq<seq<real>>>): (r: Option<seq<ErrorSample>>)
    ensures r.Some? <==> table.Some? && Loadable(table.value, 4)
    ensures r.Some? ==> |r.value| == |table.value|
    ensures r.Some? ==> forall k :: 0 <= k < |r.value| ==>
              && r.value[k].t == table.value[k][0]
              && r.value[k].sq == table.value[k][1] * table.value[k][1] + table.value[k][2] * table.value[k][2]
  {
    if table.None? || !Loadable(table.value, 4) then None
    else
      var rows := table.value;
      Some(seq(|rows|, k requires 0 <= k < |rows| && |rows[k]| >= 4 =>
        ErrorSample(rows[k][0], rows[k][1] * rows[k][1] + rows[k][2] * rows[k][2])))
  }

  /** `load_lateral_residuals`: columns time and lateral residual. */
  function LoadLateral(table: Option<seq<seq<real>>>): (r: Option<seq<ErrorSample>>)
    ensures r.Some? <==> table.Some? && Loadable(table.value, 2)
    ensures r.Some? ==> |r.value| == |table.value|
    ensures r.Some? ==> forall k :: 0 <= k < |r.value| ==>
              r.value[k].t == table.value[k][0] && r.value[k].sq == table.value[k][1] * table.value[k][1]
  {
    if table.None? || !Loadable(table.value, 2) then None
    else
      var rows := table.value;
      Some(seq(|rows|, k requires 0 <= k < |rows| && |rows[k]| >= 2 =>
        ErrorSample(rows[k][0], rows[k][1] * rows[k][1])))
  }

  function Squares(samples: seq<ErrorSample>): (xs: seq<real>)
    ensures |xs| == |samples|
    ensures forall k :: 0 <= k < |samples| ==> xs[k] == samples[k].sq
  {
    seq(|samples|, k requires 0 <= k < |samples| => samples[k].sq)
  }

  /** The square of `calculate_planar_rms` / `calculate_lateral_rms`: 0.0
      for no samples, otherwise the mean squared error. */
  function MeanSquare(samples: seq<ErrorSample>): (r: real)
    ensures |samples| == 0 ==> r == 0.0
  {
    if |samples| == 0 then 0.0 else Mean(Squares(samples))
  }

  /** The mean square lies between the least and the greatest squared
      error; in particular it is never negative. */
  lemma MeanSquareBounds(samples: seq<ErrorSample>, lo: real, hi: real)
    requires |samples| > 0
    requires forall k :: 0 <= k < |samples| ==> lo <= samples[k].sq <= hi
    ensures lo <= MeanSquare(samples) <= hi
  {
    MeanBounds(Squares(samples), lo, hi);
  }

  /** Loaded samples carry squares, so every mean square is non-negative. */
  lemma LoadedMeanSquareNonNegative(table: Option<seq<seq<real>>>, lateral: bool, w: seq<ErrorSample>)
    requires var r := if lateral then LoadLateral(table) else LoadCorrections(table);
      r.Some? && forall k :: 0 <= k < |w| ==> w[k] in r.value
    ensures MeanSquare(w) >= 0.0
  {
    var r := if lateral then LoadLateral(table) else LoadCorrections(table);
    if |w| > 0 {
      forall k | 0 <= k < |w|
        ensures 0.0 <= w[k].sq
      {
        var j :| 0 <= j < |r.value| && r.value[j] == w[k];
      }
      MeanBoundsBelowZero(Squares(w));
    }
  }

  lemma {:induction false} SumAtLeastZero(xs: seq<real>)
    requires forall k :: 0 <= k < |xs| ==> 0.0 <= xs[k]
    ensures 0.0 <= Sum(xs)
    decreases |xs|
  {
    if |xs| > 0 {
      SumAtLeastZero(xs[..|xs| - 1]);
    }
  }

  lemma MeanBoundsBelowZero(xs: seq<real>)
    requires |xs| > 0
    requires forall k :: 0 <= k < |xs| ==> 0.0 <= xs[k]
    ensures 0.0 <= Mean(xs)
  {
    SumAtLeastZero(xs);
  }

  // ---------------------------------------------------------------------
  // Time windows

  /** A timestamp within optional bounds, both ends inclusive; a missing
      bound does not restrict. */
  predicate Within(t: real, lo: Option<real>, hi: Option<real>) {
    (lo.None? || lo.value <= t) && (hi.None? || t <= hi.value)
  }

  /** The samples whose timestamps are within the bounds, in file order:
      the boolean mask of the RMS scripts and the two filters of
      `analyze_single_file`. */
  function Window(samples: seq<ErrorSample>, lo: Option<real>, hi: Option<real>): (r: seq<ErrorSample>)
    ensures |r| <= |samples|
    ensures forall k :: 0 <= k < |r| ==> Within(r[k].t, lo, hi)
    decreases |samples|
  {
    if |samples| == 0 then []
    else
      var last := samples[|samples| - 1];
      var w := Window(samples[..|samples| - 1], lo, hi);
      if Within(last.t, lo, hi) then w + [last] else w
  }

  /** A sample is selected exactly when it is in the input and within the
      bounds. */
  lemma {:induction false} WindowSelects(samples: seq<ErrorSample>, lo: Option<real>, hi: Option<real>, x: ErrorSample)
    ensures x in Window(samples, lo, hi) <==> x in samples && Within(x.t, lo, hi)
    decreases |samples|
  {
    if |samples| > 0 {
      var init := samples[..|samples| - 1];
      WindowSelects(init, lo, hi, x);
      assert samples == init + [samples[|samples| - 1]];
    }
  }

  /** The window is empty exactly when no sample is within the bounds. */
  lemma {:induction false} WindowEmpty(samples: seq<ErrorSample>, lo: Option<real>, hi: Option<real>)
    ensures |Window(samples, lo, hi)| == 0 <==> forall k :: 0 <= k < |samples| ==> !Within(samples[k].t, lo, hi)
    decreases |samples|
  {
    if |samples| > 0 {
      var init := samples[..|samples| - 1];
      WindowEmpty(init, lo, hi);
      assert forall k :: 0 <= k < |init| ==> init[k] == samples[k];
    }
  }

  /** When every sample is within the bounds the window is everything. */
  lemma {:induction false} WindowAll(samples: seq<ErrorSample>, lo: Option<real>, hi: Option<real>)
    requires forall k :: 0 <= k < |samples| ==> Within(samples[k].t, lo, hi)
    ensures Window(samples, lo, hi) == samples
    decreases |samples|
  {
    if |samples| > 0 {
      var init := samples[..|samples| - 1];
      WindowAll(init, lo, hi);
      assert init + [samples[|samples| - 1]] == samples;
    }
  }

  // ---------------------------------------------------------------------
  // Per-turn and whole-trajectory records

  /** One result: the turn's fields as read, the number of samples in its
      window, the mean square and the GPS offset analysed. */
  datatype RmsRecord = RmsRecord(id: int, startTime: real, endTime: real, duration: real, direction: string,
                                 dataPoints: nat, meanSquare: real, offset: real)

  function TurnWindow(samples: seq<ErrorSample>, turn: TurnRow): seq<ErrorSample> {
    Window(samples, Some(turn.startTime), Some(turn.endTime))
  }

  function TurnRecord(samples: seq<ErrorSample>, turn: TurnRow, offset: real): RmsRecord {
    var w := TurnWindow(samples, turn);
    RmsRecord(turn.id, turn.startTime, turn.endTime, turn.duration, turn.direction, |w|, MeanSquare(w), offset)
  }

  /** The loop of `analyze_single_offset_turns` over the turns in file
      order: a turn with an empty window is skipped, and a later turn with
      the same id replaces the earlier record. */
  function TurnRecords(samples: seq<ErrorSample>, turns: seq<TurnRow>, offset: real): (r: map<int, RmsRecord>)
    ensures forall id :: id in r ==> r[id].id == id && r[id].dataPoints > 0 && r[id].offset == offset
    decreases |turns|
  {
    if |turns| == 0 then map[]
    else
      var m := TurnRecords(samples, turns[..|turns| - 1], offset);
      var turn := turns[|turns| - 1];
      if |TurnWindow(samples, turn)| == 0 then m else m[turn.id := TurnRecord(samples, turn, offset)]
  }

  /** `analyze_single_offset_turns`: no records when the samples could not
      be loaded or no turn was read. */
  function AnalyzeTurns(samples: Option<seq<ErrorSample>>, turns: seq<TurnRow>, offset: real): (r: map<int, RmsRecord>)
    ensures samples.None? || |turns| == 0 ==> r == map[]
  {
    if samples.None? || |turns| == 0 then map[] else TurnRecords(samples.value, turns, offset)
  }

  /** Turn k is the last turn with its id whose window holds samples. */
  predicate LastWithId(samples: seq<ErrorSample>, turns: seq<TurnRow>, k: int) {
    && 0 <= k < |turns|
    && |TurnWindow(samples, turns[k])| > 0
    && forall j :: k < j < |turns| && turns[j].id == turns[k].id ==> |TurnWindow(samples, turns[j])| == 0
  }

  /** An id has a record exactly when some turn with that id has samples in
      its window. */
  lemma {:induction false} TurnRecordsKeys(samples: seq<ErrorSample>, turns: seq<TurnRow>, offset: real, id: int)
    ensures id in TurnRecords(samples, turns, offset) <==>
              exists k :: 0 <= k < |turns| && turns[k].id == id && |TurnWindow(samples, turns[k])| > 0
    decreases |turns|
  {
    if |turns| > 0 {
      var init := turns[..|turns| - 1];
      TurnRecordsKeys(samples, init, offset, id);
      assert forall k :: 0 <= k < |init| ==> init[k] == turns[k];
    }
  }

  /** The record of an id is that of the last turn with that id whose
      window holds samples: later duplicates replace earlier ones. */
  lemma {:induction false} TurnRecordsLastWins(samples: seq<ErrorSample>, turns: seq<TurnRow>, offset: real, id: int)
    requires id in TurnRecords(samples, turns, offset)
    ensures exists k :: LastWithId(samples, turns, k) && turns[k].id == id
                        && TurnRecords(samples, turns, offset)[id] == TurnRecord(samples, turns[k], offset)
    decreases |turns|
  {
    var n := |turns| - 1;
    var init := turns[..n];
    var turn := turns[n];
    if turn.id == id && |TurnWindow(samples, turn)| > 0 {
      assert LastWithId(samples, turns, n);
    } else {
      var m := TurnRecords(samples, init, offset);
      assert TurnRecords(samples, turns, offset)
          == if |TurnWindow(samples, turn)| == 0 then m else m[turn.id := TurnRecord(samples, turn, offset)];
      assert id in m && TurnRecords(samples, turns, offset)[id] == m[id];
      TurnRecordsLastWins(samples, init, offset, id);
      var k :| LastWithId(samples, init, k) && init[k].id == id && m[id] == TurnRecord(samples, init[k], offset);
      assert init[k] == turns[k];
      forall j | k < j < |turns| && turns[j].id == id
        ensures |TurnWindow(samples, turns[j])| == 0
      {
        if j < n {
          assert init[j] == turns[j];
        }
      }
    }
  }

  /** `analyze_single_offset_full_trajectory`: one record with id 0 over
      all samples, from the first timestamp to the last; none when the
      samples could not be loaded or are empty. */
  function AnalyzeFull(samples: Option<seq<ErrorSample>>, offset: real): (r: map<int, RmsRecord>)
    ensures samples.None? || |samples.value| == 0 ==> r == map[]
    ensures samples.Some? && |samples.value| > 0 ==>
              r.Keys == {0} && r[0].id == 0 && r[0].dataPoints == |samples.value|
  {
    if samples.None? || |samples.value| == 0 then map[]
    else
      var s := samples.value;
      var first, last := s[0].t, s[|s| - 1].t;
      map[0 := RmsRecord(0, first, last, last - first, "整段轨迹", |s|, MeanSquare(s), offset)]
  }

  predicate Chronological(s: seq<ErrorSample>) {
    forall i, j :: 0 <= i < j < |s| ==> s[i].t <= s[j].t
  }

  /** For samples in time order, the whole-trajectory record is the record
      of a single turn 0 spanning the first to the last timestamp. */
  lemma FullIsWidestTurn(s: seq<ErrorSample>, offset: real)
    requires |s| > 0 && Chronological(s)
    ensures var turn := TurnRow(0, s[0].t, s[|s| - 1].t, s[|s| - 1].t - s[0].t, "整段轨迹");
      AnalyzeFull(Some(s), offset) == AnalyzeTurns(Some(s), [turn], offset)
  {
    var turn := TurnRow(0, s[0].t, s[|s| - 1].t, s[|s| - 1].t - s[0].t, "整段轨迹");
    forall k | 0 <= k < |s|
      ensures Within(s[k].t, Some(turn.startTime), Some(turn.endTime))
    {
    }
    WindowAll(s, Some(turn.startTime), Some(turn.endTime));
    assert [turn][..0] == [];
    assert TurnRecords(s, [turn][..0], offset) == map[];
    assert TurnRecords(s, [turn], offset) == map[0 := TurnRecord(s, turn, offset)];
  }

  /** The dead guard: a loaded file always has at least two samples, so
      the whole-trajectory analysis of a loaded file always yields its
      record. */
  lemma LoadedFullHasRecord(table: Option<seq<seq<real>>>, lateral: bool, offset: real)
    requires table.Some?
    requires Loadable(table.value, if lateral then 2 else 4)
    ensures 0 in AnalyzeFull(if lateral then LoadLateral(table) else LoadCorrections(table), offset)
  {
  }
}

=== FILE: segment_file.dfy ===
/** The turn-segment result file: the lines the detectors write (Python
    `save_results`, C++ `SaveResults`) and the reader of that file in the
    RMS scripts (`load_turn_segments`). A file is a sequence of lines without
    their line breaks; a file that is missing or cannot be opened is None.
    Fixed-decimal rendering and number parsing are parameters: `fmt(x, d)`
    is `x` printed with `d` decimals, `parseInt`/`parseFloat` are Python's
    `int()`/`float()` with None for the ValueError. */
module SegmentFile {
  import opened Optional
  import opened Text
  import opened Segmenter

  /** How a direction is written: 左转 (left) or 右转 (right). */
  function DirectionText(d: Direction): (s: string)
    ensures s == "左转" || s == "右转"
    ensures ',' !in s && |s| == 2
  {
    if d == Left then "左转" else "右转"
  }

  /** The column header, the last comment line of both writers. */
  const ColumnHeader: string := " 转弯ID,起始时间戳,结束时间戳,持续时间(s),累积角度(度),平均转弯率(度/s),转弯方向"

  /** Comment lines: each text behind a '#'. */
  function Comments(texts: seq<string>): (lines: seq<string>)
    ensures |lines| == |texts|
    ensures forall k :: 0 <= k < |texts| ==> lines[k] == "#" + texts[k]
  {
    seq(|texts|, k requires 0 <= k < |texts| => "#" + texts[k])
  }

  /** The Python header; `repr` renders a float as `str()` does. */
  function PyHeader(logFilename: string, cfg: Config, count: nat, repr: real -> string): seq<string> {
    Comments(PyHeaderTexts(logFilename, cfg, count, repr))
  }

  function PyHeaderTexts(logFilename: string, cfg: Config, count: nat, repr: real -> string): seq<string> {
    [
      " 转弯段检测结果 - 基于NZZ航向数据",
      " 源文件: " + logFilename,
      " 检测参数:",
      "   开始转弯阈值: " + repr(cfg.startThreshold) + "°/s",
      "   结束转弯阈值: " + repr(cfg.endThreshold) + "°/s，持续" + repr(cfg.endDuration) + "s",
      "   累积角度阈值: " + repr(cfg.angleThreshold) + "°",
      "   数据源: NZZ航向数据（无速度限制）",
      " 检测到 " + IntToString(count) + " 个转弯段",
      "",
      ColumnHeader]
  }

  /** The C++ header; `repr` renders a double as a default `ostream` does. */
  function CppHeader(cfg: Config, count: nat, repr: real -> string): seq<string> {
    Comments([
      " 转弯段检测结果 - 基于ESKF航向数据",
      " 检测参数:",
      "   开始转弯阈值: " + repr(cfg.startThreshold) + "°/s",
      "   结束转弯阈值: " + repr(cfg.endThreshold) + "°/s，持续" + repr(cfg.endDuration) + "s",
      "   累积角度阈值: " + repr(cfg.angleThreshold) + "°",
      "   数据源: ESKF航向数据",
      " 检测到 " + IntToString(count) + " 个转弯段",
      "",
      ColumnHeader])
  }

  /** The seven comma-separated fields of turn number `id`: id, start and
      end with 3 decimals, duration and angle with 1, average rate with 2,
      and the direction. */
  function RowFields(id: int, s: TurnSegment, fmt: (real, nat) -> string): (fs: seq<string>)
    ensures |fs| == 7
  {
    [IntToString(id), fmt(s.startTime, 3), fmt(s.endTime, 3), fmt(s.Duration(), 1),
     fmt(s.totalAngle, 1), fmt(s.avgTurnRate, 2), DirectionText(s.direction)]
  }

  function RowLine(id: int, s: TurnSegment, fmt: (real, nat) -> string): string {
    Join(RowFields(id, s, fmt), ',')
  }

  /** The data rows, numbered from 1. */
  function Rows(segs: seq<TurnSegment>, fmt: (real, nat) -> string): (lines: seq<string>)
    ensures |lines| == |segs|
    ensures forall k :: 0 <= k < |segs| ==> lines[k] == RowLine(k + 1, segs[k], fmt)
  {
    seq(|segs|, k requires 0 <= k < |segs| => RowLine(k + 1, segs[k], fmt))
  }

  /** The whole file: header comment lines, then one row per turn. */
  function SaveLines(header: seq<string>, segs: seq<TurnSegment>, fmt: (real, nat) -> string): seq<string> {
    header + Rows(segs, fmt)
  }

  // ---------------------------------------------------------------------
  // Reading

  /** One turn as the RMS scripts read it back. */
  datatype TurnRow = TurnRow(id: int, startTime: real, endTime: real, duration: real, direction: string)

  /** What one line contributes: nothing, a turn, or a parse error that
      aborts the whole read. */
  datatype LineResult = Skip | Row(row: TurnRow) | Fail

  /** Stripped text that is a comment or empty. */
  predicate IsCommentText(s: string) {
    StartsWith(s, "#") || |s| == 0
  }

  /** A line is a comment or blank once stripped. */
  predicate IsCommentOrBlank(line: string) {
    IsCommentText(Strip(line))
  }

  /** One line of `load_turn_segments`: comments, blank lines and lines with
      fewer than 3 comma fields are skipped; the fourth field, when present,
      is the duration (else end - start), the seventh, when present, the
      direction (else 未知, "unknown"). */
  function ParseRow(line: string, parseInt: string -> Option<int>, parseFloat: string -> Option<real>): (r: LineResult)
    ensures IsCommentOrBlank(line) ==> r == Skip
    ensures !IsCommentOrBlank(line) && |SplitOn(Strip(line), ',')| < 3 ==> r == Skip
    ensures r.Row? ==> var parts := SplitOn(Strip(line), ',');
      && |parts| >= 3
      && Some(r.row.id) == parseInt(parts[0])
      && Some(r.row.startTime) == parseFloat(parts[1])
      && Some(r.row.endTime) == parseFloat(parts[2])
      && (|parts| == 3 ==> r.row.duration == r.row.endTime - r.row.startTime)
      && (|parts| > 3 ==> Some(r.row.duration) == parseFloat(parts[3]))
      && (|parts| <= 6 ==> r.row.direction == "未知")
      && (|parts| > 6 ==> r.row.direction == parts[6])
  {
    var s := Strip(line);
    if IsCommentText(s) then Skip
    else
      var parts := SplitOn(s, ',');
      if |parts| < 3 then Skip
      else
        match (parseInt(parts[0]), parseFloat(parts[1]), parseFloat(parts[2]))
        case (Some(id), Some(st), Some(et)) =>
          var dur := if |parts| > 3 then parseFloat(parts[3]) else Some(et - st);
          var dir := if |parts| > 6 then parts[6] else "未知";
          if dur.None? then Fail else Row(TurnRow(id, st, et, dur.value, dir))
        case _ => Fail
  }

  /** The rows of a sequence of lines, each read by `parse`, or None as
      soon as a line fails. */
  function ReadRows(lines: seq<string>, parse: string -> LineResult): (r: Option<seq<TurnRow>>)
    ensures r.Some? ==> |r.value| <= |lines|
    decreases |lines|
  {
    if |lines| == 0 then Some([])
    else
      match ReadRows(lines[..|lines| - 1], parse)
      case None => None
      case Some(rows) =>
        match parse(lines[|lines| - 1])
        case Skip => Some(rows)
        case Row(t) => Some(rows + [t])
        case Fail => None
  }

  /** `load_turn_segments`: [] for a missing file and for any parse error. */
  function LoadTurnSegments(file: Option<seq<string>>, parseInt: string -> Option<int>, parseFloat: string -> Option<real>): (rows: seq<TurnRow>)
    ensures file.None? ==> rows == []
    ensures file.Some? ==> |rows| <= |file.value|
  {
    match file
    case None => []
    case Some(lines) => ReadRows(lines, line => ParseRow(line, parseInt, parseFloat)).GetOr([])
  }

  /** A line the reader skips can be removed without changing the result. */
  lemma {:induction false} ReadRowsSkipsComments(a: seq<string>, b: seq<string>, c: string, parse: string -> LineResult)
    requires parse(c) == Skip
    ensures ReadRows(a + [c] + b, parse) == ReadRows(a + b, parse)
    decreases |b|
  {
    if |b| == 0 {
      assert (a + [c] + b)[..|a + [c] + b| - 1] == a;
      assert a + b == a;
    } else {
      var b' := b[..|b| - 1];
      ReadRowsSkipsComments(a, b', c, parse);
      assert (a + [c] + b)[..|a + [c] + b| - 1] == a + [c] + b';
      assert (a + b)[..|a + b| - 1] == a + b';
      assert (a + [c] + b)[|a + [c] + b| - 1] == b[|b| - 1];
      assert (a + b)[|a + b| - 1] == b[|b| - 1];
    }
  }

  /** Comment and blank lines anywhere in the turn file add nothing to what
      is read. */
  lemma LoadSkipsComments(a: seq<string>, b: seq<string>, c: string,
                          parseInt: string -> Option<int>, parseFloat: string -> Option<real>)
    requires IsCommentOrBlank(c)
    ensures LoadTurnSegments(Some(a + [c] + b), parseInt, parseFloat) == LoadTurnSegments(Some(a + b), parseInt, parseFloat)
  {
    ReadRowsSkipsComments(a, b, c, line => ParseRow(line, parseInt, parseFloat));
  }

  predicate AllRows(b: seq<string>, parse: string -> LineResult) {
    forall k :: 0 <= k < |b| ==> parse(b[k]).Row?
  }

  /** The turn of each line, for lines that all parse as turns. */
  function ParsedRows(b: seq<string>, parse: string -> LineResult): (rows: seq<TurnRow>)
    requires AllRows(b, parse)
    ensures |rows| == |b|
    ensures forall k :: 0 <= k < |b| ==> rows[k] == parse(b[k]).row
    decreases |b|
  {
    if |b| == 0 then []
    else ParsedRows(b[..|b| - 1], parse) + [parse(b[|b| - 1]).row]
  }

  /** Reading lines that all parse adds one row per line, in order. */
  lemma {:induction false} ReadRowsAppend(a: seq<string>, b: seq<string>, parse: string -> LineResult)
    requires ReadRows(a, parse).Some?
    requires AllRows(b, parse)
    ensures ReadRows(a + b, parse) == Some(ReadRows(a, parse).value + ParsedRows(b, parse))
    decreases |b|
  {
    if |b| == 0 {
      assert a + b == a;
      assert ParsedRows(b, parse) == [];
      assert ReadRows(a, parse).value + [] == ReadRows(a, parse).value;
    } else {
      var b' := b[..|b| - 1];
      assert AllRows(b', parse) by {
        forall k | 0 <= k < |b'|
          ensures parse(b'[k]).Row?
        {
          assert b'[k] == b[k];
        }
      }
      ReadRowsAppend(a, b', parse);
      assert (a + b)[..|a + b| - 1] == a + b';
      assert (a + b)[|a + b| - 1] == b[|b| - 1];
      assert parse(b[|b| - 1]).Row?;
      assert ParsedRows(b, parse) == ParsedRows(b', parse) + [parse(b[|b| - 1]).row];
      assert ReadRows(a + b, parse) == Some(ReadRows(a + b', parse).value + [parse(b[|b| - 1]).row]);
      assert ReadRows(a, parse).value + ParsedRows(b', parse) + [parse(b[|b| - 1]).row]
          == ReadRows(a, parse).value + ParsedRows(b, parse);
    }
  }

  /** Lines the reader skips read as no rows. */
  lemma {:induction false} ReadRowsOfSkipped(header: seq<string>, parse: string -> LineResult)
    requires forall k :: 0 <= k < |header| ==> parse(header[k]) == Skip
    ensures ReadRows(header, parse) == Some([])
    decreases |header|
  {
    if |header| > 0 {
      var h' := header[..|header| - 1];
      ReadRowsOfSkipped(h', parse);
    }
  }

  /** A line whose first character is '#' is a comment. */
  lemma HashLineIsComment(s: string)
    requires |s| > 0 && s[0] == '#'
    ensures IsCommentOrBlank(s)
  {
    assert TrimLeft(s, PyIsSpace) == s;
    var t := TrimRight(s, PyIsSpace);
    TrimRightPrefix(s, PyIsSpace);
    assert |t| > 0 ==> t[0] == '#';
  }

  /** Comment lines are skipped by the reader. */
  lemma CommentsAreSkipped(texts: seq<string>)
    ensures forall k :: 0 <= k < |texts| ==> IsCommentOrBlank(Comments(texts)[k])
  {
    forall k | 0 <= k < |texts|
      ensures IsCommentOrBlank(Comments(texts)[k])
    {
      HashLineIsComment(Comments(texts)[k]);
    }
  }

  /** Seven comma-free fields, the first starting with a digit and the last
      ending in a non-space: the joined line survives stripping, is no
      comment, and splits back into the same fields. */
  lemma {:induction false} SevenFieldLine(fs: seq<string>)
    requires |fs| == 7
    requires forall k :: 0 <= k < 7 ==> ',' !in fs[k]
    requires |fs[0]| > 0 && IsDigit(fs[0][0])
    requires |fs[6]| > 0 && !PyIsSpace(fs[6][|fs[6]| - 1])
    ensures var line := Join(fs, ',');
      && Strip(line) == line
      && !IsCommentOrBlank(line)
      && SplitOn(line, ',') == fs
  {
    assert !PyIsSpace(fs[0][0]);
    JoinedFields(fs, ',');
    DigitLineIsNoComment(Join(fs, ','));
  }

  lemma DigitLineIsNoComment(line: string)
    requires |line| > 0 && IsDigit(line[0])
    ensures !IsCommentText(line)
  {
    assert line[..1][0] == line[0];
  }

  /** A row line is left alone by stripping, is not a comment, and splits
      back into its seven fields. */
  lemma RowLineShape(id: int, s: TurnSegment, fmt: (real, nat) -> string)
    requires id >= 1
    requires forall k :: 1 <= k < 6 ==> ',' !in RowFields(id, s, fmt)[k]
    ensures var line := RowLine(id, s, fmt);
      && Strip(line) == line
      && !IsCommentOrBlank(line)
      && SplitOn(line, ',') == RowFields(id, s, fmt)
  {
    var fs := RowFields(id, s, fmt);
    assert IsDigit(IntToString(id)[0]);
    assert ',' !in IntToString(id);
    var dir := DirectionText(s.direction);
    assert dir[|dir| - 1] == '转';
    SevenFieldLine(fs);
  }

  /** A line of seven fields whose first three (and fourth) parse. */
  lemma ParseSevenFields(line: string, fs: seq<string>, parseInt: string -> Option<int>, parseFloat: string -> Option<real>)
    requires !IsCommentOrBlank(line) && SplitOn(Strip(line), ',') == fs && |fs| == 7
    requires parseInt(fs[0]).Some? && parseFloat(fs[1]).Some? && parseFloat(fs[2]).Some? && parseFloat(fs[3]).Some?
    ensures ParseRow(line, parseInt, parseFloat)
            == Row(TurnRow(parseInt(fs[0]).value, parseFloat(fs[1]).value, parseFloat(fs[2]).value, parseFloat(fs[3]).value, fs[6]))
  {
  }

  /** A written row reads back as its number, its times and duration as
      printed, and its direction, provided printed numbers contain no comma
      and `parseInt`/`parseFloat` accept what was printed. */
  lemma RowRoundTrip(id: int, s: TurnSegment, fmt: (real, nat) -> string,
                     parseInt: string -> Option<int>, parseFloat: string -> Option<real>)
    requires id >= 1
    requires forall x: real, d: nat :: ',' !in fmt(x, d) && parseFloat(fmt(x, d)).Some?
    requires parseInt(IntToString(id)) == Some(id)
    ensures ParseRow(RowLine(id, s, fmt), parseInt, parseFloat)
            == Row(TurnRow(id, parseFloat(fmt(s.startTime, 3)).value, parseFloat(fmt(s.endTime, 3)).value,
                           parseFloat(fmt(s.Duration(), 1)).value, DirectionText(s.direction)))
  {
    var fs := RowFields(id, s, fmt);
    assert ',' !in fs[1] && ',' !in fs[2] && ',' !in fs[3] && ',' !in fs[4] && ',' !in fs[5];
    RowLineShape(id, s, fmt);
    assert parseFloat(fs[1]).Some? && parseFloat(fs[2]).Some? && parseFloat(fs[3]).Some?;
    ParseSevenFields(RowLine(id, s, fmt), fs, parseInt, parseFloat);
  }

  /** Every written row parses back to its turn. */
  lemma RowsParse(segs: seq<TurnSegment>, fmt: (real, nat) -> string,
                  parseInt: string -> Option<int>, parseFloat: string -> Option<real>)
    requires forall x: real, d: nat :: ',' !in fmt(x, d) && parseFloat(fmt(x, d)).Some?
    requires forall i: int :: parseInt(IntToString(i)) == Some(i)
    ensures forall k :: 0 <= k < |segs| ==>
      ParseRow(Rows(segs, fmt)[k], parseInt, parseFloat)
      == Row(TurnRow(k + 1, parseFloat(fmt(segs[k].startTime, 3)).value, parseFloat(fmt(segs[k].endTime, 3)).value,
                     parseFloat(fmt(segs[k].Duration(), 1)).value, DirectionText(segs[k].direction)))
  {
    forall k | 0 <= k < |segs|
      ensures ParseRow(Rows(segs, fmt)[k], parseInt, parseFloat)
      == Row(TurnRow(k + 1, parseFloat(fmt(segs[k].startTime, 3)).value, parseFloat(fmt(segs[k].endTime, 3)).value,
                     parseFloat(fmt(segs[k].Duration(), 1)).value, DirectionText(segs[k].direction)))
    {
      RowRoundTrip(k + 1, segs[k], fmt, parseInt, parseFloat);
    }
  }

  /** Skipped header lines followed by lines that all parse read as the
      turns of those lines. */
  lemma {:induction false} ReadHeaderThenRows(header: seq<string>, rows: seq<string>, parse: string -> LineResult)
    requires forall k :: 0 <= k < |header| ==> parse(header[k]) == Skip
    requires AllRows(rows, parse)
    ensures ReadRows(header + rows, parse) == Some(ParsedRows(rows, parse))
  {
    ReadRowsOfSkipped(header, parse);
    ReadRowsAppend(header, rows, parse);
    assert [] + ParsedRows(rows, parse) == ParsedRows(rows, parse);
  }

  /** Reading back a file the Python detector wrote recovers, for each
      turn, its number (from 1), its start and end times and duration as
      printed, and its direction. */
  lemma SaveLoadRoundTrip(logFilename: string, cfg: Config, segs: seq<TurnSegment>,
                          repr: real -> string, fmt: (real, nat) -> string,
                          parseInt: string -> Option<int>, parseFloat: string -> Option<real>)
    requires forall x: real, d: nat :: ',' !in fmt(x, d) && parseFloat(fmt(x, d)).Some?
    requires forall i: int :: parseInt(IntToString(i)) == Some(i)
    ensures var rows := LoadTurnSegments(Some(SaveLines(PyHeader(logFilename, cfg, |segs|, repr), segs, fmt)), parseInt, parseFloat);
      && |rows| == |segs|
      && forall k :: 0 <= k < |segs| ==>
           rows[k] == TurnRow(k + 1, parseFloat(fmt(segs[k].startTime, 3)).value, parseFloat(fmt(segs[k].endTime, 3)).value,
                              parseFloat(fmt(segs[k].Duration(), 1)).value, DirectionText(segs[k].direction))
  {
    var header := PyHeader(logFilename, cfg, |segs|, repr);
    var lines := Rows(segs, fmt);
    var parse := line => ParseRow(line, parseInt, parseFloat);
    CommentsAreSkipped(PyHeaderTexts(logFilename, cfg, |segs|, repr));
    RowsParse(segs, fmt, parseInt, parseFloat);
    assert AllRows(lines, parse);
    ReadHeaderThenRows(header, lines, parse);
  }
}

=== FILE: segmenter.dfy ===
/** The single-pass turn segmenter shared by Python `detect_turn_segments`
    and C++ `DetectTurnSegments`: a three-phase machine (Idle, Accumulating,
    EndTiming) stepped once per smoothed rate point, then flushed at the end
    of the sequence. Segments are first produced as index records (`Closed`)
    and turned into timed `TurnSegment`s by `Record`. */
module Segmenter {
  import opened RateSeries

  /** The detector's parameters. The Python detector fixes the window at 5. */
  datatype Config = Config(
    startThreshold: real,   // deg/s, strictly exceeded to start or reverse a turn
    endThreshold: real,     // deg/s, at or below it the end timer runs
    endDuration: real,      // s, how long the end timer must run
    angleThreshold: real,   // deg, least accumulated angle of a kept turn
    window: int)            // smoothing window size, an `int` in the C++

  /** Left for a positive rate, Right otherwise (a zero rate counts as Right). */
  datatype Direction = Left | Right

  function DirectionOf(rate: real): Direction {
    if rate > 0.0 then Left else Right
  }

  /** The rate turns the same way as the current segment. */
  predicate Agrees(d: Direction, rate: real) {
    (d == Left && rate > 0.0) || (d == Right && rate < 0.0)
  }

  function Abs(x: real): (r: real)
    ensures r >= 0.0 && (r == x || r == -x)
  {
    if x < 0.0 then -x else x
  }

  /** The machine between two rate points: the segment in progress has its
      start index, unsigned accumulated angle, contributing rates and
      direction; EndTiming also remembers when the end timer started. */
  datatype Machine =
    | Idle
    | Accumulating(start: nat, angle: real, rates: seq<real>, dir: Direction)
    | EndTiming(start: nat, angle: real, rates: seq<real>, dir: Direction, since: real)

  /** A segment handed to the recording operation, by index. */
  datatype Closed = Closed(start: nat, end: nat, angle: real, rates: seq<real>, dir: Direction)

  datatype StepResult = StepResult(next: Machine, emitted: seq<Closed>)

  /** The segment `m` would close as, ending at index `end`, when its angle
      reaches the threshold; nothing otherwise. */
  function CloseIfLarge(cfg: Config, m: Machine, end: nat): seq<Closed>
    requires !m.Idle?
  {
    if m.angle >= cfg.angleThreshold then [Closed(m.start, end, m.angle, m.rates, m.dir)] else []
  }

  /** Process rate point i. */
  function Step(cfg: Config, pts: seq<RatePoint>, i: nat, m: Machine): (r: StepResult)
    requires i < |pts|
    ensures |r.emitted| <= 1
    ensures m.Idle? ==> r.emitted == []
  {
    var t := pts[i].t;
    var r := pts[i].rate;
    match m
    case Idle =>
      if Abs(r) > cfg.startThreshold then StepResult(Accumulating(i, 0.0, [r], DirectionOf(r)), [])
      else StepResult(Idle, [])
    case Accumulating(s, a, rs, d) =>
      if Abs(r) > cfg.endThreshold then
        if i > 0 then
          var change := r * (t - pts[i - 1].t);
          if Agrees(d, r) then StepResult(Accumulating(s, a + Abs(change), rs + [r], d), [])
          else if Abs(r) > cfg.startThreshold then
            // a strong reversal restarts the segment here; the list is
            // seeded with r and r is then appended once more
            StepResult(Accumulating(i, Abs(change), [r] + [r], DirectionOf(r)), CloseIfLarge(cfg, m, i - 1))
          else StepResult(Accumulating(s, a, rs + [r], d), [])
        else StepResult(Accumulating(s, a, rs + [r], d), [])
      else StepResult(EndTiming(s, a, rs, d, t), [])
    case EndTiming(s, a, rs, d, since) =>
      if Abs(r) <= cfg.endThreshold then
        if t - since >= cfg.endDuration then StepResult(Idle, CloseIfLarge(cfg, m, i))
        else StepResult(m, [])
      else
        var a' := if i > 0 && Agrees(d, r) then a + Abs(r * (t - pts[i - 1].t)) else a;
        StepResult(Accumulating(s, a', rs + [r], d), [])
  }

  /** The end-of-sequence check: a segment still open when the scan ends is
      recorded up to the last index if its angle reaches the threshold. */
  function Flush(cfg: Config, n: nat, m: Machine): (r: seq<Closed>)
    ensures |r| <= 1
    ensures m.Idle? ==> r == []
  {
    if !m.Idle? && n > m.start then CloseIfLarge(cfg, m, n - 1) else []
  }

  /** The scan from index i on, starting in state m. */
  function Run(cfg: Config, pts: seq<RatePoint>, i: nat, m: Machine): (r: seq<Closed>)
    requires i <= |pts|
    ensures |r| <= |pts| - i + 1
    decreases |pts| - i
  {
    if i == |pts| then Flush(cfg, |pts|, m)
    else
      var sr := Step(cfg, pts, i, m);
      sr.emitted + Run(cfg, pts, i + 1, sr.next)
  }

  /** All segments of a rate sequence, in emission order. */
  function Segment(cfg: Config, pts: seq<RatePoint>): seq<Closed> {
    Run(cfg, pts, 0, Idle)
  }

  // ---------------------------------------------------------------------
  // Invariants of the fold

  /** What holds of an open segment's record when the scan is at index i. */
  predicate OpenOk(cfg: Config, pts: seq<RatePoint>, start: nat, angle: real, rates: seq<real>, dir: Direction, i: nat) {
    && start < i <= |pts|
    && angle >= 0.0
    && |rates| >= 1
    && rates[0] == pts[start].rate
    && Abs(rates[0]) > cfg.startThreshold
    && dir == DirectionOf(rates[0])
    && (forall k :: 1 <= k < |rates| ==> Abs(rates[k]) > cfg.endThreshold)
  }

  predicate Inv(cfg: Config, pts: seq<RatePoint>, m: Machine, i: nat) {
    i <= |pts| && (!m.Idle? ==> OpenOk(cfg, pts, m.start, m.angle, m.rates, m.dir, i))
  }

  /** What holds of every segment handed to the recording operation: it
      spans existing indices, clears the angle gate, was started by a rate
      strictly above the start threshold whose sign fixed its direction, and
      every later contributing rate was strictly above the end threshold. */
  predicate ClosedOk(cfg: Config, pts: seq<RatePoint>, c: Closed) {
    && c.start <= c.end < |pts|
    && c.angle >= cfg.angleThreshold
    && c.angle >= 0.0
    && |c.rates| >= 1
    && c.rates[0] == pts[c.start].rate
    && Abs(pts[c.start].rate) > cfg.startThreshold
    && c.dir == DirectionOf(pts[c.start].rate)
    && (forall k :: 1 <= k < |c.rates| ==> Abs(c.rates[k]) > cfg.endThreshold)
  }

  /** Index order: each segment ends strictly before the next one starts. */
  predicate Chained(cs: seq<Closed>) {
    forall k :: 0 <= k < |cs| - 1 ==> cs[k].end < cs[k + 1].start
  }

  /** The least index a segment emitted from state m at index i can start at. */
  function Floor(m: Machine, i: nat): nat {
    if m.Idle? then i else m.start
  }

  lemma StepKeepsInvariant(cfg: Config, pts: seq<RatePoint>, i: nat, m: Machine)
    requires i < |pts| && Inv(cfg, pts, m, i)
    ensures Inv(cfg, pts, Step(cfg, pts, i, m).next, i + 1)
    ensures |Step(cfg, pts, i, m).emitted| <= 1
    ensures Floor(m, i) <= Floor(Step(cfg, pts, i, m).next, i + 1)
    ensures forall c :: c in Step(cfg, pts, i, m).emitted ==>
              ClosedOk(cfg, pts, c) && Floor(m, i) <= c.start && c.end < Floor(Step(cfg, pts, i, m).next, i + 1)
  {
    var r := pts[i].rate;
    match m
    case Idle =>
    case Accumulating(s, a, rs, d) =>
      if Abs(r) > cfg.endThreshold && i > 0 && !Agrees(d, r) && Abs(r) > cfg.startThreshold {
        ReversalStep(cfg, pts, i, s, a, rs, d);
        var n := Step(cfg, pts, i, m).next;
        assert n.rates[0] == pts[n.start].rate;
        assert forall k :: 1 <= k < |n.rates| ==> Abs(n.rates[k]) > cfg.endThreshold;
      } else if Abs(r) > cfg.endThreshold {
        assert (rs + [r])[0] == rs[0];
      }
    case EndTiming(s, a, rs, d, since) =>
      if Abs(r) > cfg.endThreshold {
        assert (rs + [r])[0] == rs[0];
      }
  }

  lemma FlushOk(cfg: Config, pts: seq<RatePoint>, m: Machine)
    requires Inv(cfg, pts, m, |pts|)
    ensures |Flush(cfg, |pts|, m)| <= 1
    ensures forall c :: c in Flush(cfg, |pts|, m) ==> ClosedOk(cfg, pts, c) && Floor(m, |pts|) <= c.start
  {
  }

  /** The fold from any reachable state emits only well-formed segments,
      in strictly increasing, non-overlapping index order. */
  lemma {:induction false} RunOk(cfg: Config, pts: seq<RatePoint>, i: nat, m: Machine)
    requires Inv(cfg, pts, m, i)
    ensures forall c :: c in Run(cfg, pts, i, m) ==> ClosedOk(cfg, pts, c) && Floor(m, i) <= c.start
    ensures Chained(Run(cfg, pts, i, m))
    decreases |pts| - i
  {
    if i == |pts| {
      FlushOk(cfg, pts, m);
    } else {
      var sr := Step(cfg, pts, i, m);
      StepKeepsInvariant(cfg, pts, i, m);
      RunOk(cfg, pts, i + 1, sr.next);
      var rest := Run(cfg, pts, i + 1, sr.next);
      assert Run(cfg, pts, i, m) == sr.emitted + rest;
      ChainedPrepend(sr.emitted, rest, Floor(sr.next, i + 1));
    }
  }

  /** At most one segment ending below `floor`, put before a chain whose
      segments all start at or above `floor`, keeps the chain. */
  lemma ChainedPrepend(e: seq<Closed>, rest: seq<Closed>, floor: nat)
    requires |e| <= 1 && Chained(rest)
    requires forall c :: c in e ==> c.end < floor
    requires forall c :: c in rest ==> floor <= c.start
    ensures Chained(e + rest)
  {
    if |e| == 1 {
      assert forall k :: 0 <= k < |rest| ==> rest[k] in rest;
    }
  }

  /** Every segment of a rate sequence clears the angle gate, was started by
      a rate strictly above the start threshold with the direction of that
      rate, and segments are index-ordered and disjoint. */
  lemma SegmentOk(cfg: Config, pts: seq<RatePoint>)
    ensures forall k :: 0 <= k < |Segment(cfg, pts)| ==> ClosedOk(cfg, pts, Segment(cfg, pts)[k])
    ensures Chained(Segment(cfg, pts))
  {
    RunOk(cfg, pts, 0, Idle);
    var cs := Segment(cfg, pts);
    forall k | 0 <= k < |cs|
      ensures ClosedOk(cfg, pts, cs[k])
    {
      assert cs[k] in cs;
    }
  }

  // ---------------------------------------------------------------------
  // The exact behaviour of single steps

  /** Idle starts a segment exactly when the rate is strictly above the start
      threshold; the trigger rate seeds the list but adds no angle. */
  lemma IdleStep(cfg: Config, pts: seq<RatePoint>, i: nat)
    requires i < |pts|
    ensures var sr := Step(cfg, pts, i, Idle);
      && sr.emitted == []
      && (sr.next.Idle? <==> Abs(pts[i].rate) <= cfg.startThreshold)
      && (!sr.next.Idle? ==> sr.next == Accumulating(i, 0.0, [pts[i].rate], DirectionOf(pts[i].rate)))
  {
  }

  /** A strong reversal closes the old segment at i - 1 when (and only when)
      it met the angle threshold, and restarts at i with the magnitude of the
      reversing step as angle and the reversing rate listed twice. */
  lemma ReversalStep(cfg: Config, pts: seq<RatePoint>, i: nat, s: nat, a: real, rs: seq<real>, d: Direction)
    requires 0 < i < |pts|
    requires Abs(pts[i].rate) > cfg.endThreshold && Abs(pts[i].rate) > cfg.startThreshold
    requires !Agrees(d, pts[i].rate)
    ensures var r := pts[i].rate;
      var sr := Step(cfg, pts, i, Accumulating(s, a, rs, d));
      && sr.next == Accumulating(i, Abs(r * (pts[i].t - pts[i - 1].t)), [r, r], DirectionOf(r))
      && (a >= cfg.angleThreshold ==> sr.emitted == [Closed(s, i - 1, a, rs, d)])
      && (a < cfg.angleThreshold ==> sr.emitted == [])
  {
  }

  /** A weak opposite-sign rate is listed but adds no angle. */
  lemma WeakOppositeStep(cfg: Config, pts: seq<RatePoint>, i: nat, s: nat, a: real, rs: seq<real>, d: Direction)
    requires i < |pts|
    requires cfg.endThreshold < Abs(pts[i].rate) <= cfg.startThreshold
    requires !Agrees(d, pts[i].rate)
    ensures Step(cfg, pts, i, Accumulating(s, a, rs, d)) == StepResult(Accumulating(s, a, rs + [pts[i].rate], d), [])
  {
  }

  /** Falling to or below the end threshold starts the end timer; that rate
      adds to neither the angle nor the list. */
  lemma EnterEndTimingStep(cfg: Config, pts: seq<RatePoint>, i: nat, s: nat, a: real, rs: seq<real>, d: Direction)
    requires i < |pts|
    requires Abs(pts[i].rate) <= cfg.endThreshold
    ensures Step(cfg, pts, i, Accumulating(s, a, rs, d)) == StepResult(EndTiming(s, a, rs, d, pts[i].t), [])
  {
  }

  /** Rising above the end threshold again resumes the same segment without
      losing angle: its start and direction are kept and its angle can only
      grow. */
  lemma DebounceKeepsAngle(cfg: Config, pts: seq<RatePoint>, i: nat, m: Machine)
    requires i < |pts| && m.EndTiming? && m.angle >= 0.0
    requires Abs(pts[i].rate) > cfg.endThreshold
    ensures var n := Step(cfg, pts, i, m).next;
      && n.Accumulating?
      && n.start == m.start && n.dir == m.dir
      && n.angle >= m.angle
      && n.rates == m.rates + [pts[i].rate]
      && Step(cfg, pts, i, m).emitted == []
  {
  }

  /** The end timer closes the segment only once it has run for at least
      the end duration, and then always returns to Idle, emitting the
      segment exactly when its angle reaches the threshold. */
  lemma EndTimingStep(cfg: Config, pts: seq<RatePoint>, i: nat, m: Machine)
    requires i < |pts| && m.EndTiming?
    requires Abs(pts[i].rate) <= cfg.endThreshold
    ensures var sr := Step(cfg, pts, i, m);
      && (sr.next.Idle? <==> pts[i].t - m.since >= cfg.endDuration)
      && (!sr.next.Idle? ==> sr == StepResult(m, []))
      && (|sr.emitted| == 1 <==> sr.next.Idle? && m.angle >= cfg.angleThreshold)
      && (|sr.emitted| == 1 ==> sr.emitted[0] == Closed(m.start, i, m.angle, m.rates, m.dir))
  {
  }

  /** A turn still open at the last rate point is recorded up to that point
      when its angle reaches the threshold. */
  lemma FlushRecordsOpenTurn(cfg: Config, n: nat, m: Machine)
    requires !m.Idle? && m.start < n
    ensures m.angle >= cfg.angleThreshold ==> Flush(cfg, n, m) == [Closed(m.start, n - 1, m.angle, m.rates, m.dir)]
    ensures m.angle < cfg.angleThreshold ==> Flush(cfg, n, m) == []
  {
  }

  // ---------------------------------------------------------------------
  // Recording

  /** A detected turn: times in seconds, unsigned angle and average rate. */
  datatype TurnSegment = TurnSegment(startTime: real, endTime: real, totalAngle: real, avgTurnRate: real, direction: Direction) {
    function Duration(): real {
      endTime - startTime
    }
  }

  function AbsAll(xs: seq<real>): (ys: seq<real>)
    ensures |ys| == |xs|
    ensures forall k :: 0 <= k < |xs| ==> ys[k] == Abs(xs[k])
  {
    seq(|xs|, k requires 0 <= k < |xs| => Abs(xs[k]))
  }

  /** The mean of the unsigned contributing rates; 0 for an empty list,
      as the C++ guard gives (the list is never empty: a turn starts with
      its first rate). */
  function AvgAbsRate(xs: seq<real>): (avg: real)
    ensures avg >= 0.0
    ensures avg * (|xs| as real) == Sum(AbsAll(xs))
    ensures |xs| == 0 ==> avg == 0.0
  {
    if |xs| == 0 then 0.0
    else
      var ys := AbsAll(xs);
      MeanBoundsBelow(ys, 0.0);
      var n := |xs| as real;
      assert Sum(ys) / n * n == Sum(ys);
      Mean(ys)
  }

  /** The C++ averaging loop of RecordTurnSegment: the sum of the unsigned
      rates divided by their count, 0 for an empty list. */
  method CppAvgAbsRate(xs: seq<real>) returns (avg: real)
    ensures avg == AvgAbsRate(xs)
  {
    avg := 0.0;
    if |xs| > 0 {
      var sum := 0.0;
      var j := 0;
      while j < |xs|
        invariant 0 <= j <= |xs|
        invariant sum == Sum(AbsAll(xs[..j]))
      {
        assert AbsAll(xs[..j + 1])[..j] == AbsAll(xs[..j]);
        sum := sum + Abs(xs[j]);
        j := j + 1;
      }
      assert xs[..j] == xs;
      avg := sum / (|xs| as real);
    }
  }

  /** The recording operation: the turn runs from the time of its start
      index to the time of its end index, with the accumulated angle, the
      direction, and the mean unsigned rate of its contributing rates. */
  function Record(pts: seq<RatePoint>, c: Closed): (r: TurnSegment)
    requires c.start < |pts| && c.end < |pts|
    ensures r.startTime == pts[c.start].t && r.endTime == pts[c.end].t
    ensures r.totalAngle == c.angle && r.direction == c.dir
    ensures r.avgTurnRate >= 0.0 && r.avgTurnRate * (|c.rates| as real) == Sum(AbsAll(c.rates))
    ensures |c.rates| == 0 ==> r.avgTurnRate == 0.0
  {
    TurnSegment(pts[c.start].t, pts[c.end].t, c.angle, AvgAbsRate(c.rates), c.dir)
  }

  /** The scan's turns, recorded in order: turn k spans the timestamps of
      the k-th closed segment's start and end indices and carries its
      angle, direction and mean unsigned rate. */
  function Segments(cfg: Config, pts: seq<RatePoint>): (segs: seq<TurnSegment>)
    ensures |segs| == |Segment(cfg, pts)|
    ensures forall k :: 0 <= k < |segs| ==>
              var c := Segment(cfg, pts)[k];
              && c.start < |pts| && c.end < |pts|
              && segs[k].startTime == pts[c.start].t && segs[k].endTime == pts[c.end].t
              && segs[k].totalAngle == c.angle && segs[k].direction == c.dir
              && segs[k].avgTurnRate * (|c.rates| as real) == Sum(AbsAll(c.rates))
  {
    var cs := Segment(cfg, pts);
    SegmentIndices(cfg, pts);
    seq(|cs|, k requires 0 <= k < |cs| && cs[k].start < |pts| && cs[k].end < |pts| => Record(pts, cs[k]))
  }

  /** Every closed segment's indices lie inside the rate series. */
  lemma SegmentIndices(cfg: Config, pts: seq<RatePoint>)
    ensures forall k :: 0 <= k < |Segment(cfg, pts)| ==>
              Segment(cfg, pts)[k].start < |pts| && Segment(cfg, pts)[k].end < |pts|
  {
    SegmentOk(cfg, pts);
  }

  /** The average of the unsigned rates is never below the smaller of the
      two thresholds every contributing rate exceeds. */
  lemma AvgAbsRateBound(xs: seq<real>, lo: real)
    requires |xs| >= 1
    requires forall k :: 0 <= k < |xs| ==> Abs(xs[k]) >= lo
    ensures AvgAbsRate(xs) >= lo
  {
    MeanBoundsBelow(AbsAll(xs), lo);
  }

  lemma {:induction false} SumAtLeast(xs: seq<real>, lo: real)
    requires forall k :: 0 <= k < |xs| ==> lo <= xs[k]
    ensures lo * (|xs| as real) <= Sum(xs)
    decreases |xs|
  {
    if |xs| > 0 {
      SumAtLeast(xs[..|xs| - 1], lo);
    }
  }

  lemma MeanBoundsBelow(xs: seq<real>, lo: real)
    requires |xs| > 0
    requires forall k :: 0 <= k < |xs| ==> lo <= xs[k]
    ensures lo <= Mean(xs)
  {
    SumAtLeast(xs, lo);
    var n := |xs| as real;
    assert Sum(xs) / n >= lo * n / n;
  }

  /** The properties of the emitted turns, in time: each clears the angle
      gate, starts no later than it ends, has an average rate at least the
      smaller threshold, and, for strictly increasing timestamps, ends
      strictly before the next one starts. */
  lemma SegmentsOk(cfg: Config, pts: seq<RatePoint>)
    ensures forall k :: 0 <= k < |Segments(cfg, pts)| ==>
              Segments(cfg, pts)[k].totalAngle >= cfg.angleThreshold
    ensures forall k :: 0 <= k < |Segments(cfg, pts)| ==>
              Segments(cfg, pts)[k].avgTurnRate >= (if cfg.startThreshold <= cfg.endThreshold then cfg.startThreshold else cfg.endThreshold)
    ensures StrictlyIncreasing(pts) ==>
              forall k :: 0 <= k < |Segments(cfg, pts)| ==> Segments(cfg, pts)[k].startTime <= Segments(cfg, pts)[k].endTime
    ensures StrictlyIncreasing(pts) ==>
              forall k :: 0 <= k < |Segments(cfg, pts)| - 1 ==> Segments(cfg, pts)[k].endTime < Segments(cfg, pts)[k + 1].startTime
  {
    var cs := Segment(cfg, pts);
    var segs := Segments(cfg, pts);
    SegmentOk(cfg, pts);
    var lo := if cfg.startThreshold <= cfg.endThreshold then cfg.startThreshold else cfg.endThreshold;
    forall k | 0 <= k < |segs|
      ensures segs[k].totalAngle >= cfg.angleThreshold && segs[k].avgTurnRate >= lo
    {
      var rs := cs[k].rates;
      forall j | 0 <= j < |rs|
        ensures Abs(rs[j]) >= lo
      {
      }
      AvgAbsRateBound(rs, lo);
    }
    if StrictlyIncreasing(pts) {
      forall k | 0 <= k < |segs|
        ensures segs[k].startTime <= segs[k].endTime
      {
      }
      forall k | 0 <= k < |segs| - 1
        ensures segs[k].endTime < segs[k + 1].startTime
      {
      }
    }
  }
}

=== FILE: stream_aligner.dfy ===
/** The Python detector's log reader: `$GPS` lines give a timestamp per
    second of GPS time, `$NZZ` lines give a heading per second of NZZ time;
    the first record of each second is kept, the two are matched on the
    time key (exactly, else after zero-padding both keys), and the matched
    samples are ordered by timestamp. Dictionaries that keep insertion order
    are modelled as sequences of (key, value) entries with distinct keys. */
module StreamAligner {
  import opened Optional
  import opened Text
  import opened Heading
  import opened RateSeries

  type Entries<V> = seq<(string, V)>

  predicate HasKey<V>(e: Entries<V>, key: string) {
    exists k :: 0 <= k < |e| && e[k].0 == key
  }

  /** The value stored under `key`, if any. */
  function Lookup<V>(e: Entries<V>, key: string): (r: Option<V>)
    ensures r.Some? <==> HasKey(e, key)
    ensures r.Some? ==> exists k :: 0 <= k < |e| && e[k] == (key, r.value)
  {
    if |e| == 0 then None
    else if e[0].0 == key then Some(e[0].1)
    else
      var r := Lookup(e[1..], key);
      assert forall k :: 0 <= k < |e[1..]| ==> e[1..][k] == e[k + 1];
      r
  }

  /** `if key not in d: d[key] = v` — the first value for a key wins. */
  function InsertFirst<V>(e: Entries<V>, key: string, v: V): (r: Entries<V>)
    ensures HasKey(e, key) ==> r == e
    ensures !HasKey(e, key) ==> r == e + [(key, v)]
    ensures Lookup(r, key) == Some(Lookup(e, key).GetOr(v))
  {
    if HasKey(e, key) then e
    else
      LookupAppend(e, key, v);
      e + [(key, v)]
  }

  lemma {:induction false} LookupAppend<V>(e: Entries<V>, key: string, v: V)
    requires !HasKey(e, key)
    ensures Lookup(e + [(key, v)], key) == Some(v)
    decreases |e|
  {
    if |e| > 0 {
      assert (e + [(key, v)])[1..] == e[1..] + [(key, v)];
      assert !HasKey(e[1..], key) by {
        forall k | 0 <= k < |e[1..]|
          ensures e[1..][k].0 != key
        {
          assert e[1..][k] == e[k + 1];
        }
      }
      LookupAppend(e[1..], key, v);
    }
  }

  /** The time key of a GPS record: year-month-day hour:minute:second, each
      written as the parsed integer (no zero padding). */
  function GpsTimeKey(y: int, mo: int, d: int, h: int, mi: int, s: int): string {
    IntToString(y) + "-" + IntToString(mo) + "-" + IntToString(d) + " " +
    IntToString(h) + ":" + IntToString(mi) + ":" + IntToString(s)
  }

  /** The six integers of fields 19..24, or None when one does not parse. */
  function GpsTime(fields: seq<string>, parseInt: string -> Option<int>): (r: Option<string>)
    requires |fields| >= 25
    ensures r.Some? <==> parseInt(fields[19]).Some? && parseInt(fields[20]).Some? && parseInt(fields[21]).Some?
                         && parseInt(fields[22]).Some? && parseInt(fields[23]).Some? && parseInt(fields[24]).Some?
    ensures r.Some? ==> r.value == GpsTimeKey(parseInt(fields[19]).value, parseInt(fields[20]).value,
                                              parseInt(fields[21]).value, parseInt(fields[22]).value,
                                              parseInt(fields[23]).value, parseInt(fields[24]).value)
  {
    var y := parseInt(fields[19]);
    var mo := parseInt(fields[20]);
    var d := parseInt(fields[21]);
    var h := parseInt(fields[22]);
    var mi := parseInt(fields[23]);
    var s := parseInt(fields[24]);
    if y.Some? && mo.Some? && d.Some? && h.Some? && mi.Some? && s.Some? then
      Some(GpsTimeKey(y.value, mo.value, d.value, h.value, mi.value, s.value))
    else None
  }

  /** A `$GPS` line that adds an entry: enough fields, a timestamp and a
      time key that parse, and a second not seen before. */
  predicate GpsLineAdds(line: string, gps: Entries<real>,
                        parseFloat: string -> Option<real>, parseInt: string -> Option<int>)
  {
    var fields := PyTokens(line);
    |fields| >= 25 && parseFloat(fields[1]).Some? && GpsTime(fields, parseInt).Some?
    && !HasKey(gps, GpsTime(fields, parseInt).value)
  }

  /** The (time key, seconds) entry a `$GPS` line carries: at least 25
      whitespace tokens (the tag included), field 1 the timestamp in ms,
      fields 19..24 the time key. None when a field does not parse. */
  function GpsEntry(line: string, parseFloat: string -> Option<real>, parseInt: string -> Option<int>)
    : (r: Option<(string, real)>)
    ensures r.Some? <==> |PyTokens(line)| >= 25 && parseFloat(PyTokens(line)[1]).Some?
                         && GpsTime(PyTokens(line), parseInt).Some?
    ensures r.Some? ==> r.value.0 == GpsTime(PyTokens(line), parseInt).value
                        && r.value.1 == parseFloat(PyTokens(line)[1]).value / 1000.0
  {
    var fields := PyTokens(line);
    if |fields| < 25 then None
    else
      match parseFloat(fields[1])
      case None => None
      case Some(ms) =>
        match GpsTime(fields, parseInt)
        case None => None
        case Some(key) => Some((key, ms / 1000.0))
  }

  /** `_parse_gps_line`: the first record of each second is kept. A line
      whose fields do not parse leaves the table unchanged. */
  function ParseGpsLine(line: string, gps: Entries<real>,
                        parseFloat: string -> Option<real>, parseInt: string -> Option<int>): (r: Entries<real>)
    ensures GpsLineAdds(line, gps, parseFloat, parseInt) ==>
              r == gps + [(GpsTime(PyTokens(line), parseInt).value, parseFloat(PyTokens(line)[1]).value / 1000.0)]
    ensures !GpsLineAdds(line, gps, parseFloat, parseInt) ==> r == gps
  {
    match GpsEntry(line, parseFloat, parseInt)
    case None => gps
    case Some(e) => InsertFirst(gps, e.0, e.1)
  }

  /** `_parse_nzz_line`: at least 20 tokens; the key is fields 1 and 2 as
      written; field 12 is the heading. A heading that does not parse leaves
      the key free for a later record. */
  function ParseNzzLine(line: string, nzz: Entries<real>, parseFloat: string -> Option<real>): (r: Entries<real>)
    ensures |PyTokens(line)| < 20 ==> r == nzz
    ensures |PyTokens(line)| >= 20 && parseFloat(PyTokens(line)[12]).None? ==> r == nzz
    ensures |PyTokens(line)| >= 20 && parseFloat(PyTokens(line)[12]).Some? ==>
              var key := PyTokens(line)[1] + " " + PyTokens(line)[2];
              Lookup(r, key) == Some(Lookup(nzz, key).GetOr(parseFloat(PyTokens(line)[12]).value))
  {
    match NzzEntry(line, parseFloat)
    case None => nzz
    case Some(e) => InsertFirst(nzz, e.0, e.1)
  }

  /** The (key, heading) entry a `$NZZ` line carries: at least 20 whitespace
      tokens, the key fields 1 and 2 joined by one space, field 12 the
      heading. None when there are too few tokens or the heading does not
      parse. */
  function NzzEntry(line: string, parseFloat: string -> Option<real>): (r: Option<(string, real)>)
    ensures r.Some? <==> |PyTokens(line)| >= 20 && parseFloat(PyTokens(line)[12]).Some?
    ensures r.Some? ==> r.value == (PyTokens(line)[1] + " " + PyTokens(line)[2], parseFloat(PyTokens(line)[12]).value)
  {
    var fields := PyTokens(line);
    if |fields| < 20 then None
    else
      match parseFloat(fields[12])
      case None => None
      case Some(h) => Some((fields[1] + " " + fields[2], h))
  }

  /** The two tables after reading a file line by line. */
  datatype Tables = Tables(gps: Entries<real>, nzz: Entries<real>)

  function ReadLine(t: Tables, line: string, parseFloat: string -> Option<real>, parseInt: string -> Option<int>): (r: Tables)
    ensures !StartsWith(Strip(line), "$GPS") ==> r.gps == t.gps
    ensures !StartsWith(Strip(line), "$NZZ") ==> r.nzz == t.nzz
    ensures r.gps == t.gps || r.nzz == t.nzz
    ensures StartsWith(Strip(line), "$GPS") ==>
              r == t.(gps := ParseGpsLine(Strip(line), t.gps, parseFloat, parseInt))
    ensures !StartsWith(Strip(line), "$GPS") && StartsWith(Strip(line), "$NZZ") ==>
              r == t.(nzz := ParseNzzLine(Strip(line), t.nzz, parseFloat))
  {
    var s := Strip(line);
    if StartsWith(s, "$GPS") then t.(gps := ParseGpsLine(s, t.gps, parseFloat, parseInt))
    else if StartsWith(s, "$NZZ") then t.(nzz := ParseNzzLine(s, t.nzz, parseFloat))
    else t
  }

  function ReadLines(lines: seq<string>, parseFloat: string -> Option<real>, parseInt: string -> Option<int>): (t: Tables)
    ensures |t.gps| <= |lines| && |t.nzz| <= |lines|
    decreases |lines|
  {
    if |lines| == 0 then Tables([], [])
    else
      var t := ReadLines(lines[..|lines| - 1], parseFloat, parseInt);
      ReadLine(t, lines[|lines| - 1], parseFloat, parseInt)
  }

  // ---------------------------------------------------------------------
  // What the two tables hold, line by line

  /** The entry a line contributes to the GPS table: a stripped `$GPS`
      line whose fields parse. */
  function GpsLineClaim(line: string, parseFloat: string -> Option<real>, parseInt: string -> Option<int>)
    : Option<(string, real)>
  {
    if StartsWith(Strip(line), "$GPS") then GpsEntry(Strip(line), parseFloat, parseInt) else None
  }

  /** The entry a line contributes to the NZZ table: a stripped `$NZZ`
      line whose fields parse (a `$GPS` line is taken by the GPS table). */
  function NzzLineClaim(line: string, parseFloat: string -> Option<real>): Option<(string, real)> {
    if StartsWith(Strip(line), "$GPS") then None
    else if StartsWith(Strip(line), "$NZZ") then NzzEntry(Strip(line), parseFloat)
    else None
  }

  /** The GPS claims of the lines, one per line. */
  function GpsClaims(lines: seq<string>, parseFloat: string -> Option<real>, parseInt: string -> Option<int>)
    : (cs: seq<Option<(string, real)>>)
    ensures |cs| == |lines|
    decreases |lines|
  {
    if |lines| == 0 then []
    else GpsClaims(lines[..|lines| - 1], parseFloat, parseInt) + [GpsLineClaim(lines[|lines| - 1], parseFloat, parseInt)]
  }
  /** Claim i is line i's claim. */
  lemma {:induction false} GpsClaimsAt(lines: seq<string>, parseFloat: string -> Option<real>, parseInt: string -> Option<int>, i: int)
    requires 0 <= i < |lines|
    ensures GpsClaims(lines, parseFloat, parseInt)[i] == GpsLineClaim(lines[i], parseFloat, parseInt)
    decreases |lines|
  {
    if i < |lines| - 1 {
      GpsClaimsAt(lines[..|lines| - 1], parseFloat, parseInt, i);
      assert lines[..|lines| - 1][i] == lines[i];
    }
  }

  /** The NZZ claims of the lines, one per line. */
  function NzzClaims(lines: seq<string>, parseFloat: string -> Option<real>): (cs: seq<Option<(string, real)>>)
    ensures |cs| == |lines|
    decreases |lines|
  {
    if |lines| == 0 then []
    else NzzClaims(lines[..|lines| - 1], parseFloat) + [NzzLineClaim(lines[|lines| - 1], parseFloat)]
  }
  /** Claim i is line i's claim. */
  lemma {:induction false} NzzClaimsAt(lines: seq<string>, parseFloat: string -> Option<real>, i: int)
    requires 0 <= i < |lines|
    ensures NzzClaims(lines, parseFloat)[i] == NzzLineClaim(lines[i], parseFloat)
    decreases |lines|
  {
    if i < |lines| - 1 {
      NzzClaimsAt(lines[..|lines| - 1], parseFloat, i);
      assert lines[..|lines| - 1][i] == lines[i];
    }
  }


  /** A table after one claim, if any, is inserted first-wins. */
  function AddClaim(e: Entries<real>, c: Option<(string, real)>): Entries<real> {
    match c
    case None => e
    case Some(c) => InsertFirst(e, c.0, c.1)
  }

  /** Reference reading of one table: the claims in order, the first entry
      for each key kept. */
  function Collect(claims: seq<Option<(string, real)>>): Entries<real>
    decreases |claims|
  {
    if |claims| == 0 then []
    else AddClaim(Collect(claims[..|claims| - 1]), claims[|claims| - 1])
  }

  /** One of the first `n` claims is for `key`. */
  predicate ClaimedBefore(claims: seq<Option<(string, real)>>, n: nat, key: string)
    requires n <= |claims|
  {
    exists j :: 0 <= j < n && claims[j].Some? && claims[j].value.0 == key
  }

  /** The first claim for `key` carries `v`. */
  predicate FirstClaim(claims: seq<Option<(string, real)>>, key: string, v: real) {
    exists i :: 0 <= i < |claims| && claims[i] == Some((key, v)) && !ClaimedBefore(claims, i, key)
  }

  lemma HasKeyAppend<V>(e: Entries<V>, x: (string, V), key: string)
    ensures HasKey(e + [x], key) <==> HasKey(e, key) || x.0 == key
  {
    if HasKey(e, key) {
      var k :| 0 <= k < |e| && e[k].0 == key;
      assert (e + [x])[k] == e[k];
    }
    if x.0 == key {
      assert (e + [x])[|e|] == x;
    }
    if HasKey(e + [x], key) {
      var k :| 0 <= k < |e + [x]| && (e + [x])[k].0 == key;
      if k < |e| {
        assert e[k] == (e + [x])[k];
      }
    }
  }

  lemma {:induction false} LookupAppendOther<V>(e: Entries<V>, x: (string, V), key: string)
    requires x.0 != key
    ensures Lookup(e + [x], key) == Lookup(e, key)
    decreases |e|
  {
    if |e| == 0 {
      assert ([x])[1..] == [];
    } else {
      assert (e + [x])[1..] == e[1..] + [x];
      LookupAppendOther(e[1..], x, key);
    }
  }

  /** Inserting under one key leaves every other key's lookup alone. */
  lemma InsertFirstOther<V>(e: Entries<V>, k: string, v: V, key: string)
    requires k != key
    ensures Lookup(InsertFirst(e, k, v), key) == Lookup(e, key)
  {
    if !HasKey(e, k) {
      LookupAppendOther(e, (k, v), key);
    }
  }

  /** The claims of all lines against those of all but the last. */
  lemma ClaimsSnoc(claims: seq<Option<(string, real)>>, p: seq<Option<(string, real)>>, key: string, v: real)
    requires |claims| > 0 && p == claims[..|claims| - 1]
    ensures ClaimedBefore(claims, |p|, key) <==> ClaimedBefore(p, |p|, key)
    ensures ClaimedBefore(claims, |claims|, key) <==>
              ClaimedBefore(p, |p|, key) || (claims[|p|].Some? && claims[|p|].value.0 == key)
    ensures FirstClaim(claims, key, v) <==>
              FirstClaim(p, key, v) || (claims[|p|] == Some((key, v)) && !ClaimedBefore(p, |p|, key))
  {
    assert forall j :: 0 <= j < |p| ==> p[j] == claims[j];
    forall i | 0 <= i <= |p|
      ensures ClaimedBefore(claims, i, key) <==> ClaimedBefore(p, i, key)
    {
      if ClaimedBefore(claims, i, key) {
        var j :| 0 <= j < i && claims[j].Some? && claims[j].value.0 == key;
        assert p[j] == claims[j];
      }
    }
    if ClaimedBefore(claims, |claims|, key) {
      var j :| 0 <= j < |claims| && claims[j].Some? && claims[j].value.0 == key;
      if j < |p| {
        assert p[j] == claims[j];
      }
    }
    if FirstClaim(claims, key, v) {
      var i :| 0 <= i < |claims| && claims[i] == Some((key, v)) && !ClaimedBefore(claims, i, key);
      if i < |p| {
        assert p[i] == claims[i];
      }
    }
    if FirstClaim(p, key, v) {
      var i :| 0 <= i < |p| && p[i] == Some((key, v)) && !ClaimedBefore(p, i, key);
      assert p[i] == claims[i];
    }
  }

  /** A key is in the collected table exactly when some claim is for it. */
  lemma {:induction false} CollectKeys(claims: seq<Option<(string, real)>>, key: string)
    ensures HasKey(Collect(claims), key) <==> ClaimedBefore(claims, |claims|, key)
    decreases |claims|
  {
    if |claims| > 0 {
      var p := claims[..|claims| - 1];
      CollectKeys(p, key);
      ClaimsSnoc(claims, p, key, 0.0);
      var e := Collect(p);
      match claims[|p|]
      case None =>
      case Some(c) =>
        if !HasKey(e, c.0) {
          HasKeyAppend(e, c, key);
        }
    }
  }

  /** The collected table maps `key` to `v` exactly when the first claim
      for `key` carries `v`. */
  lemma {:induction false} CollectFirst(claims: seq<Option<(string, real)>>, key: string, v: real)
    ensures Lookup(Collect(claims), key) == Some(v) <==> FirstClaim(claims, key, v)
    decreases |claims|
  {
    if |claims| > 0 {
      var p := claims[..|claims| - 1];
      CollectFirst(p, key, v);
      CollectKeys(p, key);
      ClaimsSnoc(claims, p, key, v);
      var e := Collect(p);
      match claims[|p|]
      case None =>
      case Some(c) =>
        if c.0 != key {
          InsertFirstOther(e, c.0, c.1, key);
        }
    }
  }

  /** Reading line by line fills both tables as `Collect` says. */
  lemma {:induction false} ReadLinesCollects(lines: seq<string>, parseFloat: string -> Option<real>, parseInt: string -> Option<int>)
    ensures ReadLines(lines, parseFloat, parseInt).gps == Collect(GpsClaims(lines, parseFloat, parseInt))
    ensures ReadLines(lines, parseFloat, parseInt).nzz == Collect(NzzClaims(lines, parseFloat))
    decreases |lines|
  {
    if |lines| > 0 {
      var p := lines[..|lines| - 1];
      ReadLinesCollects(p, parseFloat, parseInt);
      ReadLineClaims(ReadLines(p, parseFloat, parseInt), lines[|p|], parseFloat, parseInt);
      var gs := GpsClaims(lines, parseFloat, parseInt);
      var ns := NzzClaims(lines, parseFloat);
      assert gs[..|p|] == GpsClaims(p, parseFloat, parseInt);
      assert ns[..|p|] == NzzClaims(p, parseFloat);
    }
  }

  /** One line adds to each table exactly its claim. */
  lemma ReadLineClaims(t: Tables, line: string, parseFloat: string -> Option<real>, parseInt: string -> Option<int>)
    ensures ReadLine(t, line, parseFloat, parseInt).gps == AddClaim(t.gps, GpsLineClaim(line, parseFloat, parseInt))
    ensures ReadLine(t, line, parseFloat, parseInt).nzz == AddClaim(t.nzz, NzzLineClaim(line, parseFloat))
  {
  }

  /** Line i is a `$GPS` line carrying (key, v), and no earlier `$GPS`
      line carries the same key. */
  predicate FirstGpsLine(lines: seq<string>, parseFloat: string -> Option<real>, parseInt: string -> Option<int>,
                         i: int, key: string, v: real)
  {
    0 <= i < |lines| && StartsWith(Strip(lines[i]), "$GPS")
    && GpsEntry(Strip(lines[i]), parseFloat, parseInt) == Some((key, v))
    && forall j :: 0 <= j < i && StartsWith(Strip(lines[j]), "$GPS")
                   && GpsEntry(Strip(lines[j]), parseFloat, parseInt).Some?
                   ==> GpsEntry(Strip(lines[j]), parseFloat, parseInt).value.0 != key
  }

  /** The GPS table maps `key` to `v` exactly when some `$GPS` line carries
      (key, v) and no earlier `$GPS` line carries the same key. */
  lemma ReadLinesGps(lines: seq<string>, parseFloat: string -> Option<real>, parseInt: string -> Option<int>,
                     key: string, v: real)
    ensures Lookup(ReadLines(lines, parseFloat, parseInt).gps, key) == Some(v) <==>
              exists i :: FirstGpsLine(lines, parseFloat, parseInt, i, key, v)
  {
    ReadLinesCollects(lines, parseFloat, parseInt);
    var cs := GpsClaims(lines, parseFloat, parseInt);
    CollectFirst(cs, key, v);
    forall i | 0 <= i < |lines|
      ensures FirstGpsLine(lines, parseFloat, parseInt, i, key, v) <==> cs[i] == Some((key, v)) && !ClaimedBefore(cs, i, key)
    {
      FirstGpsLineAt(lines, parseFloat, parseInt, i, key, v);
    }
  }

  lemma FirstGpsLineAt(lines: seq<string>, parseFloat: string -> Option<real>, parseInt: string -> Option<int>,
                       i: int, key: string, v: real)
    requires 0 <= i < |lines|
    ensures FirstGpsLine(lines, parseFloat, parseInt, i, key, v) <==>
              GpsClaims(lines, parseFloat, parseInt)[i] == Some((key, v))
              && !ClaimedBefore(GpsClaims(lines, parseFloat, parseInt), i, key)
  {
    var cs := GpsClaims(lines, parseFloat, parseInt);
    GpsClaimsAt(lines, parseFloat, parseInt, i);
    GpsClaimAt(lines[i], parseFloat, parseInt, key, v);
    if ClaimedBefore(cs, i, key) {
      var j :| 0 <= j < i && cs[j].Some? && cs[j].value.0 == key;
      GpsClaimsAt(lines, parseFloat, parseInt, j);
      GpsClaimAt(lines[j], parseFloat, parseInt, key, v);
    }
    if !ClaimedBefore(cs, i, key) {
      forall j | 0 <= j < i && StartsWith(Strip(lines[j]), "$GPS") && GpsEntry(Strip(lines[j]), parseFloat, parseInt).Some?
        ensures GpsEntry(Strip(lines[j]), parseFloat, parseInt).value.0 != key
      {
        GpsClaimsAt(lines, parseFloat, parseInt, j);
        GpsClaimAt(lines[j], parseFloat, parseInt, key, v);
      }
    }
  }

  /** What a line's GPS claim says, in terms of its `$GPS` tag and fields. */
  lemma GpsClaimAt(line: string, parseFloat: string -> Option<real>, parseInt: string -> Option<int>, key: string, v: real)
    ensures GpsLineClaim(line, parseFloat, parseInt) == Some((key, v)) <==>
              StartsWith(Strip(line), "$GPS") && GpsEntry(Strip(line), parseFloat, parseInt) == Some((key, v))
    ensures (GpsLineClaim(line, parseFloat, parseInt).Some? && GpsLineClaim(line, parseFloat, parseInt).value.0 == key) <==>
              StartsWith(Strip(line), "$GPS") && GpsEntry(Strip(line), parseFloat, parseInt).Some?
              && GpsEntry(Strip(line), parseFloat, parseInt).value.0 == key
  {
  }

  /** A `$NZZ` line (not taken by the GPS table), in its tag and fields. */
  predicate IsNzzLine(line: string) {
    !StartsWith(Strip(line), "$GPS") && StartsWith(Strip(line), "$NZZ")
  }

  /** Line i is a `$NZZ` line carrying (key, v), and no earlier `$NZZ` line
      carries the same key. */
  predicate FirstNzzLine(lines: seq<string>, parseFloat: string -> Option<real>, i: int, key: string, v: real) {
    0 <= i < |lines| && IsNzzLine(lines[i]) && NzzEntry(Strip(lines[i]), parseFloat) == Some((key, v))
    && forall j :: 0 <= j < i && IsNzzLine(lines[j]) && NzzEntry(Strip(lines[j]), parseFloat).Some?
                   ==> NzzEntry(Strip(lines[j]), parseFloat).value.0 != key
  }

  /** The NZZ table maps `key` to `v` exactly when some `$NZZ` line carries
      (key, v) and no earlier `$NZZ` line carries the same key. */
  lemma ReadLinesNzz(lines: seq<string>, parseFloat: string -> Option<real>, parseInt: string -> Option<int>,
                     key: string, v: real)
    ensures Lookup(ReadLines(lines, parseFloat, parseInt).nzz, key) == Some(v) <==>
              exists i :: FirstNzzLine(lines, parseFloat, i, key, v)
  {
    ReadLinesCollects(lines, parseFloat, parseInt);
    var cs := NzzClaims(lines, parseFloat);
    CollectFirst(cs, key, v);
    forall i | 0 <= i < |lines|
      ensures FirstNzzLine(lines, parseFloat, i, key, v) <==> cs[i] == Some((key, v)) && !ClaimedBefore(cs, i, key)
    {
      FirstNzzLineAt(lines, parseFloat, i, key, v);
    }
  }

  lemma FirstNzzLineAt(lines: seq<string>, parseFloat: string -> Option<real>, i: int, key: string, v: real)
    requires 0 <= i < |lines|
    ensures FirstNzzLine(lines, parseFloat, i, key, v) <==>
              NzzClaims(lines, parseFloat)[i] == Some((key, v)) && !ClaimedBefore(NzzClaims(lines, parseFloat), i, key)
  {
    var cs := NzzClaims(lines, parseFloat);
    NzzClaimsAt(lines, parseFloat, i);
    NzzClaimAt(lines[i], parseFloat, key, v);
    if ClaimedBefore(cs, i, key) {
      var j :| 0 <= j < i && cs[j].Some? && cs[j].value.0 == key;
      NzzClaimsAt(lines, parseFloat, j);
      NzzClaimAt(lines[j], parseFloat, key, v);
    }
    if !ClaimedBefore(cs, i, key) {
      forall j | 0 <= j < i && IsNzzLine(lines[j]) && NzzEntry(Strip(lines[j]), parseFloat).Some?
        ensures NzzEntry(Strip(lines[j]), parseFloat).value.0 != key
      {
        NzzClaimsAt(lines, parseFloat, j);
        NzzClaimAt(lines[j], parseFloat, key, v);
      }
    }
  }

  /** What a line's NZZ claim says, in terms of its tag and fields. */
  lemma NzzClaimAt(line: string, parseFloat: string -> Option<real>, key: string, v: real)
    ensures NzzLineClaim(line, parseFloat) == Some((key, v)) <==>
              IsNzzLine(line) && NzzEntry(Strip(line), parseFloat) == Some((key, v))
    ensures (NzzLineClaim(line, parseFloat).Some? && NzzLineClaim(line, parseFloat).value.0 == key) <==>
              IsNzzLine(line) && NzzEntry(Strip(line), parseFloat).Some? && NzzEntry(Strip(line), parseFloat).value.0 == key
  {
  }


  // ---------------------------------------------------------------------
  // Time-key normalization

  /** `_normalize_time_key`: "Y-M-D H:M:S" with month, day, hour, minute
      and second zero-padded to two characters. A key without both '-' and
      ':', or that does not split into exactly 2, 3 and 3 pieces, is
      returned as it is. */
  function NormalizeTimeKey(key: string): (r: string)
    ensures r != key ==> '-' in r && ':' in r
    ensures '-' !in key || ':' !in key ==> r == key
  {
    if '-' in key && ':' in key then
      var halves := SplitOn(key, ' ');
      if |halves| != 2 then key
      else
        var date := SplitOn(halves[0], '-');
        var time := SplitOn(halves[1], ':');
        if |date| != 3 || |time| != 3 then key
        else PaddedKey(date[0], date[1], date[2], time[0], time[1], time[2])
    else key
  }

  function PaddedKey(y: string, mo: string, d: string, h: string, mi: string, s: string): (r: string)
    ensures '-' in r && ':' in r
  {
    var dj := Join([y, ZFill(mo, 2), ZFill(d, 2)], '-');
    var tj := Join([ZFill(h, 2), ZFill(mi, 2), ZFill(s, 2)], ':');
    JoinThree(y, ZFill(mo, 2), ZFill(d, 2), '-');
    JoinThree(ZFill(h, 2), ZFill(mi, 2), ZFill(s, 2), ':');
    JoinTwo(dj, tj, ' ');
    var r := Join([dj, tj], ' ');
    assert r[|y|] == '-';
    assert r[|dj| + 1 + |ZFill(h, 2)|] == ':';
    r
  }

  /** Zero-padding adds only '0' characters. */
  lemma ZFillKeeps(s: string, w: nat, c: char)
    requires c != '0' && c !in s
    ensures c !in ZFill(s, w)
  {
    var r := ZFill(s, w);
    if |s| < w {
      var zeros := seq(w - |s|, _ => '0');
      if |s| > 0 && (s[0] == '+' || s[0] == '-') {
        assert r == [s[0]] + zeros + s[1..];
        assert forall k :: 0 <= k < |r| ==> r[k] == '0' || r[k] in s;
      } else {
        assert r == zeros + s;
        assert forall k :: 0 <= k < |r| ==> r[k] == '0' || r[k] in s;
      }
    }
  }

  lemma ZFillIdempotent(s: string, w: nat)
    ensures ZFill(ZFill(s, w), w) == ZFill(s, w)
  {
  }

  lemma JoinTwo(a: string, b: string, sep: char)
    ensures Join([a, b], sep) == a + [sep] + b
  {
    assert [a, b][1..] == [b];
  }

  lemma JoinThree(a: string, b: string, c: string, sep: char)
    ensures Join([a, b, c], sep) == a + [sep] + b + [sep] + c
  {
    assert [a, b, c][1..] == [b, c];
    JoinTwo(b, c, sep);
  }

  lemma JoinThreeKeeps(a: string, b: string, c: string, sep: char, x: char)
    requires x != sep && x !in a && x !in b && x !in c
    ensures x !in Join([a, b, c], sep)
  {
    JoinThree(a, b, c, sep);
  }

  /** Normalizing a normalized key changes nothing, so matching on
      normalized keys is insensitive to which side was already padded. */
  lemma NormalizeTimeKeyIdempotent(key: string)
    ensures NormalizeTimeKey(NormalizeTimeKey(key)) == NormalizeTimeKey(key)
  {
    if NormalizeTimeKey(key) != key {
      var halves := SplitOn(key, ' ');
      var date := SplitOn(halves[0], '-');
      var time := SplitOn(halves[1], ':');
      assert ' ' !in halves[0] && ' ' !in halves[1];
      SplitPieceFree(halves[0], '-', ' ');
      SplitPieceFree(halves[1], ':', ' ');
      PaddedKeyFixed(date[0], date[1], date[2], time[0], time[1], time[2]);
    }
  }

  /** A key built from pieces free of the separators is its own
      normalization. */
  lemma PaddedKeyFixed(y: string, mo: string, d: string, h: string, mi: string, s: string)
    requires ' ' !in y && ' ' !in mo && ' ' !in d && ' ' !in h && ' ' !in mi && ' ' !in s
    requires '-' !in y && '-' !in mo && '-' !in d
    requires ':' !in h && ':' !in mi && ':' !in s
    ensures NormalizeTimeKey(PaddedKey(y, mo, d, h, mi, s)) == PaddedKey(y, mo, d, h, mi, s)
  {
    PaddedKeySplits(y, mo, d, h, mi, s);
    ZFillIdempotent(mo, 2);
    ZFillIdempotent(d, 2);
    ZFillIdempotent(h, 2);
    ZFillIdempotent(mi, 2);
    ZFillIdempotent(s, 2);
  }

  /** A padded key splits back into its date and time halves and those
      into their padded fields. */
  lemma PaddedKeySplits(y: string, mo: string, d: string, h: string, mi: string, s: string)
    requires ' ' !in y && ' ' !in mo && ' ' !in d && ' ' !in h && ' ' !in mi && ' ' !in s
    requires '-' !in y && '-' !in mo && '-' !in d
    requires ':' !in h && ':' !in mi && ':' !in s
    ensures SplitOn(PaddedKey(y, mo, d, h, mi, s), ' ')
              == [Join([y, ZFill(mo, 2), ZFill(d, 2)], '-'), Join([ZFill(h, 2), ZFill(mi, 2), ZFill(s, 2)], ':')]
    ensures SplitOn(Join([y, ZFill(mo, 2), ZFill(d, 2)], '-'), '-') == [y, ZFill(mo, 2), ZFill(d, 2)]
    ensures SplitOn(Join([ZFill(h, 2), ZFill(mi, 2), ZFill(s, 2)], ':'), ':') == [ZFill(h, 2), ZFill(mi, 2), ZFill(s, 2)]
  {
    DateSplits(y, mo, d);
    TimeSplits(h, mi, s);
    var dj := Join([y, ZFill(mo, 2), ZFill(d, 2)], '-');
    var tj := Join([ZFill(h, 2), ZFill(mi, 2), ZFill(s, 2)], ':');
    assert PaddedKey(y, mo, d, h, mi, s) == Join([dj, tj], ' ');
    SplitJoinTwo(dj, tj, ' ');
  }

  lemma SplitJoinTwo(a: string, b: string, sep: char)
    requires sep !in a && sep !in b
    ensures SplitOn(Join([a, b], sep), sep) == [a, b]
  {
    var fs := [a, b];
    assert forall k :: 0 <= k < |fs| ==> fs[k] == a || fs[k] == b;
    SplitJoin(fs, sep);
  }

  lemma DateSplits(y: string, mo: string, d: string)
    requires ' ' !in y && ' ' !in mo && ' ' !in d
    requires '-' !in y && '-' !in mo && '-' !in d
    ensures ' ' !in Join([y, ZFill(mo, 2), ZFill(d, 2)], '-')
    ensures SplitOn(Join([y, ZFill(mo, 2), ZFill(d, 2)], '-'), '-') == [y, ZFill(mo, 2), ZFill(d, 2)]
  {
    ZFillKeeps(mo, 2, ' ');
    ZFillKeeps(d, 2, ' ');
    ZFillKeeps(mo, 2, '-');
    ZFillKeeps(d, 2, '-');
    JoinThreeKeeps(y, ZFill(mo, 2), ZFill(d, 2), '-', ' ');
    SplitJoin([y, ZFill(mo, 2), ZFill(d, 2)], '-');
  }

  lemma TimeSplits(h: string, mi: string, s: string)
    requires ' ' !in h && ' ' !in mi && ' ' !in s
    requires ':' !in h && ':' !in mi && ':' !in s
    ensures ' ' !in Join([ZFill(h, 2), ZFill(mi, 2), ZFill(s, 2)], ':')
    ensures SplitOn(Join([ZFill(h, 2), ZFill(mi, 2), ZFill(s, 2)], ':'), ':') == [ZFill(h, 2), ZFill(mi, 2), ZFill(s, 2)]
  {
    ZFillKeeps(h, 2, ' ');
    ZFillKeeps(mi, 2, ' ');
    ZFillKeeps(s, 2, ' ');
    ZFillKeeps(h, 2, ':');
    ZFillKeeps(mi, 2, ':');
    ZFillKeeps(s, 2, ':');
    JoinThreeKeeps(ZFill(h, 2), ZFill(mi, 2), ZFill(s, 2), ':', ' ');
    SplitJoin([ZFill(h, 2), ZFill(mi, 2), ZFill(s, 2)], ':');
  }



  lemma ThreeSplits(a: string, b: string, c: string, sep: char)
    requires ' ' !in a && ' ' !in b && ' ' !in c && sep != ' '
    requires sep !in a && sep !in b && sep !in c
    ensures ' ' !in Join([a, b, c], sep)
    ensures SplitOn(Join([a, b, c], sep), sep) == [a, b, c]
  {
    JoinThreeKeeps(a, b, c, sep, ' ');
    SplitJoin([a, b, c], sep);
  }

  /** A key written without zero padding, "Y-M-D H:M:S", normalizes to the
      padded key of the same pieces: month, day, hour, minute and second
      are zero-filled to two characters, the year is kept. */
  lemma NormalizeUnpadded(y: string, mo: string, d: string, h: string, mi: string, s: string)
    requires ' ' !in y && ' ' !in mo && ' ' !in d && ' ' !in h && ' ' !in mi && ' ' !in s
    requires '-' !in y && '-' !in mo && '-' !in d
    requires ':' !in h && ':' !in mi && ':' !in s
    ensures NormalizeTimeKey(y + "-" + mo + "-" + d + " " + h + ":" + mi + ":" + s) == PaddedKey(y, mo, d, h, mi, s)
  {
    var dj := Join([y, mo, d], '-');
    var tj := Join([h, mi, s], ':');
    JoinThree(y, mo, d, '-');
    JoinThree(h, mi, s, ':');
    JoinTwo(dj, tj, ' ');
    var key := y + "-" + mo + "-" + d + " " + h + ":" + mi + ":" + s;
    assert key == Join([dj, tj], ' ');
    ThreeSplits(y, mo, d, '-');
    ThreeSplits(h, mi, s, ':');
    SplitJoinTwo(dj, tj, ' ');
    assert key[|y|] == '-';
    assert key[|dj| + 1 + |h|] == ':';
  }

  /** A key without padding and the padded key of the same fields match
      after normalization. */
  lemma UnpaddedMeetsPadded(y: string, mo: string, d: string, h: string, mi: string, s: string)
    requires ' ' !in y && ' ' !in mo && ' ' !in d && ' ' !in h && ' ' !in mi && ' ' !in s
    requires '-' !in y && '-' !in mo && '-' !in d
    requires ':' !in h && ':' !in mi && ':' !in s
    ensures NormalizeTimeKey(y + "-" + mo + "-" + d + " " + h + ":" + mi + ":" + s)
              == NormalizeTimeKey(PaddedKey(y, mo, d, h, mi, s))
  {
    NormalizeUnpadded(y, mo, d, h, mi, s);
    PaddedKeyFixed(y, mo, d, h, mi, s);
  }

  lemma DigitsFree(t: string, c: char)
    requires AllDigits(t) && !IsDigit(c)
    ensures c !in t
  {
    assert forall k :: 0 <= k < |t| ==> t[k] != c;
  }

  /** The key of a GPS record with non-negative fields normalizes to the
      zero-padded key of its six integers. A negative field brings an
      extra '-' and the key is left as it is. */
  lemma GpsKeyNormalizes(y: nat, mo: nat, d: nat, h: nat, mi: nat, s: nat)
    ensures NormalizeTimeKey(GpsTimeKey(y, mo, d, h, mi, s))
              == PaddedKey(IntToString(y), IntToString(mo), IntToString(d), IntToString(h), IntToString(mi), IntToString(s))
  {
    var ys, mos, ds := IntToString(y), IntToString(mo), IntToString(d);
    var hs, mis, ss := IntToString(h), IntToString(mi), IntToString(s);
    DigitsFree(ys, ' '); DigitsFree(mos, ' '); DigitsFree(ds, ' ');
    DigitsFree(hs, ' '); DigitsFree(mis, ' '); DigitsFree(ss, ' ');
    DigitsFree(ys, '-'); DigitsFree(mos, '-'); DigitsFree(ds, '-');
    DigitsFree(hs, ':'); DigitsFree(mis, ':'); DigitsFree(ss, ':');
    NormalizeUnpadded(ys, mos, ds, hs, mis, ss);
  }

  /** The key read from a `$GPS` line whose six time fields are
      non-negative normalizes to the zero-padded form of those fields, so
      it meets an NZZ key written with padding. */
  lemma ParsedGpsKeyNormalizes(line: string, parseFloat: string -> Option<real>, parseInt: string -> Option<int>)
    requires GpsEntry(line, parseFloat, parseInt).Some?
    requires var f := PyTokens(line);
      parseInt(f[19]).value >= 0 && parseInt(f[20]).value >= 0 && parseInt(f[21]).value >= 0
      && parseInt(f[22]).value >= 0 && parseInt(f[23]).value >= 0 && parseInt(f[24]).value >= 0
    ensures var f := PyTokens(line);
      NormalizeTimeKey(GpsEntry(line, parseFloat, parseInt).value.0)
      == PaddedKey(IntToString(parseInt(f[19]).value), IntToString(parseInt(f[20]).value),
                   IntToString(parseInt(f[21]).value), IntToString(parseInt(f[22]).value),
                   IntToString(parseInt(f[23]).value), IntToString(parseInt(f[24]).value))
  {
    var f := PyTokens(line);
    GpsKeyNormalizes(parseInt(f[19]).value, parseInt(f[20]).value, parseInt(f[21]).value,
                     parseInt(f[22]).value, parseInt(f[23]).value, parseInt(f[24]).value);
  }

  /** A piece of `s` split on `sep` has no character that `s` lacks. */
  lemma {:induction false} SplitPieceFree(s: string, sep: char, c: char)
    requires c !in s
    ensures forall k :: 0 <= k < |SplitOn(s, sep)| ==> c !in SplitOn(s, sep)[k]
    decreases |s|
  {
    var i := IndexOf(s, sep);
    if i < |s| {
      assert c !in s[i + 1..];
      SplitPieceFree(s[i + 1..], sep, c);
      assert c !in s[..i];
    }
  }

  // ---------------------------------------------------------------------
  // Matching

  /** The heading of the first NZZ entry whose normalized key equals `gn`. */
  function FirstNormalizedMatch(nzz: Entries<real>, gn: string): (r: Option<real>)
    ensures r.Some? ==> exists k :: 0 <= k < |nzz| && NormalizeTimeKey(nzz[k].0) == gn && nzz[k].1 == r.value
                                 && forall j :: 0 <= j < k ==> NormalizeTimeKey(nzz[j].0) != gn
    ensures r.None? ==> forall k :: 0 <= k < |nzz| ==> NormalizeTimeKey(nzz[k].0) != gn
  {
    if |nzz| == 0 then None
    else if NormalizeTimeKey(nzz[0].0) == gn then Some(nzz[0].1)
    else
      var r := FirstNormalizedMatch(nzz[1..], gn);
      FirstNormalizedShift(nzz, nzz[1..], gn, r);
      r
  }

  /** A first match in the tail is a first match in the whole when the
      head does not match. */
  lemma FirstNormalizedShift(nzz: Entries<real>, tail: Entries<real>, gn: string, r: Option<real>)
    requires |nzz| > 0 && tail == nzz[1..] && NormalizeTimeKey(nzz[0].0) != gn
    requires r.Some? ==> exists k :: 0 <= k < |tail| && NormalizeTimeKey(tail[k].0) == gn && tail[k].1 == r.value
                                    && forall j :: 0 <= j < k ==> NormalizeTimeKey(tail[j].0) != gn
    requires r.None? ==> forall k :: 0 <= k < |tail| ==> NormalizeTimeKey(tail[k].0) != gn
    ensures r.Some? ==> exists k :: 0 <= k < |nzz| && NormalizeTimeKey(nzz[k].0) == gn && nzz[k].1 == r.value
                                  && forall j :: 0 <= j < k ==> NormalizeTimeKey(nzz[j].0) != gn
    ensures r.None? ==> forall k :: 0 <= k < |nzz| ==> NormalizeTimeKey(nzz[k].0) != gn
  {
    if r.Some? {
      var k :| 0 <= k < |tail| && NormalizeTimeKey(tail[k].0) == gn && tail[k].1 == r.value
               && forall j :: 0 <= j < k ==> NormalizeTimeKey(tail[j].0) != gn;
      MissesShift(nzz, tail, NormalizeTimeKey, gn, k);
      assert nzz[k + 1] == tail[k];
    } else {
      MissesShift(nzz, tail, NormalizeTimeKey, gn, |tail|);
    }
  }

  /** No key among the first k of the tail maps to `gn` under `norm`, nor
      the head: then none among the first k + 1 of the whole does. */
  lemma MissesShift(nzz: Entries<real>, tail: Entries<real>, norm: string -> string, gn: string, k: nat)
    requires |nzz| > 0 && tail == nzz[1..] && norm(nzz[0].0) != gn && k <= |tail|
    requires forall j :: 0 <= j < k ==> norm(tail[j].0) != gn
    ensures forall j :: 0 <= j < k + 1 ==> norm(nzz[j].0) != gn
  {
    forall j | 0 <= j < k + 1
      ensures norm(nzz[j].0) != gn
    {
      if j > 0 {
        assert nzz[j] == tail[j - 1];
      }
    }
  }

  /** The heading a GPS second is paired with: the NZZ record with the very
      same key, else the first whose normalized key agrees. */
  function MatchOne(nzz: Entries<real>, gpsKey: string): (r: Option<real>)
    ensures HasKey(nzz, gpsKey) ==> r == Lookup(nzz, gpsKey)
    ensures !HasKey(nzz, gpsKey) ==> r == FirstNormalizedMatch(nzz, NormalizeTimeKey(gpsKey))
  {
    match Lookup(nzz, gpsKey)
    case Some(h) => Some(h)
    case None => FirstNormalizedMatch(nzz, NormalizeTimeKey(gpsKey))
  }

  /** One sample per GPS second that has a heading, in GPS table order. */
  function MatchEntries(gps: Entries<real>, nzz: Entries<real>): (r: seq<Sample>)
    ensures |r| <= |gps|
    decreases |gps|
  {
    if |gps| == 0 then []
    else
      var rest := MatchEntries(gps[1..], nzz);
      match MatchOne(nzz, gps[0].0)
      case Some(h) => [Sample(gps[0].1, h)] + rest
      case None => rest
  }

  /** Every position of `idx` holds a GPS entry that finds a heading. */
  predicate PositionsValid(gps: Entries<real>, nzz: Entries<real>, idx: seq<nat>) {
    forall j :: 0 <= j < |idx| ==> idx[j] < |gps| && MatchOne(nzz, gps[idx[j]].0).Some?
  }

  /** Every GPS entry that finds a heading has its position in `idx`. */
  predicate PositionsCovered(gps: Entries<real>, nzz: Entries<real>, idx: seq<nat>) {
    forall k :: 0 <= k < |gps| && MatchOne(nzz, gps[k].0).Some? ==> k in idx
  }

  /** `idx` lists exactly the positions of the GPS entries that find a
      heading, in increasing order. */
  predicate IsMatchList(gps: Entries<real>, nzz: Entries<real>, idx: seq<nat>) {
    PositionsValid(gps, nzz, idx) && Ascending(idx) && PositionsCovered(gps, nzz, idx)
  }

  /** The positions of the GPS entries that find a heading. */
  function MatchedPositions(gps: Entries<real>, nzz: Entries<real>): (idx: seq<nat>)
    ensures IsMatchList(gps, nzz, idx)
    decreases |gps|
  {
    if |gps| == 0 then []
    else
      var init := gps[..|gps| - 1];
      var p := MatchedPositions(init, nzz);
      var n := |gps| - 1;
      PositionsValidLift(gps, init, nzz, p);
      PositionsCoveredLift(gps, init, nzz, p);
      if MatchOne(nzz, gps[n].0).Some? then
        PositionsValidAppend(gps, nzz, p, n);
        AscendingAppend(p, n);
        PositionsCoveredAppend(gps, nzz, p, n);
        p + [n]
      else p
  }

  lemma PositionsValidLift(gps: Entries<real>, init: Entries<real>, nzz: Entries<real>, p: seq<nat>)
    requires |gps| >= 1 && init == gps[..|gps| - 1] && PositionsValid(init, nzz, p)
    ensures PositionsValid(gps, nzz, p)
    ensures forall j :: 0 <= j < |p| ==> p[j] < |gps| - 1
  {
    forall j | 0 <= j < |p|
      ensures p[j] < |gps| - 1 && MatchOne(nzz, gps[p[j]].0).Some?
    {
      assert gps[p[j]] == init[p[j]];
    }
  }

  lemma PositionsCoveredLift(gps: Entries<real>, init: Entries<real>, nzz: Entries<real>, p: seq<nat>)
    requires |gps| >= 1 && init == gps[..|gps| - 1] && PositionsCovered(init, nzz, p)
    ensures forall k :: 0 <= k < |gps| - 1 && MatchOne(nzz, gps[k].0).Some? ==> k in p
  {
    forall k | 0 <= k < |gps| - 1 && MatchOne(nzz, gps[k].0).Some?
      ensures k in p
    {
      assert init[k] == gps[k];
    }
  }

  lemma PositionsValidAppend(gps: Entries<real>, nzz: Entries<real>, p: seq<nat>, n: nat)
    requires PositionsValid(gps, nzz, p) && n < |gps| && MatchOne(nzz, gps[n].0).Some?
    ensures PositionsValid(gps, nzz, p + [n])
  {
    var q := p + [n];
    forall j | 0 <= j < |q|
      ensures q[j] < |gps| && MatchOne(nzz, gps[q[j]].0).Some?
    {
      if j < |p| {
        assert q[j] == p[j];
      }
    }
  }

  lemma PositionsCoveredAppend(gps: Entries<real>, nzz: Entries<real>, p: seq<nat>, n: nat)
    requires n == |gps| - 1 && forall k :: 0 <= k < n && MatchOne(nzz, gps[k].0).Some? ==> k in p
    ensures PositionsCovered(gps, nzz, p + [n])
  {
    var q := p + [n];
    forall k | 0 <= k < |gps| && MatchOne(nzz, gps[k].0).Some?
      ensures k in q
    {
      if k < n {
        assert k in p;
        var j :| 0 <= j < |p| && p[j] == k;
        assert q[j] == k;
      } else {
        assert q[|p|] == n;
      }
    }
  }

  /** The sample of one GPS entry, if it finds a heading. */
  function EntrySample(nzz: Entries<real>, e: (string, real)): seq<Sample> {
    match MatchOne(nzz, e.0)
    case Some(h) => [Sample(e.1, h)]
    case None => []
  }

  lemma {:induction false} MatchEntriesSnoc(gps: Entries<real>, e: (string, real), nzz: Entries<real>)
    ensures MatchEntries(gps + [e], nzz) == MatchEntries(gps, nzz) + EntrySample(nzz, e)
    decreases |gps|
  {
    if |gps| == 0 {
      assert [e][1..] == [];
    } else {
      assert (gps + [e])[1..] == gps[1..] + [e];
      MatchEntriesSnoc(gps[1..], e, nzz);
    }
  }

  /** Sample j is (GPS time, found heading) of the entry at position
      idx[j]. */
  predicate SamplesAtPositions(gps: Entries<real>, nzz: Entries<real>, idx: seq<nat>, r: seq<Sample>) {
    && |r| == |idx|
    && forall j :: 0 <= j < |idx| ==>
         idx[j] < |gps| && MatchOne(nzz, gps[idx[j]].0).Some?
         && r[j] == Sample(gps[idx[j]].1, MatchOne(nzz, gps[idx[j]].0).value)
  }

  /** Sample j of the matching is the GPS entry at the j-th matched
      position, stamped with its GPS time and carrying the heading its key
      finds: every entry that finds a heading gives one sample, in GPS
      order, and no other entry gives one. */
  lemma {:induction false} MatchEntriesAtPositions(gps: Entries<real>, nzz: Entries<real>)
    ensures SamplesAtPositions(gps, nzz, MatchedPositions(gps, nzz), MatchEntries(gps, nzz))
    decreases |gps|
  {
    if |gps| > 0 {
      var init := gps[..|gps| - 1];
      MatchEntriesAtPositions(init, nzz);
      SamplesSnoc(init, gps[|gps| - 1], nzz, gps);
    }
  }

  lemma MatchedPositionsSnoc(init: Entries<real>, e: (string, real), nzz: Entries<real>, g: Entries<real>)
    requires |g| > 0 && init == g[..|g| - 1] && e == g[|g| - 1]
    ensures MatchedPositions(g, nzz)
            == MatchedPositions(init, nzz) + (if MatchOne(nzz, e.0).Some? then [|init|] else [])
  {
  }

  lemma EntriesSplit(g: Entries<real>, init: Entries<real>, e: (string, real))
    requires |g| > 0 && init == g[..|g| - 1] && e == g[|g| - 1]
    ensures g == init + [e]
  {
  }

  lemma SamplesSnoc(init: Entries<real>, e: (string, real), nzz: Entries<real>, g: Entries<real>)
    requires |g| > 0 && init == g[..|g| - 1] && e == g[|g| - 1]
    requires SamplesAtPositions(init, nzz, MatchedPositions(init, nzz), MatchEntries(init, nzz))
    ensures SamplesAtPositions(g, nzz, MatchedPositions(g, nzz), MatchEntries(g, nzz))
  {
    var p := MatchedPositions(init, nzz);
    var r := MatchEntries(init, nzz);
    MatchedPositionsSnoc(init, e, nzz, g);
    MatchEntriesSnoc(init, e, nzz);
    EntriesSplit(g, init, e);
    SamplesLift(g, init, nzz, p, r);
    if MatchOne(nzz, e.0).Some? {
      assert g[|init|] == e;
      SamplesAppend(g, nzz, p, r, |init|);
    } else {
      assert EntrySample(nzz, e) == [];
      assert r + EntrySample(nzz, e) == r;
    }
  }

  lemma SamplesLift(gps: Entries<real>, init: Entries<real>, nzz: Entries<real>, p: seq<nat>, r: seq<Sample>)
    requires |gps| >= 1 && init == gps[..|gps| - 1] && SamplesAtPositions(init, nzz, p, r)
    ensures SamplesAtPositions(gps, nzz, p, r)
  {
    forall j | 0 <= j < |p|
      ensures p[j] < |gps| && MatchOne(nzz, gps[p[j]].0).Some?
              && r[j] == Sample(gps[p[j]].1, MatchOne(nzz, gps[p[j]].0).value)
    {
      assert gps[p[j]] == init[p[j]];
    }
  }

  lemma SamplesAppend(gps: Entries<real>, nzz: Entries<real>, p: seq<nat>, r: seq<Sample>, n: nat)
    requires SamplesAtPositions(gps, nzz, p, r) && n < |gps| && MatchOne(nzz, gps[n].0).Some?
    ensures SamplesAtPositions(gps, nzz, p + [n], r + EntrySample(nzz, gps[n]))
  {
    var q := p + [n];
    var r2 := r + EntrySample(nzz, gps[n]);
    assert EntrySample(nzz, gps[n]) == [Sample(gps[n].1, MatchOne(nzz, gps[n].0).value)];
    forall j | 0 <= j < |q|
      ensures q[j] < |gps| && MatchOne(nzz, gps[q[j]].0).Some?
              && r2[j] == Sample(gps[q[j]].1, MatchOne(nzz, gps[q[j]].0).value)
    {
      if j < |p| {
        assert q[j] == p[j] && r2[j] == r[j];
      }
    }
  }

  /** When every GPS second has an NZZ record under the same key, every
      GPS second yields exactly its own sample. */
  lemma {:induction false} MatchEntriesExact(gps: Entries<real>, nzz: Entries<real>)
    requires forall k :: 0 <= k < |gps| ==> HasKey(nzz, gps[k].0)
    ensures |MatchEntries(gps, nzz)| == |gps|
    ensures forall k :: 0 <= k < |gps| ==> MatchEntries(gps, nzz)[k] == Sample(gps[k].1, Lookup(nzz, gps[k].0).value)
    decreases |gps|
  {
    if |gps| > 0 {
      assert forall k :: 0 <= k < |gps[1..]| ==> gps[1..][k] == gps[k + 1];
      MatchEntriesExact(gps[1..], nzz);
      assert HasKey(nzz, gps[0].0);
    }
  }

  /** A GPS second whose key has no match, exact or normalized, yields no
      sample. */
  lemma {:induction false} MatchEntriesUnmatched(gps: Entries<real>, nzz: Entries<real>)
    requires forall k :: 0 <= k < |gps| ==> MatchOne(nzz, gps[k].0).None?
    ensures MatchEntries(gps, nzz) == []
    decreases |gps|
  {
    if |gps| > 0 {
      assert forall k :: 0 <= k < |gps[1..]| ==> gps[1..][k] == gps[k + 1];
      MatchEntriesUnmatched(gps[1..], nzz);
      assert MatchOne(nzz, gps[0].0).None?;
    }
  }

  /** `_match_gps_nzz_data`: the matched samples in stable timestamp order. */
  function MatchGpsNzz(gps: Entries<real>, nzz: Entries<real>): (r: seq<Sample>)
    ensures SortedByTime(r)
    ensures multiset(r) == multiset(MatchEntries(gps, nzz))
    ensures |r| <= |gps|
  {
    SortByTime(MatchEntries(gps, nzz))
  }

  /** `parse_log_data`: a file that cannot be read gives no samples. */
  function ParseLogData(file: Option<seq<string>>, parseFloat: string -> Option<real>, parseInt: string -> Option<int>): (r: seq<Sample>)
    ensures file.None? ==> r == []
    ensures SortedByTime(r)
    ensures file.Some? ==> |r| <= |file.value|
    ensures file.Some? ==>
              multiset(r) == multiset(MatchEntries(ReadLines(file.value, parseFloat, parseInt).gps,
                                                   ReadLines(file.value, parseFloat, parseInt).nzz))
  {
    match file
    case None => []
    case Some(lines) =>
      var t := ReadLines(lines, parseFloat, parseInt);
      MatchGpsNzz(t.gps, t.nzz)
  }
}

=== FILE: text.dfy ===
/** String helpers shared by the log readers and the result-file readers:
    whitespace stripping, prefix and substring tests, splitting on one
    separator (Python's `str.split(sep)`), splitting on runs of whitespace
    (Python's `str.split()` and C++'s `stream >> field`, which disagree on
    what whitespace is), and decimal
    rendering of integers (Python's `str(int)` and C++'s `std::to_string`). */
module Text {

  /** The whitespace characters of C's `isspace` in the "C" locale. */
  predicate IsSpace(c: char) {
    c == ' ' || c == '\t' || c == '\n' || c == '\r' || c == '\U{000B}' || c == '\U{000C}'
  }

  /** The whitespace of Python's `str.strip()` and `str.split()`: C's six
      characters, the four information separators U+001C..U+001F, NEXT
      LINE, NO-BREAK SPACE and the other Unicode space and line/paragraph
      separators. */
  predicate PyIsSpace(c: char) {
    IsSpace(c) || '\U{001C}' <= c <= '\U{001F}' || c == '\U{0085}' || c == '\U{00A0}' || c == '\U{1680}'
    || '\U{2000}' <= c <= '\U{200A}' || c == '\U{2028}' || c == '\U{2029}' || c == '\U{202F}'
    || c == '\U{205F}' || c == '\U{3000}'
  }

  /** Whitespace to Python that C's `isspace` does not treat as such. */
  predicate PyOnlySpace(c: char) {
    PyIsSpace(c) && !IsSpace(c)
  }

  /** Blank and tab, the only characters the FBK reader trims. */
  predicate IsBlankOrTab(c: char) {
    c == ' ' || c == '\t'
  }

  predicate IsDigit(c: char) {
    '0' <= c <= '9'
  }

  predicate AllDigits(s: string) {
    forall k :: 0 <= k < |s| ==> IsDigit(s[k])
  }

  /** Index of the first character satisfying `p`, or |s| when there is none. */
  function FirstWhere(s: string, p: char -> bool): (r: nat)
    ensures r <= |s|
    ensures forall k :: 0 <= k < r ==> !p(s[k])
    ensures r < |s| ==> p(s[r])
  {
    if |s| == 0 then 0
    else if p(s[0]) then 0
    else 1 + FirstWhere(s[1..], p)
  }

  /** Index of the first occurrence of `c`, or |s| when `c` does not occur. */
  function IndexOf(s: string, c: char): (r: nat)
    ensures r <= |s|
    ensures forall k :: 0 <= k < r ==> s[k] != c
    ensures r < |s| ==> s[r] == c
    ensures r == |s| <==> c !in s
  {
    if |s| == 0 then 0
    else if s[0] == c then 0
    else 1 + IndexOf(s[1..], c)
  }

  /** `s` with its leading characters satisfying `p` removed. */
  function TrimLeft(s: string, p: char -> bool): (r: string)
    ensures |r| <= |s|
    ensures |r| > 0 ==> !p(r[0])
  {
    if |s| > 0 && p(s[0]) then TrimLeft(s[1..], p) else s
  }

  /** `s` with its trailing characters satisfying `p` removed. */
  function TrimRight(s: string, p: char -> bool): (r: string)
    ensures |r| <= |s|
    ensures |r| > 0 ==> !p(r[|r| - 1])
  {
    if |s| > 0 && p(s[|s| - 1]) then TrimRight(s[..|s| - 1], p) else s
  }

  /** Trimming on the left keeps a suffix. */
  lemma {:induction false} TrimLeftSuffix(s: string, p: char -> bool)
    ensures TrimLeft(s, p) == s[|s| - |TrimLeft(s, p)|..]
    decreases |s|
  {
    if |s| > 0 && p(s[0]) {
      TrimLeftSuffix(s[1..], p);
    }
  }

  /** Trimming on the right keeps a prefix. */
  lemma {:induction false} TrimRightPrefix(s: string, p: char -> bool)
    ensures TrimRight(s, p) == s[..|TrimRight(s, p)|]
    decreases |s|
  {
    if |s| > 0 && p(s[|s| - 1]) {
      TrimRightPrefix(s[..|s| - 1], p);
    }
  }

  /** Python's `str.strip()`. */
  function Strip(s: string): string {
    TrimRight(TrimLeft(s, PyIsSpace), PyIsSpace)
  }

  /** C++ trimming with `find_first_not_of(" \t")` / `find_last_not_of(" \t")`. */
  function TrimBlanks(s: string): string {
    TrimRight(TrimLeft(s, IsBlankOrTab), IsBlankOrTab)
  }

  predicate StartsWith(s: string, prefix: string) {
    |prefix| <= |s| && s[..|prefix|] == prefix
  }

  /** Python's `pat in s` for strings. */
  predicate Contains(s: string, pat: string)
    decreases |s|
  {
    StartsWith(s, pat) || (|s| > 0 && Contains(s[1..], pat))
  }

  /** Python's `s.replace(pat, "")`: every non-overlapping occurrence of
      `pat`, scanning from the left, is deleted. */
  function RemoveAll(s: string, pat: string): (r: string)
    requires |pat| > 0
    ensures |r| <= |s|
    decreases |s|
  {
    if |s| == 0 then ""
    else if StartsWith(s, pat) then RemoveAll(s[|pat|..], pat)
    else [s[0]] + RemoveAll(s[1..], pat)
  }

  /** Python's `s.split(sep)` for a one-character separator: the pieces
      between separators, in order, always at least one. */
  function SplitOn(s: string, sep: char): (parts: seq<string>)
    ensures |parts| >= 1
    ensures forall k :: 0 <= k < |parts| ==> sep !in parts[k]
    decreases |s|
  {
    var i := IndexOf(s, sep);
    if i == |s| then [s] else [s[..i]] + SplitOn(s[i + 1..], sep)
  }

  /** Python's `sep.join(parts)`. */
  function Join(parts: seq<string>, sep: char): string
    requires |parts| >= 1
  {
    if |parts| == 1 then parts[0] else parts[0] + [sep] + Join(parts[1..], sep)
  }

  lemma SplitHead(p: string, rest: string, sep: char)
    requires sep !in p
    ensures SplitOn(p + [sep] + rest, sep) == [p] + SplitOn(rest, sep)
  {
    var s := p + [sep] + rest;
    assert s[|p|] == sep;
    assert forall k :: 0 <= k < |p| ==> s[k] == p[k];
    assert IndexOf(s, sep) == |p|;
    assert s[..|p|] == p;
    assert s[|p| + 1..] == rest;
  }

  /** Splitting a joined list gives the list back when no piece contains
      the separator. */
  lemma {:induction false} SplitJoin(parts: seq<string>, sep: char)
    requires |parts| >= 1
    requires forall k :: 0 <= k < |parts| ==> sep !in parts[k]
    ensures SplitOn(Join(parts, sep), sep) == parts
    decreases |parts|
  {
    if |parts| == 1 {
      assert IndexOf(parts[0], sep) == |parts[0]|;
    } else {
      SplitJoin(parts[1..], sep);
      SplitHead(parts[0], Join(parts[1..], sep), sep);
      assert [parts[0]] + parts[1..] == parts;
    }
  }

  /** Stripping leaves a line alone when it neither starts nor ends with
      whitespace. */
  lemma StripNoSpace(s: string)
    requires |s| > 0 && !PyIsSpace(s[0]) && !PyIsSpace(s[|s| - 1])
    ensures Strip(s) == s
  {
  }

  /** A joined line starts with its first piece and ends with its last. */
  lemma {:induction false} JoinStartsAndEnds(parts: seq<string>, sep: char)
    requires |parts| >= 1 && |parts[0]| > 0 && |parts[|parts| - 1]| > 0
    ensures |Join(parts, sep)| > 0
    ensures Join(parts, sep)[0] == parts[0][0]
    ensures Join(parts, sep)[|Join(parts, sep)| - 1] == parts[|parts| - 1][|parts[|parts| - 1]| - 1]
    decreases |parts|
  {
    if |parts| > 1 {
      var rest := parts[1..];
      assert rest[|rest| - 1] == parts[|parts| - 1];
      if |rest| > 1 {
        assert |rest[0]| >= 0;
      }
      JoinStartsAndEndsTail(rest, sep);
    }
  }

  lemma {:induction false} JoinStartsAndEndsTail(parts: seq<string>, sep: char)
    requires |parts| >= 1 && |parts[|parts| - 1]| > 0
    ensures |Join(parts, sep)| > 0
    ensures Join(parts, sep)[|Join(parts, sep)| - 1] == parts[|parts| - 1][|parts[|parts| - 1]| - 1]
    decreases |parts|
  {
    if |parts| > 1 {
      var rest := parts[1..];
      assert rest[|rest| - 1] == parts[|parts| - 1];
      JoinStartsAndEndsTail(rest, sep);
    }
  }

  /** A line joined from separator-free fields, starting and ending with
      a non-space, is unchanged by stripping and splits back into its
      fields. */
  lemma JoinedFields(fs: seq<string>, sep: char)
    requires |fs| >= 1
    requires forall k :: 0 <= k < |fs| ==> sep !in fs[k]
    requires |fs[0]| > 0 && !PyIsSpace(fs[0][0])
    requires |fs[|fs| - 1]| > 0 && !PyIsSpace(fs[|fs| - 1][|fs[|fs| - 1]| - 1])
    ensures Strip(Join(fs, sep)) == Join(fs, sep)
    ensures SplitOn(Join(fs, sep), sep) == fs
    ensures |Join(fs, sep)| > 0 && Join(fs, sep)[0] == fs[0][0]
  {
    SplitJoin(fs, sep);
    JoinStartsAndEnds(fs, sep);
    StripNoSpace(Join(fs, sep));
  }

  /** The maximal runs of characters that `sp` does not call whitespace. */
  function Fields(s: string, sp: char -> bool): (toks: seq<string>)
    ensures forall k :: 0 <= k < |toks| ==> |toks[k]| > 0
    decreases |s|
  {
    var t := TrimLeft(s, sp);
    if |t| == 0 then []
    else
      var i := FirstWhere(t, sp);
      [t[..i]] + Fields(t[i..], sp)
  }

  /** The fields a C++ `while (ss >> field)` loop reads. */
  function Tokens(s: string): (toks: seq<string>)
    ensures forall k :: 0 <= k < |toks| ==> |toks[k]| > 0 && forall j :: 0 <= j < |toks[k]| ==> !IsSpace(toks[k][j])
  {
    FieldsFree(s, IsSpace);
    Fields(s, IsSpace)
  }

  /** Python's `s.split()` without arguments. */
  function PyTokens(s: string): (toks: seq<string>)
    ensures forall k :: 0 <= k < |toks| ==> |toks[k]| > 0 && forall j :: 0 <= j < |toks[k]| ==> !PyIsSpace(toks[k][j])
  {
    FieldsFree(s, PyIsSpace);
    Fields(s, PyIsSpace)
  }

  /** No field contains whitespace. */
  lemma {:induction false} FieldsFree(s: string, sp: char -> bool)
    ensures forall k, j :: 0 <= k < |Fields(s, sp)| && 0 <= j < |Fields(s, sp)[k]| ==> !sp(Fields(s, sp)[k][j])
    decreases |s|
  {
    var t := TrimLeft(s, sp);
    if |t| > 0 {
      var i := FirstWhere(t, sp);
      TrimLeftSuffix(s, sp);
      FieldsFree(t[i..], sp);
      assert Fields(s, sp) == [t[..i]] + Fields(t[i..], sp);
    }
  }

  lemma {:induction false} TrimLeftAgree(s: string, p: char -> bool, q: char -> bool)
    requires forall k :: 0 <= k < |s| ==> p(s[k]) == q(s[k])
    ensures TrimLeft(s, p) == TrimLeft(s, q)
    decreases |s|
  {
    if |s| > 0 {
      TrimLeftAgree(s[1..], p, q);
    }
  }

  lemma {:induction false} FirstWhereAgree(s: string, p: char -> bool, q: char -> bool)
    requires forall k :: 0 <= k < |s| ==> p(s[k]) == q(s[k])
    ensures FirstWhere(s, p) == FirstWhere(s, q)
    decreases |s|
  {
    if |s| > 0 {
      FirstWhereAgree(s[1..], p, q);
    }
  }

  /** Two notions of whitespace that agree on every character of `s`
      split it alike. */
  lemma {:induction false} FieldsAgree(s: string, p: char -> bool, q: char -> bool)
    requires forall k :: 0 <= k < |s| ==> p(s[k]) == q(s[k])
    ensures Fields(s, p) == Fields(s, q)
    decreases |s|
  {
    TrimLeftAgree(s, p, q);
    TrimLeftSuffix(s, p);
    var t := TrimLeft(s, p);
    if |t| > 0 {
      FirstWhereAgree(t, p, q);
      var i := FirstWhere(t, p);
      FieldsAgree(t[i..], p, q);
    }
  }

  /** Python and C++ split a line alike unless it holds whitespace that
      only Python recognises. */
  lemma TokensAgree(s: string)
    requires forall k :: 0 <= k < |s| ==> !PyOnlySpace(s[k])
    ensures PyTokens(s) == Tokens(s)
  {
    FieldsAgree(s, PyIsSpace, IsSpace);
  }

  /** A no-break space separates fields for Python but not for C++. */
  lemma NoBreakSpaceSplitsOnlyInPython()
    ensures |PyTokens("a\U{00A0}b")| == 2
    ensures |Tokens("a\U{00A0}b")| == 1
  {
    var s := "a\U{00A0}b";
    assert TrimLeft(s, PyIsSpace) == s;
    assert FirstWhere(s, PyIsSpace) == 1;
    assert TrimLeft(s[1..], PyIsSpace) == "b";
    assert TrimLeft(s, IsSpace) == s;
    assert FirstWhere(s, IsSpace) == 3;
  }

  /** What `std::getline` returns after one `ss >> token` read: the text
      following the first whitespace-delimited token. */
  function AfterFirstToken(s: string): string {
    var t := TrimLeft(s, IsSpace);
    t[FirstWhere(t, IsSpace)..]
  }

  /** Python's `str.rstrip(c)` for one character. */
  function TrimRightChar(s: string, c: char): string {
    TrimRight(s, (x: char) => x == c)
  }

  /** Python's `str.zfill(width)`: left-pad with '0' up to `width`,
      keeping a leading sign in front of the padding. */
  function ZFill(s: string, width: nat): (r: string)
    ensures |r| == if |s| >= width then |s| else width
  {
    if |s| >= width then s
    else
      var zeros := seq(width - |s|, _ => '0');
      if |s| > 0 && (s[0] == '+' || s[0] == '-') then [s[0]] + zeros + s[1..]
      else zeros + s
  }

  function DigitChar(d: nat): (c: char)
    requires d < 10
    ensures IsDigit(c)
    ensures (c as int) - ('0' as int) == d
  {
    "0123456789"[d]
  }

  /** Decimal digits of `n` without leading zeros ("0" for zero). */
  function NatToString(n: nat): (s: string)
    ensures |s| >= 1
    ensures AllDigits(s)
    ensures n > 0 ==> s[0] != '0'
    decreases n
  {
    if n < 10 then [DigitChar(n)] else NatToString(n / 10) + [DigitChar(n % 10)]
  }

  /** Python's `str(i)` and C++'s `std::to_string(i)` for integers. */
  function IntToString(i: int): (s: string)
    ensures |s| >= 1
    ensures i >= 0 ==> AllDigits(s)
    ensures i < 0 ==> s[0] == '-' && AllDigits(s[1..])
  {
    if i < 0 then "-" + NatToString(-i) else NatToString(i)
  }

  /** The value of a string of decimal digits. */
  function DigitsValue(s: string): nat
    requires AllDigits(s)
  {
    if |s| == 0 then 0 else DigitsValue(s[..|s| - 1]) * 10 + ((s[|s| - 1] as int) - ('0' as int))
  }

  lemma {:induction false} DigitsValueOfNatToString(n: nat)
    ensures DigitsValue(NatToString(n)) == n
    decreases n
  {
    if n >= 10 {
      DigitsValueOfNatToString(n / 10);
      var s := NatToString(n);
      assert s[..|s| - 1] == NatToString(n / 10);
    }
  }

  /** Reading back a rendered integer as an optional '-' and its digits
      gives the integer. */
  lemma IntToStringDigits(i: int)
    ensures i >= 0 ==> DigitsValue(IntToString(i)) == i
    ensures i < 0 ==> DigitsValue(IntToString(i)[1..]) == -i
  {
    if i < 0 {
      DigitsValueOfNatToString(-i);
      assert IntToString(i)[1..] == NatToString(-i);
    } else {
      DigitsValueOfNatToString(i);
    }
  }
}

=== FILE: turn_rates.dfy ===
/** The rate estimator and the smoother of the turn-detection pipeline:
    Python `calculate_turn_rates` / `smooth_turn_rates` and C++
    `CalculateTurnRates` / `SmoothTurnRates`. */
module RateSeries {
  import opened Heading

  /** A turn rate in degrees per second, stamped with the later sample. */
  datatype RatePoint = RatePoint(t: real, rate: real)

  /** The rate of one sample pair whose time step is positive. */
  function PairRate(prev: Sample, curr: Sample): RatePoint
    requires curr.t - prev.t > 0.0
  {
    RatePoint(curr.t, NormalizeHeadingDiff(prev.heading, curr.heading) / (curr.t - prev.t))
  }

  /** One rate point per consecutive pair with a positive time step, in
      input order; a pair whose time step is zero or negative is skipped. */
  function TurnRates(s: seq<Sample>): (r: seq<RatePoint>)
    ensures |r| <= if |s| == 0 then 0 else |s| - 1
    ensures |s| < 2 ==> r == []
    decreases |s|
  {
    if |s| < 2 then []
    else
      var prev := s[|s| - 2];
      var curr := s[|s| - 1];
      TurnRates(s[..|s| - 1]) + (if curr.t - prev.t <= 0.0 then [] else [PairRate(prev, curr)])
  }

  /** Every index of `idx` follows a positive time step of `s`. */
  predicate StepsValid(s: seq<Sample>, idx: seq<nat>) {
    forall k :: 0 <= k < |idx| ==> 1 <= idx[k] < |s| && s[idx[k] - 1].t < s[idx[k]].t
  }

  predicate Ascending(idx: seq<nat>) {
    forall k, l :: 0 <= k < l < |idx| ==> idx[k] < idx[l]
  }

  /** Every positive time step of `s` is listed in `idx`. */
  predicate StepsCovered(s: seq<Sample>, idx: seq<nat>) {
    forall i :: 1 <= i < |s| && s[i - 1].t < s[i].t ==> i in idx
  }

  /** `idx` lists exactly the indices i of the samples that follow a
      positive time step (s[i-1].t < s[i].t), in increasing order. */
  predicate IsStepList(s: seq<Sample>, idx: seq<nat>) {
    StepsValid(s, idx) && Ascending(idx) && StepsCovered(s, idx)
  }

  /** The positive time steps of `s`. */
  function PositiveSteps(s: seq<Sample>): (idx: seq<nat>)
    ensures IsStepList(s, idx)
    decreases |s|
  {
    if |s| < 2 then []
    else
      var init := s[..|s| - 1];
      var p := PositiveSteps(init);
      var n := |s| - 1;
      StepsValidLift(s, init, p);
      StepsCoveredLift(s, init, p);
      if s[n - 1].t < s[n].t then
        StepsValidAppend(s, p, n);
        AscendingAppend(p, n);
        StepsCoveredAppend(s, p, n);
        p + [n]
      else p
  }

  lemma StepsValidLift(s: seq<Sample>, init: seq<Sample>, p: seq<nat>)
    requires |s| >= 1 && init == s[..|s| - 1] && StepsValid(init, p)
    ensures StepsValid(s, p)
  {
    forall k | 0 <= k < |p|
      ensures 1 <= p[k] < |s| && s[p[k] - 1].t < s[p[k]].t
    {
      assert s[p[k] - 1] == init[p[k] - 1] && s[p[k]] == init[p[k]];
    }
  }

  /** The steps of `s` before its last one are those of `init`. */
  lemma StepsCoveredLift(s: seq<Sample>, init: seq<Sample>, p: seq<nat>)
    requires |s| >= 1 && init == s[..|s| - 1] && StepsCovered(init, p)
    ensures forall i :: 1 <= i < |s| - 1 && s[i - 1].t < s[i].t ==> i in p
  {
    forall i | 1 <= i < |s| - 1 && s[i - 1].t < s[i].t
      ensures i in p
    {
      assert init[i - 1] == s[i - 1] && init[i] == s[i];
    }
  }

  lemma StepsValidAppend(s: seq<Sample>, p: seq<nat>, n: nat)
    requires StepsValid(s, p) && 1 <= n < |s| && s[n - 1].t < s[n].t
    ensures StepsValid(s, p + [n])
  {
    var q := p + [n];
    forall k | 0 <= k < |q|
      ensures 1 <= q[k] < |s| && s[q[k] - 1].t < s[q[k]].t
    {
      if k < |p| {
        assert q[k] == p[k];
      }
    }
  }

  lemma AscendingAppend(p: seq<nat>, n: nat)
    requires Ascending(p) && forall k :: 0 <= k < |p| ==> p[k] < n
    ensures Ascending(p + [n])
  {
    var q := p + [n];
    forall k, l | 0 <= k < l < |q|
      ensures q[k] < q[l]
    {
      assert q[k] == p[k];
      if l < |p| {
        assert q[l] == p[l];
      }
    }
  }

  lemma StepsCoveredAppend(s: seq<Sample>, p: seq<nat>, n: nat)
    requires n == |s| - 1 && forall i :: 1 <= i < n && s[i - 1].t < s[i].t ==> i in p
    ensures StepsCovered(s, p + [n])
  {
    var q := p + [n];
    forall i | 1 <= i < |s| && s[i - 1].t < s[i].t
      ensures i in q
    {
      if i < n {
        assert i in p;
        var k :| 0 <= k < |p| && p[k] == i;
        assert q[k] == i;
      } else {
        assert q[|p|] == n;
      }
    }
  }

  /** Rate k is the rate of the pair ending at the k-th index of `idx`. */
  predicate RatesAtSteps(s: seq<Sample>, idx: seq<nat>, rates: seq<RatePoint>) {
    && |rates| == |idx|
    && forall k :: 0 <= k < |idx| ==>
         1 <= idx[k] < |s| && s[idx[k] - 1].t < s[idx[k]].t && rates[k] == PairRate(s[idx[k] - 1], s[idx[k]])
  }

  /** For any samples, rate k comes from the k-th positive time step: pairs
      whose step is zero or negative are skipped, and no other pair is. */
  lemma {:induction false} TurnRatesAtSteps(s: seq<Sample>)
    ensures RatesAtSteps(s, PositiveSteps(s), TurnRates(s))
    decreases |s|
  {
    if |s| >= 2 {
      var init := s[..|s| - 1];
      TurnRatesAtSteps(init);
      var p := PositiveSteps(init);
      var r := TurnRates(init);
      var n := |s| - 1;
      RatesLift(s, init, p, r);
      if s[n - 1].t < s[n].t {
        assert PositiveSteps(s) == p + [n];
        assert TurnRates(s) == r + [PairRate(s[n - 1], s[n])];
        RatesAppend(s, p, r, n);
      } else {
        assert PositiveSteps(s) == p;
        assert TurnRates(s) == r;
      }
    }
  }

  lemma RatesLift(s: seq<Sample>, init: seq<Sample>, p: seq<nat>, r: seq<RatePoint>)
    requires |s| >= 1 && init == s[..|s| - 1] && RatesAtSteps(init, p, r)
    ensures RatesAtSteps(s, p, r)
  {
    forall k | 0 <= k < |p|
      ensures 1 <= p[k] < |s| && s[p[k] - 1].t < s[p[k]].t && r[k] == PairRate(s[p[k] - 1], s[p[k]])
    {
      assert s[p[k] - 1] == init[p[k] - 1] && s[p[k]] == init[p[k]];
    }
  }

  lemma RatesAppend(s: seq<Sample>, p: seq<nat>, r: seq<RatePoint>, n: nat)
    requires RatesAtSteps(s, p, r) && 1 <= n < |s| && s[n - 1].t < s[n].t
    ensures RatesAtSteps(s, p + [n], r + [PairRate(s[n - 1], s[n])])
  {
    var q := p + [n];
    var r2 := r + [PairRate(s[n - 1], s[n])];
    forall k | 0 <= k < |q|
      ensures 1 <= q[k] < |s| && s[q[k] - 1].t < s[q[k]].t && r2[k] == PairRate(s[q[k] - 1], s[q[k]])
    {
      if k < |p| {
        assert q[k] == p[k] && r2[k] == r[k];
      }
    }
  }

  /** The samples (0,0), (1,10), (1,20), (2,30): the zero step between the
      second and third sample is skipped, leaving two rates. */
  lemma SkippedPairExample()
    ensures TurnRates([Sample(0.0, 0.0), Sample(1.0, 10.0), Sample(1.0, 20.0), Sample(2.0, 30.0)])
              == [RatePoint(1.0, 10.0), RatePoint(2.0, 10.0)]
  {
    var s := [Sample(0.0, 0.0), Sample(1.0, 10.0), Sample(1.0, 20.0), Sample(2.0, 30.0)];
    assert s[..3][..2] == [Sample(0.0, 0.0), Sample(1.0, 10.0)];
    assert s[..3][..2][..1] == [Sample(0.0, 0.0)];
  }

  /** `p` is the rate of some consecutive pair of `s` with a positive time
      step. */
  ghost predicate FromPositivePair(s: seq<Sample>, p: RatePoint) {
    exists i :: 1 <= i < |s| && s[i - 1].t < s[i].t && p == PairRate(s[i - 1], s[i])
  }

  /** Every rate point comes from a consecutive pair with a positive time
      step and carries the later sample's timestamp. */
  lemma {:induction false} TurnRatesSound(s: seq<Sample>)
    ensures forall k :: 0 <= k < |TurnRates(s)| ==> FromPositivePair(s, TurnRates(s)[k])
    decreases |s|
  {
    if |s| >= 2 {
      var init := s[..|s| - 1];
      TurnRatesSound(init);
      forall k | 0 <= k < |TurnRates(s)|
        ensures FromPositivePair(s, TurnRates(s)[k])
      {
        if k < |TurnRates(init)| {
          assert FromPositivePair(init, TurnRates(init)[k]);
          var i :| 1 <= i < |init| && init[i - 1].t < init[i].t && TurnRates(init)[k] == PairRate(init[i - 1], init[i]);
          assert s[i - 1] == init[i - 1] && s[i] == init[i];
          assert TurnRates(s)[k] == TurnRates(init)[k];
        } else {
          var i := |s| - 1;
          assert TurnRates(s)[k] == PairRate(s[i - 1], s[i]);
        }
      }
    }
  }

  /** When every time step is positive, nothing is skipped: rate k comes
      from samples k and k+1. */
  lemma {:induction false} TurnRatesComplete(s: seq<Sample>)
    requires forall i :: 0 < i < |s| ==> s[i - 1].t < s[i].t
    ensures |s| >= 1 ==> |TurnRates(s)| == |s| - 1
    ensures forall k :: 0 <= k < |TurnRates(s)| ==> TurnRates(s)[k] == PairRate(s[k], s[k + 1])
    decreases |s|
  {
    if |s| >= 2 {
      TurnRatesComplete(s[..|s| - 1]);
    }
  }

  predicate StrictlyIncreasing(pts: seq<RatePoint>) {
    forall i, j :: 0 <= i < j < |pts| ==> pts[i].t < pts[j].t
  }

  /** Rate points of time-ordered samples have strictly increasing
      timestamps, each later than the first sample. */
  lemma {:induction false} TurnRatesIncreasing(s: seq<Sample>)
    requires SortedByTime(s)
    ensures StrictlyIncreasing(TurnRates(s))
    ensures forall k :: 0 <= k < |TurnRates(s)| ==> s[0].t < TurnRates(s)[k].t <= s[|s| - 1].t
    decreases |s|
  {
    if |s| >= 2 {
      var init := s[..|s| - 1];
      TurnRatesIncreasing(init);
    }
  }

  function Rates(pts: seq<RatePoint>): (xs: seq<real>)
    ensures |xs| == |pts|
    ensures forall k :: 0 <= k < |pts| ==> xs[k] == pts[k].rate
  {
    seq(|pts|, k requires 0 <= k < |pts| => pts[k].rate)
  }

  function Sum(xs: seq<real>): real {
    if |xs| == 0 then 0.0 else Sum(xs[..|xs| - 1]) + xs[|xs| - 1]
  }

  /** np.mean over a non-empty list. */
  function Mean(xs: seq<real>): real
    requires |xs| > 0
  {
    Sum(xs) / (|xs| as real)
  }

  lemma {:induction false} SumBounds(xs: seq<real>, lo: real, hi: real)
    requires forall k :: 0 <= k < |xs| ==> lo <= xs[k] <= hi
    ensures lo * (|xs| as real) <= Sum(xs) <= hi * (|xs| as real)
    decreases |xs|
  {
    if |xs| > 0 {
      SumBounds(xs[..|xs| - 1], lo, hi);
    }
  }

  /** A mean lies between any lower and upper bound of its terms. */
  lemma MeanBounds(xs: seq<real>, lo: real, hi: real)
    requires |xs| > 0
    requires forall k :: 0 <= k < |xs| ==> lo <= xs[k] <= hi
    ensures lo <= Mean(xs) <= hi
  {
    SumBounds(xs, lo, hi);
    var n := |xs| as real;
    assert Sum(xs) / n >= lo * n / n;
    assert Sum(xs) / n <= hi * n / n;
  }

  /** The centred window of index i: [max(0, i - w/2), min(n, i + w/2 + 1)). */
  function WindowStart(i: nat, w: nat): nat {
    if i - w / 2 < 0 then 0 else i - w / 2
  }

  function WindowEnd(n: nat, i: nat, w: nat): nat {
    if n < i + w / 2 + 1 then n else i + w / 2 + 1
  }

  function WindowRates(pts: seq<RatePoint>, i: nat, w: nat): (xs: seq<real>)
    requires i < |pts|
    ensures 0 < |xs| <= w / 2 * 2 + 1
    ensures |xs| == WindowEnd(|pts|, i, w) - WindowStart(i, w)
    ensures forall k :: 0 <= k < |xs| ==> xs[k] == pts[WindowStart(i, w) + k].rate
  {
    Rates(pts[WindowStart(i, w)..WindowEnd(|pts|, i, w)])
  }

  /** The centred moving average; a sequence shorter than the window is
      returned as it is. The C++ compares the `int` window with the
      vector's unsigned `size()`, so a negative window is converted to a
      value no vector length reaches and the rates come back unsmoothed. */
  function Smooth(pts: seq<RatePoint>, w: int): (r: seq<RatePoint>)
    ensures |r| == |pts|
    ensures forall i :: 0 <= i < |pts| ==> r[i].t == pts[i].t
    ensures w < 0 || |pts| < w ==> r == pts
    ensures 0 <= w <= |pts| ==> forall i :: 0 <= i < |pts| ==> r[i].rate == Mean(WindowRates(pts, i, w))
  {
    if w < 0 || |pts| < w then pts
    else seq(|pts|, i requires 0 <= i < |pts| => RatePoint(pts[i].t, Mean(WindowRates(pts, i, w))))
  }

  /** Smoothing never leaves the range of the input rates: a bound that
      every raw rate respects (say, all above a threshold) holds for every
      smoothed rate too. */
  lemma SmoothKeepsBounds(pts: seq<RatePoint>, w: int, lo: real, hi: real)
    requires forall k :: 0 <= k < |pts| ==> lo <= pts[k].rate <= hi
    ensures forall k :: 0 <= k < |pts| ==> lo <= Smooth(pts, w)[k].rate <= hi
  {
    if 0 <= w <= |pts| {
      forall k | 0 <= k < |pts|
        ensures lo <= Smooth(pts, w)[k].rate <= hi
      {
        var xs := WindowRates(pts, k, w);
        var a := WindowStart(k, w);
        forall j | 0 <= j < |xs|
          ensures lo <= xs[j] <= hi
        {
          assert xs[j] == pts[a + j].rate;
        }
        MeanBounds(xs, lo, hi);
      }
    }
  }

  /** The C++ window average: a running sum over [start_idx, end_idx)
      divided by the count, 0 for an empty window. It equals the Python
      np.mean of the same window. */
  method WindowAverage(pts: seq<RatePoint>, i: nat, w: nat) returns (avg: real)
    requires i < |pts|
    ensures avg == Mean(WindowRates(pts, i, w))
  {
    var start := WindowStart(i, w);
    var stop := WindowEnd(|pts|, i, w);
    var sum := 0.0;
    var count := 0;
    var j := start;
    while j < stop
      invariant start <= j <= stop
      invariant count == j - start
      invariant sum == Sum(Rates(pts[start..j]))
    {
      assert Rates(pts[start..j + 1])[..j - start] == Rates(pts[start..j]);
      sum := sum + pts[j].rate;
      count := count + 1;
      j := j + 1;
    }
    assert pts[start..j] == pts[start..stop];
    avg := if count > 0 then sum / (count as real) else 0.0;
  }
}
